=== FILE: README.md ===
# Aqui Lidero: history, record store and taxonomy in Dafny

Aqui Lidero is a wellness journal that runs in the browser. Each user is
identified by a password. A user records observations (sleep quality,
dreams, food, cannabis use, physical activity, hydration) against the
"biologico" cycle. The records are kept in one JSON document in
`localStorage`, and the history screen shows them as cards or as a table,
with charts, pagination and a CSV export.

This project models three parts of the program as pure functions over
immutable data:

- **Taxonomy** (`taxonomy.dfy`, js/data/data.js). It models the cycle, its
  categories and subcategories, the 1..5 value labels, the category and
  subcategory lookups, the flattened descriptor list, `formatValue` and
  `getStatusClass`. JavaScript values are `Values.Value` and `parseInt`
  is modelled in full (`values.dfy`).
- **Record store** (`storage.dfy`, js/data/storage.js). The store is a map
  from password to user plus the signed-in password. Every write is
  followed by a `writeOk` flag, because the `localStorage` write may
  fail. The model covers creating users, renaming them and changing
  passwords, signing in and out, and adding, querying and clearing
  records.
- **History engine** (`report.dfy` and the modules it uses,
  js/modules/report.js). The report view is a `Report.State`. The model
  covers:
  - the enabled-category set: `loadCategories`, `switchCycle` and
    `applyCategories`;
  - fetching and sorting records, with the average rating
    (`ranking.dfy`);
  - pagination and the page-button row (`pagination.dfy`);
  - the card view's grouping of one record's values (`grouping.dfy`);
  - the table view's columns and cells (`columns.dfy`);
  - the trend and radar chart data (`charts.dfy`);
  - the CSV export (`export.dfy`).

`sequences.dfy`, `text.dfy` and `records.dfy` hold the shared
definitions: a stable insertion sort, split and join, and the record
datatype with its two date orders.

Where the written description of the program and its code differ, the
model follows the code:

- The radar chart shows `filteredRecords[0]`, which is not always the
  newest record. After `updateReports` it is the newest fetched record
  (`Report.UpdateReportsRadarNewest`). `applyCategories` redraws from the
  list in its current sort order, so after an ascending sort the radar
  shows the oldest record (`Report.ApplyAfterAscendingSortShowsOldest`).
- A trend point is `value || null`. So `0`, `""` and `false` are plotted
  as gaps too, not only missing values.
- A table cell reads its note under the value's own key. A note shows
  only for a non-blank string value, and that note is the value itself.
  A truthy value that is not a string throws at `.trim()`.
- `getRecords` filters by period only when both dates are given. The
  cycle filter is skipped when the cycle id is empty.
- The end date becomes `new Date(endDate)`, midnight UTC at the start
  of the end day. So the history leaves out everything made later on the
  end day, which is today by default (`Report.FetchDropsRestOfEndDay`).

## Model

| member | source | states |
|---|---|---|
| Taxonomy.ValueLabelInjective | js/data/data.js:8-14 | No two ratings on the 1..5 scale share a label |
| Taxonomy.FindCategory | js/data/data.js:71-76 | An unknown cycle gives nothing. A found category belongs to the cycle and has the requested id. Nothing is found only when no category of the cycle has that id |
| Taxonomy.FindSubcategory | js/data/data.js:79-84 | Nothing is found when the category is not found. A found subcategory has the requested id and belongs to that category. Nothing is found in a found category only when none of its subcategories has that id |
| Sequences.FindIndex | js/data/data.js:71-84 | The lookups take the first element that passes the test, and report none exactly when no element passes |
| Taxonomy.GetAllSubcategories | js/data/data.js:87-106 | An unknown cycle gives the empty list. Otherwise the list has one descriptor per subcategory of the cycle |
| Taxonomy.FlattenAppend | js/data/data.js:91-102 | Flattening two runs of categories gives the first run's descriptors followed by the second's |
| Taxonomy.FlattenAt | js/data/data.js:91-102 | Subcategory k of category i sits at position (subcategories of the earlier categories) + k: category order first, then subcategory order |
| Taxonomy.FlattenMembers | js/data/data.js:87-106 | A descriptor is in the flattened list exactly when it describes some subcategory of some category |
| Taxonomy.FullIdsUnique | js/data/data.js:87-106 | When category ids are distinct and no id contains '-', the full ids `category-subcategory` are pairwise distinct |
| Taxonomy.BiologicoDescriptors | js/data/data.js:17-68 | The biologico cycle has 8 subcategories with pairwise distinct full ids |
| Report.BiologicoFlattened | js/data/data.js:17-106 | The biologico descriptors come out as sleep quality, bed time, mind, dreams, food, cannabis, exercise, hydration |
| Taxonomy.FormatValue | js/data/data.js:131-147 | A missing or null value shows '-'. A boolean subcategory shows 'Sim' or 'Não' by truthiness. A value that parses to a rating on the 1..5 scale shows that rating's label; any other value shows unchanged |
| Taxonomy.FormatValueIdempotent | js/data/data.js:131-147 | For a non-boolean subcategory, formatting a formatted value changes nothing |
| Taxonomy.GetStatusClass | js/data/data.js:108-114 | A falsy value gets no class and `true` gets 'status-excellent' |
| Taxonomy.StatusClassOfRating | js/data/data.js:108-127 | For a value that is not a boolean, ratings 5, 4, 3, 2, 1 get 'status-excellent', 'status-good', 'status-regular', 'status-bad', 'status-terrible', and a value that is not a rating gets no class |
| Taxonomy.StatusClassMatchesLabel | js/data/data.js:109-147 | A non-boolean value gets a status colour exactly when it parses to a rating on the 1..5 scale. That rating's label is then the formatted text, so the colour and the text agree |
| Storage.GetUser | js/data/storage.js:91-94 | A user is returned exactly when the password is a key of the store |
| Storage.SaveUser | js/data/storage.js:38-49 | A successful write stores the user under the password, adds exactly that key and keeps every other user. A failed write changes nothing |
| Storage.CreateUser | js/data/storage.js:52-58 | A new user has the given name, an empty record list and no last record. Other users are unchanged |
| Storage.UpdateUserName | js/data/storage.js:61-67 | Fails without change for an unknown password. Otherwise only the name of that user changes |
| Storage.UpdateUserPassword | js/data/storage.js:70-88 | Fails for an unknown password. The user moves to the new password and the old key disappears. The session is not moved |
| Storage.Login | js/data/storage.js:97-104 | Succeeds exactly for a stored password and then makes it the current user. A failure changes nothing |
| Storage.Logout | js/data/storage.js:107-109 | Nobody is signed in afterwards and the users are unchanged |
| Storage.GetCurrentUser | js/data/storage.js:112-115 | Nothing when nobody is signed in (null or ''). Otherwise the user stored under the session password |
| Storage.AddRecord | js/data/storage.js:118-143 | Fails without change when nobody is signed in. A successful add appends exactly one record, sets the last-record snapshot and leaves every other user unchanged |
| Storage.GetRecords | js/data/storage.js:146-163 | The result is newest first. Each stored record appears as often as it is stored if it matches the cycle and period filter, otherwise not at all |
| Storage.GetLastRecord | js/data/storage.js:166-173 | The signed-in user's last-record snapshot, or nothing when nobody is signed in |
| Storage.ClearCurrentUserData | js/data/storage.js:176-186 | The signed-in user keeps the name but has no records and no last record. Other users are unchanged |
| Storage.DateBound | js/data/storage.js:155-157 | A date input's bound is midnight UTC at the start of its day |
| Storage.EndOfDay | js/data/storage.js:155-157 | The corrected end bound is the last instant of the end day: the next instant falls on the next day |
| Storage.DateBoundsKeep | js/data/storage.js:155-157 | As written, a record in the period lies between the first instant of the start day and the midnight that starts the end day |
| Storage.DateBoundsIff | js/data/storage.js:146-163 | As written, a record is in the period exactly when its cycle matches and it lies between the first instant of the start day and the midnight that starts the end day |
| Storage.GetRecordsWithinDays | js/data/storage.js:146-163 | A query with both date inputs returns stored records within those bounds |
| Storage.EndDayDroppedAsWritten | js/data/storage.js:155-157 | As written, a record made after midnight on the end day is outside the period |
| Storage.SameDayPeriodAsWritten | js/data/storage.js:146-163 | A record made at noon of day 2, queried for day 2 to day 2: as written nothing is returned, with the corrected end bound the record is |
| Storage.DayPeriodKeepsWholeDays | js/data/storage.js:146-163 | With the corrected end bound a record is in the period exactly when it matches the cycle and falls on a day from the start day to the end day |
| Storage.GetRecordsSubset | js/data/storage.js:146-163 | A query returns a sub-multiset of the stored records |
| Storage.GetRecordsUnfiltered | js/data/storage.js:146-163 | With no cycle and without both dates, every stored record is returned |
| Storage.CreateThenLogin | js/data/storage.js:52-58 | After creating a user, signing in with its non-empty password succeeds. The current user is the new user, with no records and no last record |
| Storage.AddThenQuery | js/data/storage.js:118-163 | A record just added becomes the last record and is returned by a query for its own cycle. The unfiltered query grows by exactly one |
| Storage.ClearThenQuery | js/data/storage.js:146-186 | After clearing, every query returns nothing |
| Storage.LoginThenLogout | js/data/storage.js:97-109 | Signing in then out leaves the store as signing out alone would |
| Storage.EmptyPasswordIsSignedOut | js/data/storage.js:97-143 | A user stored under '' can sign in, yet the session counts as signed out and adding a record fails |
| Storage.PasswordChangeOrphansSession | js/data/storage.js:70-143 | Changing the signed-in user's password leaves the session on the old key. The current user is then gone and adding a record fails until they sign in again with the new password |
| Storage.LoginAsWritten | js/data/storage.js:22-25 | As written, sign-in succeeds for a stored password or any truthy property name inherited from Object.prototype |
| Storage.LoginAsWrittenAcceptsInheritedKey | js/data/storage.js:97-104 | On an empty store the password 'toString' signs in as written, but not under the own-key test |
| Storage.LoginAgreesOffPrototype | js/data/storage.js:22-25 | For every password that is not an inherited property name, the as-written sign-in and the corrected one agree |
| Records.AscendingIsReversedDescending | js/modules/report.js:461-480 | When no two records share a timestamp, oldest-first order is the reverse of newest-first order |
| Records.OldestFirstUnique | js/modules/report.js:461-480 | An oldest-first arrangement of the records with distinct timestamps is the sort's result |
| Ranking.CountsIffParses | js/modules/report.js:483-499 | A value counts toward the average exactly when `parseInt` reads a number from it. Booleans and null never count |
| Ranking.SumBounds | js/modules/report.js:483-499 | Ratings within [lo, hi] sum to between lo·n and hi·n |
| Ranking.AverageWithinBounds | js/modules/report.js:483-499 | When every counted rating lies in [lo, hi], the average does too |
| Ranking.NoNumbersNoRatings | js/modules/report.js:483-499 | A record holding only booleans and nulls yields no counted ratings |
| Ranking.NoNumbersAverageZero | js/modules/report.js:483-499 | The average of a record without numeric values is 0 |
| Ranking.SortRecords | js/modules/report.js:461-480 | The result is a permutation of the input, ordered by date or by average rating as the option says. An unknown option leaves the order unchanged |
| Pagination.PageCount | js/modules/report.js:502-518 | At least one page. With records, the last page is non-empty and all records fit |
| Pagination.PageSlice | js/modules/report.js:502-518 | Page p holds at most perPage records: those from position (p-1)·perPage on, in order. It is full unless it reaches the end of the list |
| Pagination.PagesPartition | js/modules/report.js:502-518 | The pages, joined in order, are exactly the record list |
| Pagination.PagesNonEmpty | js/modules/report.js:502-518 | Every page in range is non-empty when there are records, and every page before the last is full |
| Pagination.WindowBounds | js/modules/report.js:527-533 | The window holds the current page, stays within 1..total and spans five pages (fewer only when there are fewer). It centres the current page when there is room |
| Pagination.ButtonAt | js/modules/report.js:536-579 | The button at each position: first-page shortcut, ellipsis, window pages with the current one active, ellipsis, last-page shortcut |
| Pagination.ButtonShortcuts | js/modules/report.js:536-579 | The shortcuts and ellipses appear exactly when the window does not reach the first or last page, or leaves a gap there |
| Pagination.ButtonsRange | js/modules/report.js:521-579 | The row runs from page 1 to the last page, and every page number lies in 1..total |
| Pagination.ButtonsGaps | js/modules/report.js:521-579 | Adjacent page buttons show consecutive pages. An ellipsis stands only between two pages that are not adjacent |
| Pagination.ButtonsActive | js/modules/report.js:536-561 | Exactly the current page is marked active, and it is present |
| Grouping.ClassifyFullId | js/modules/report.js:809-821 | A full id without extra dashes is read as the value key of its category and subcategory |
| Grouping.ClassifyNotesKey | js/modules/report.js:809-821 | A full id followed by '-notes' is read as the notes key of its category and subcategory |
| Grouping.NotesSuffixOfFullId | js/modules/report.js:814 | A dash-free full id ends in '-notes' only when the subcategory id is 'notes' |
| Grouping.SkeletonFind | js/modules/report.js:789-802 | The skeleton has an entry for a category/subcategory pair exactly when some descriptor names it. The entry starts with null value and notes |
| Grouping.FillFind | js/modules/report.js:808-827 | Filling from a record's data sets each existing entry's value and notes to the last matching key's value, and creates no entries |
| Grouping.GroupedValues | js/modules/report.js:785-830 | The grouped result has an entry exactly for each descriptor's pair. Its value is the record's last value for that pair and its notes the last notes value |
| Grouping.Items | js/modules/report.js:738-768 | A category's items are its enabled subcategories, in key order, each shown with its name, value and notes |
| Grouping.ItemsShowEnabled | js/modules/report.js:738-768 | Every enabled subcategory of the category has an item, and every item comes from an enabled subcategory |
| Grouping.Sections | js/modules/report.js:692-770 | The sections are the categories with at least one enabled subcategory, in key order, each holding its enabled items |
| Grouping.SectionsEmptyIff | js/modules/report.js:692-698 | No section is shown exactly when no category has an enabled subcategory |
| Grouping.SectionsShowEnabled | js/modules/report.js:692-698 | Every category with an enabled subcategory gets its section |
| Grouping.SectionsOnlyEnabled | js/modules/report.js:692-698 | Every section is that of some category with an enabled subcategory |
| Columns.SelectColumns | js/modules/report.js:852-860 | The columns are exactly the descriptors whose full id is selected, each as often as in the taxonomy, sorted by category name then subcategory name |
| Columns.ColumnsUnique | js/modules/report.js:852-860 | When no two selected descriptors share both names, any name-sorted arrangement of them is the column list |
| Columns.TableCell | js/modules/report.js:882-912 | A cell is '-' exactly for a missing or null value. It throws exactly for a truthy non-string. Otherwise it shows the formatted value with its status class, and a note only as a non-blank string equal to the value |
| Columns.NoteIsTheValue | js/modules/report.js:897-898 | A shown cell has a note exactly when the value is a non-blank string |
| Columns.TableView | js/modules/report.js:834-919 | No records shows the empty message. The table fails to render exactly when some cell of some shown record throws |
| Columns.TableShape | js/modules/report.js:862-912 | Whenever rendering succeeds, the table has one header per column plus the date. It has one row per shown record, in order, each as wide as the header, and '-' exactly where the value is missing or null |
| Charts.Candidates | js/modules/report.js:951-956 | The chartable subcategories are exactly the enabled, non-boolean ones |
| Charts.CandidatesInOrder | js/modules/report.js:951-956 | The candidates keep taxonomy order: those of a list split in two are the first part's followed by the second's, and one descriptor is a candidate exactly when it is plotted |
| Charts.TrendPoint | js/modules/report.js:973 | A point is present exactly when the value is truthy, and it is then that value |
| Charts.TrendChart | js/modules/report.js:948-989 | One x value per record, in ascending date order. At most five series, one per candidate, titled 'category - subcategory', each with one point per record in that order |
| Charts.RadarValue | js/modules/report.js:1009-1012 | A missing or null value plots as 0, any other value as itself |
| Charts.RadarChart | js/modules/report.js:992-1021 | At most eight axes, the first candidates, each with its title and the given record's value |
| Charts.UpdateCharts | js/modules/report.js:923-944 | No records clears both charts. Otherwise the trend covers every record and the radar shows the first one |
| Charts.RadarReadsOnlyHead | js/modules/report.js:923-944 | Two lists with the same first record give the same radar |
| Charts.RadarShowsNewest | js/modules/report.js:923-944 | For a newest-first list the radar shows a record no other record is newer than |
| Charts.TrendIgnoresOrder | js/modules/report.js:948-989 | The trend does not depend on the order the records arrive in when their timestamps are distinct |
| Charts.TrendSeriesAreRadarAxes | js/modules/report.js:948-1021 | The trend's series are the first radar axes, in the same order |
| Export.Headers | js/modules/report.js:1691-1699 | The header starts with 'Data' and 'Hora'. Then each column has its title and, with notes, 'Observações: ' plus the title |
| Export.ValueField | js/modules/report.js:1711-1716 | With formatting, the field is the formatted value's text. Otherwise it is the raw value's text, or empty for a missing or null value |
| Export.NotesField | js/modules/report.js:1718-1721 | The notes field is the value's text when it is truthy, and empty otherwise |
| Export.ColumnFields | js/modules/report.js:1709-1722 | One column's cells: its value field, then its notes field when notes are included |
| Export.ColumnsFields | js/modules/report.js:1709-1722 | Column j's value field is cell j without notes. With notes, it is cell 2j and column j's notes field is cell 2j+1 |
| Export.RowFields | js/modules/report.js:1702-1725 | A row has the record's date and time, then column j's value field at 2+j without notes, or its value and notes fields at 2+2j and 3+2j with notes. The row is as wide as the header |
| Export.MissingValueField | js/modules/report.js:1711-1716 | A missing or null value is written as '' raw and as '-' formatted |
| Export.Grid | js/modules/report.js:1691-1725 | The file is the header row followed by one row per exported record, in order, every row as wide as the header |
| Export.CsvRoundTrip | js/modules/report.js:1728-1731 | When no field contains ',' or a newline, splitting the content on newlines and commas gives back exactly the rows |
| Export.FileName | js/modules/report.js:1742-1746 | The name starts with 'aqui-lidero-' and the cycle id and ends in '.csv'. It carries the period exactly when both dates are non-empty |
| Export.ExportRecords | js/modules/report.js:1650-1663 | Newest first. Either exactly the filtered records or every record of the cycle |
| Export.PerformExport | js/modules/report.js:1613-1676 | Nothing is exported exactly when no subcategory is selected. Otherwise a file is produced exactly for a known format, under the file name of the cycle and period |
| Export.ExportedFile | js/modules/report.js:1613-1754 | When no field holds a comma or line break, decoding an exported file gives the header and one row per exported record, each as wide as the header |
| Export.AllRecordsIgnoresPeriod | js/modules/report.js:1650-1663 | Exporting all records yields every stored record of the cycle, whatever period is on screen |
| Report.FullIds | js/modules/report.js:376-383 | The set holds exactly the full ids of the descriptors |
| Report.LoadCategories | js/modules/report.js:376-383 | Loads the cycle's descriptors and adds all their full ids to the enabled set. Nothing else changes |
| Report.LoadCategoriesIdempotent | js/modules/report.js:376-383 | Loading twice is the same as loading once |
| Report.Init | js/modules/report.js:7-71 | The initial view is consistent: biologico cycle, newest first, cards, page 1 of 10 per page, every subcategory enabled |
| Report.UpdatePagination | js/modules/report.js:502-518 | Recomputes the page count, clamps the page to it and shows that page's slice. The view is then consistent |
| Report.Fetch | js/modules/report.js:426-432 | The fetched records are stored records of the cycle, newest first. With both dates given, each lies between the first instant of the start day and the midnight that starts the end day |
| Report.FetchMembers | js/modules/report.js:426-432 | A record is fetched exactly when it is stored, belongs to the cycle (when one is named) and, with both dates given, lies between the first instant of the start day and the midnight that starts the end day |
| Report.FetchDropsRestOfEndDay | js/modules/report.js:426-432 | With day 2 as both start and end date, a record made at noon of day 2 is not fetched |
| Report.UpdateReports | js/modules/report.js:421-446 | The list becomes the fetched records sorted by the current option, and the charts are drawn from the fetched order. The page count is that of the fetched records and the page is clamped to it. The view is consistent |
| Report.UpdateReportsRadarNewest | js/modules/report.js:421-446 | After a refresh the radar shows a record no fetched record is newer than |
| Report.ChangePage | js/modules/report.js:597-612 | Previous, next and direct jumps keep the view consistent and land on the clamped page |
| Report.PageButtonsLeadToTheirPage | js/modules/report.js:536-579 | Clicking any page button lands on the page it shows |
| Report.SetPerPage | js/modules/report.js:145-152 | Changing the page size goes to page 1 and keeps the view consistent |
| Report.SetSortAsWritten | js/modules/report.js:91-96 | As written, a sort change re-sorts the list but leaves the page, the page count and the shown slice as they were |
| Report.SortChangeLeavesStalePage | js/modules/report.js:91-96 | With two records shown one per page, switching to oldest first keeps showing the newer record as written. The corrected change shows the older one |
| Report.SetSort | js/modules/report.js:91-96 | A sort change re-sorts the list and re-paginates, keeping the page and a consistent view |
| Report.SetView | js/modules/report.js:615-633 | Only the view mode changes |
| Report.Display | js/modules/report.js:636-664 | The cards view shows one card per record of the current page. The table view shows the table of that page |
| Report.DisplayIsOnePage | js/modules/report.js:502-518 | In a consistent view the page shows at most one page of records, none when empty, all taken from the list |
| Report.ApplyCategories | js/modules/report.js:1212-1238 | The enabled set becomes the checked set. The charts are redrawn from the list in its current order unless the table throws first, in which case they keep their old data. Nothing else changes |
| Report.DisplayThrowsIff | js/modules/report.js:636-664 | Showing the page throws exactly in the table view when some shown record holds a truthy non-string value in some column |
| Report.TableThrowKeepsCharts | js/modules/report.js:1236-1237 | In the table view, a shown record holding the number 5 for sleep quality makes the table throw, and applying categories then leaves the charts as they were |
| Report.ApplyAfterAscendingSortShowsOldest | js/modules/report.js:1212-1238 | After an oldest-first refresh, applying categories puts an oldest record on the radar whenever the page is shown without throwing |
| Report.SwitchCycle | js/modules/report.js:386-418 | The same cycle changes nothing. Another cycle enables exactly its subcategories and refetches that cycle's records of the period. It keeps the page, clamped to the new page count, and the view stays consistent |
| Report.ThreeDaysCharts | js/modules/report.js:923-1021 | Three sleep-quality records rated 5, 3, 1 on days 1..3 plot as times 1, 2, 3 with points 5, 3, 1, and the newest (1) on the radar |
| Report.OneDayPeriod | js/data/storage.js:146-163 | Both bounds are inclusive instants: the query from instant 2 to instant 2 returns exactly the record stamped 2 |
| Report.FiveRecordsTwoPerPage | js/modules/report.js:502-518 | Five records at two per page make three pages, the last holding the fifth record |

## Left out

- Rendering: the DOM, Chart.js, colours, icons, modals, the export preview and the loading spinner. The model stops at the data each view draws.
- The `setTimeout` around a refresh: refreshes are modelled as synchronous.
- `localStorage` and JSON: the document is the `Store` map, and whether a write succeeds is the `writeOk` parameter. `init`, `getUsers` and `exportAllData` are not modelled.
- Values.ParseInt, Values.ToText: numbers are unbounded integers. JavaScript doubles, fractions (`parseInt(4.5)` reads 4) and the exponent text `String(n)` gives for magnitudes of 1e21 and more (read back by `parseInt` as a single digit) are not modelled.
- Storage.DateBound: days are UTC days counted from 1970-01-01; time zones and leap seconds are not modelled. The history fetches with the end bound as written (see Findings).
- Dates: timestamps are integers. `new Date(...)`, the date inputs and `toLocaleDateString`/`toLocaleTimeString` are function parameters or opaque strings. `localeCompare` is modelled as code-unit order.
- Record ids from `Date.now()` are a parameter of `Storage.AddRecord`.
- `Report.ChangePage` takes an integer page. The `NaN` a malformed `data-page` would give is not modelled.
- `Report.UpdatePagination` requires a positive page size, which the page-size options guarantee. A size of 0 is not modelled.
- `Report.SwitchCycle` states consistency only when the view was already consistent.
- The select-all and deselect-all buttons are not modelled. They only set the checkbox state that `Report.ApplyCategories` receives.
- The alerts `exportAsExcel` and `exportAsPDF` show are not modelled. Both formats are modelled as producing the same CSV file, as they do.
- Property names inherited from `Object.prototype` used as cycle, category or user keys are not modelled. The one exception is sign-in, listed under Findings.
- auth.js, edit.js, nav.js, config.js and the QR utilities are not part of this model.

## Findings

| source | as written | input that shows it | evidently intended | confidence | as-written member | corrected member |
|---|---|---|---|---|---|---|
| js/data/storage.js:22-25 | `userExists` tests `!!users[password]` on a plain object, so `login` accepts inherited property names | password `toString` on a store with no users | sign in only for a stored password (own key) | not executed | Storage.LoginAsWrittenAcceptsInheritedKey | Storage.Login |
| js/data/storage.js:155-157 | `new Date(endDate)` on a `YYYY-MM-DD` input is midnight UTC at the start of the end day, so records made later that day are left out | a record at noon of day 2, period from day 2 to day 2 | include the whole end day | not executed | Storage.SameDayPeriodAsWritten | Storage.EndOfDay |
| js/modules/report.js:91-96 | the sort handler re-sorts the list but does not call `updatePagination`, so the page shows records of the old order | two records, one per page, on page 1 sorted newest first, switched to oldest first | re-paginate after sorting | not executed | Report.SortChangeLeavesStalePage | Report.SetSort |

=== FILE: charts.dfy ===
/** The data the trend and radar charts plot (`updateCharts`,
    `updateTrendChart` and `updateRadarChart` in js/modules/report.js). */
module Charts {
  import opened Values
  import opened Records
  import Sequences
  import Taxonomy
  import Columns

  type Descriptor = Taxonomy.Descriptor

  /** At most this many series on the trend chart. */
  const TrendLimit := 5
  /** At most this many axes on the radar chart. */
  const RadarLimit := 8

  predicate Plotted(enabled: set<string>, d: Descriptor) {
    d.fullId in enabled && d.kind != Taxonomy.BooleanKind
  }

  /** `allCategories.filter(s => enabled.has(s.fullId) && s.type !== 'boolean')`,
      in taxonomy order. */
  function Candidates(all: seq<Descriptor>, enabled: set<string>): (r: seq<Descriptor>)
    ensures |r| <= |all|
    ensures forall d :: d in r <==> d in all && d.fullId in enabled && d.kind != Taxonomy.BooleanKind
  {
    var r := Sequences.Filter(all, d => Plotted(enabled, d));
    assert forall d :: d in r <==> d in multiset(r);
    r
  }

  /** The candidates keep the taxonomy order: those of a concatenation are
      the first part's followed by the second's, and a single descriptor
      is a candidate exactly when it is plotted. */
  lemma CandidatesInOrder(a: seq<Descriptor>, b: seq<Descriptor>, enabled: set<string>)
    ensures Candidates(a + b, enabled) == Candidates(a, enabled) + Candidates(b, enabled)
    ensures forall d :: Candidates([d], enabled) == if Plotted(enabled, d) then [d] else []
  {
    Sequences.FilterAppend(a, b, d => Plotted(enabled, d));
    forall d ensures Candidates([d], enabled) == if Plotted(enabled, d) then [d] else [] {
      assert [d][1..] == [];
    }
  }

  /** One trend line: its label and one point per record, `None` standing
      for `null`. */
  datatype Series = Series(title: string, points: seq<Option<Value>>)

  /** The trend chart: the x axis (one timestamp per record, each shown as
      its date) and the lines. */
  datatype Trend = Trend(times: seq<int>, series: seq<Series>)

  /** `record.data[sub.fullId] || null` */
  function TrendPoint(r: Record, d: Descriptor): (p: Option<Value>)
    ensures p.Some? <==> TruthyOpt(Lookup(r.data, d.fullId))
    ensures p.Some? ==> p == Lookup(r.data, d.fullId)
  {
    var v := Lookup(r.data, d.fullId);
    if TruthyOpt(v) then v else None
  }

  function Points(sorted: seq<Record>, d: Descriptor): (ps: seq<Option<Value>>)
    ensures |ps| == |sorted| && forall i :: 0 <= i < |sorted| ==> ps[i] == TrendPoint(sorted[i], d)
  {
    seq(|sorted|, i requires 0 <= i < |sorted| => TrendPoint(sorted[i], d))
  }

  /** `updateTrendChart` */
  function TrendChart(filtered: seq<Record>, all: seq<Descriptor>, enabled: set<string>): (t: Trend)
    ensures var cands := Candidates(all, enabled); var sorted := SortOldestFirst(filtered);
      && |t.times| == |filtered|
      && (forall i :: 0 <= i < |filtered| ==> t.times[i] == sorted[i].dateTime)
      && (forall i, j :: 0 <= i < j < |t.times| ==> t.times[i] <= t.times[j])
      && |t.series| == (if |cands| < TrendLimit then |cands| else TrendLimit)
      && forall k :: 0 <= k < |t.series| ==>
        && t.series[k].title == Columns.Title(cands[k])
        && |t.series[k].points| == |filtered|
        && forall i :: 0 <= i < |filtered| ==> t.series[k].points[i] == TrendPoint(sorted[i], cands[k])
  {
    var cands := Sequences.Take(Candidates(all, enabled), TrendLimit);
    var sorted := SortOldestFirst(filtered);
    var times := seq(|sorted|, i requires 0 <= i < |sorted| => sorted[i].dateTime);
    Trend(times, seq(|cands|, k requires 0 <= k < |cands| => Series(Columns.Title(cands[k]), Points(sorted, cands[k]))))
  }

  /** The radar chart: one label and one value per axis. */
  datatype Radar = Radar(labels: seq<string>, data: seq<Value>)

  /** `value !== undefined && value !== null ? value : 0` */
  function RadarValue(r: Record, d: Descriptor): (v: Value)
    ensures Lookup(r.data, d.fullId).None? || Lookup(r.data, d.fullId) == Some(VNull) ==> v == VInt(0)
    ensures Lookup(r.data, d.fullId).Some? && Lookup(r.data, d.fullId) != Some(VNull) ==>
      v == Lookup(r.data, d.fullId).value
  {
    match Lookup(r.data, d.fullId)
    case None => VInt(0)
    case Some(x) => if x.VNull? then VInt(0) else x
  }

  /** `updateRadarChart`, given `filteredRecords[0]`. */
  function RadarChart(latest: Record, all: seq<Descriptor>, enabled: set<string>): (r: Radar)
    ensures var cands := Candidates(all, enabled);
      && |r.labels| == |r.data| == (if |cands| < RadarLimit then |cands| else RadarLimit)
      && forall k :: 0 <= k < |r.labels| ==>
        r.labels[k] == Columns.Title(cands[k]) && r.data[k] == RadarValue(latest, cands[k])
  {
    var cands := Sequences.Take(Candidates(all, enabled), RadarLimit);
    Radar(seq(|cands|, k requires 0 <= k < |cands| => Columns.Title(cands[k])),
          seq(|cands|, k requires 0 <= k < |cands| => RadarValue(latest, cands[k])))
  }

  datatype Plots = Plots(trend: Trend, radar: Radar)

  const NoPlots := Plots(Trend([], []), Radar([], []))

  /** `updateCharts`: both charts are cleared when there are no records;
      otherwise the trend covers every record and the radar shows the
      first one in the current order. */
  function UpdateCharts(filtered: seq<Record>, all: seq<Descriptor>, enabled: set<string>): (p: Plots)
    ensures |filtered| == 0 ==> p == NoPlots
    ensures |filtered| > 0 ==>
      p == Plots(TrendChart(filtered, all, enabled), RadarChart(filtered[0], all, enabled))
  {
    if |filtered| == 0 then NoPlots
    else Plots(TrendChart(filtered, all, enabled), RadarChart(filtered[0], all, enabled))
  }

  /** The radar reads only the first record: two lists with the same head
      give the same radar, whatever follows it. */
  lemma RadarReadsOnlyHead(a: seq<Record>, b: seq<Record>, all: seq<Descriptor>, enabled: set<string>)
    requires |a| > 0 && |b| > 0 && a[0] == b[0]
    ensures UpdateCharts(a, all, enabled).radar == UpdateCharts(b, all, enabled).radar
  {
  }

  /** When the records are in the store's newest-first order the radar
      shows a most recent record. */
  lemma RadarShowsNewest(filtered: seq<Record>, all: seq<Descriptor>, enabled: set<string>)
    requires |filtered| > 0 && NewestFirst(filtered)
    ensures exists latest ::
      && latest in filtered
      && (forall x :: x in filtered ==> x.dateTime <= latest.dateTime)
      && UpdateCharts(filtered, all, enabled).radar == RadarChart(latest, all, enabled)
  {
    NewestFirstHead(filtered);
    assert filtered[0] in filtered;
  }

  /** The trend does not depend on the order the records arrive in, as long
      as no two share a timestamp: it sorts them itself. */
  lemma {:induction false} TrendIgnoresOrder(a: seq<Record>, b: seq<Record>, all: seq<Descriptor>, enabled: set<string>)
    requires multiset(a) == multiset(b)
    requires DistinctTimes(a)
    ensures TrendChart(a, all, enabled) == TrendChart(b, all, enabled)
  {
    var sa := SortOldestFirst(a);
    var sb := SortOldestFirst(b);
    assert Sequences.SortedBy(sa, DateAscLe) && Sequences.SortedBy(sb, DateAscLe);
    DistinctTimesNoTies(sa, a);
    Sequences.SortedPermutationUnique(sa, sb, DateAscLe);
    assert |a| == |multiset(a)| == |b|;
  }

  /** The trend's series are the first radar axes, in the same order. */
  lemma TrendSeriesAreRadarAxes(filtered: seq<Record>, all: seq<Descriptor>, enabled: set<string>)
    requires |filtered| > 0
    ensures var p := UpdateCharts(filtered, all, enabled);
      && |p.trend.series| <= |p.radar.labels|
      && forall k :: 0 <= k < |p.trend.series| ==> p.trend.series[k].title == p.radar.labels[k]
  {
  }
}

=== FILE: columns.dfy ===
/** Column selection shared by the history table and the CSV export, and
    the cells of the history table (`updateTableView` in
    js/modules/report.js). */
module Columns {
  import opened Values
  import opened Records
  import Text
  import Sequences
  import Taxonomy

  type Descriptor = Taxonomy.Descriptor

  /** The column comparator: `categoryName.localeCompare` when the category
      names differ, `subcategoryName.localeCompare` otherwise. */
  predicate ColumnLe(a: Descriptor, b: Descriptor) {
    if a.categoryName != b.categoryName then Text.LessEq(a.categoryName, b.categoryName)
    else Text.LessEq(a.subcategoryName, b.subcategoryName)
  }

  lemma ColumnLeTransitive(a: Descriptor, b: Descriptor, c: Descriptor)
    requires ColumnLe(a, b) && ColumnLe(b, c)
    ensures ColumnLe(a, c)
  {
    if a.categoryName != b.categoryName && b.categoryName != c.categoryName {
      Text.LessEqTransitive(a.categoryName, b.categoryName, c.categoryName);
      if a.categoryName == c.categoryName {
        Text.LessEqAntisymmetric(a.categoryName, b.categoryName);
      }
    } else if a.categoryName != b.categoryName || b.categoryName != c.categoryName {
    } else {
      Text.LessEqTransitive(a.subcategoryName, b.subcategoryName, c.subcategoryName);
    }
  }

  lemma ColumnOrderIsPreorder()
    ensures Sequences.TotalPreorder(ColumnLe)
  {
    forall a, b ensures ColumnLe(a, b) || ColumnLe(b, a) {
      Text.LessEqTotal(a.categoryName, b.categoryName);
      Text.LessEqTotal(a.subcategoryName, b.subcategoryName);
    }
    forall a, b, c | ColumnLe(a, b) && ColumnLe(b, c) ensures ColumnLe(a, c) {
      ColumnLeTransitive(a, b, c);
    }
  }

  predicate Selected(selected: set<string>, d: Descriptor) {
    d.fullId in selected
  }

  /** `allCategories.filter(s => selected.has(s.fullId)).sort(byName)`: the
      columns of the table (selected = the enabled set) and of the export
      (selected = the checked export toggles). */
  function SelectColumns(all: seq<Descriptor>, selected: set<string>): (r: seq<Descriptor>)
    ensures |r| <= |all|
    ensures forall d :: d in r <==> d in all && d.fullId in selected
    ensures forall d :: multiset(r)[d] == if d.fullId in selected then multiset(all)[d] else 0
    ensures forall i, j :: 0 <= i < j < |r| ==> ColumnLe(r[i], r[j])
  {
    var kept := Sequences.Filter(all, d => Selected(selected, d));
    ColumnOrderIsPreorder();
    var r := Sequences.SortBy(kept, ColumnLe);
    assert forall d :: d in r <==> d in multiset(kept);
    r
  }

  /** The column order is fully determined by the selected descriptors:
      when no two of them share both names, every arrangement of them
      sorted by name is the column list. */
  lemma ColumnsUnique(all: seq<Descriptor>, selected: set<string>, cols: seq<Descriptor>)
    requires forall d :: multiset(cols)[d] == if d.fullId in selected then multiset(all)[d] else 0
    requires forall i, j :: 0 <= i < j < |cols| ==> ColumnLe(cols[i], cols[j])
    requires forall i, j :: 0 <= i < j < |cols| ==>
      (cols[i].categoryName, cols[i].subcategoryName) != (cols[j].categoryName, cols[j].subcategoryName)
    ensures cols == SelectColumns(all, selected)
  {
    var r := SelectColumns(all, selected);
    assert multiset(cols) == multiset(r);
    assert Sequences.NoTies(cols, ColumnLe) by {
      forall x, y | x in cols && y in cols && ColumnLe(x, y) && ColumnLe(y, x) ensures x == y {
        var i :| 0 <= i < |cols| && cols[i] == x;
        var j :| 0 <= j < |cols| && cols[j] == y;
        if x.categoryName != y.categoryName {
          Text.LessEqAntisymmetric(x.categoryName, y.categoryName);
        } else {
          Text.LessEqAntisymmetric(x.subcategoryName, y.subcategoryName);
        }
        assert i == j;
      }
    }
    Sequences.SortedPermutationUnique(cols, r, ColumnLe);
  }

  /** `${categoryName} - ${subcategoryName}`: a column title, also the
      label of a chart series. */
  function Title(d: Descriptor): string {
    d.categoryName + " - " + d.subcategoryName
  }

  // The history table.

  /** A table cell: `-` for a missing or `null` value, otherwise the
      formatted value, its status class and the tooltip note. */
  datatype Cell = Dash | Shown(text: Value, status: string, note: Option<string>)

  /** The cell of record `r` in column `d`, or `None` when building it
      throws: the note is read under the value's own key and `.trim()` is
      called on it whenever it is truthy, which is a `TypeError` for a
      number or `true`. */
  function TableCell(r: Record, d: Descriptor): (c: Option<Cell>)
    ensures c == Some(Dash) <==> Lookup(r.data, d.fullId).None? || Lookup(r.data, d.fullId) == Some(VNull)
    ensures c.None? <==> TruthyOpt(Lookup(r.data, d.fullId)) && !Lookup(r.data, d.fullId).value.VStr?
    ensures c.Some? && c.value.Shown? ==>
      && c.value.text == Taxonomy.FormatValue(Lookup(r.data, d.fullId), d.kind)
      && c.value.status == Taxonomy.GetStatusClass(Lookup(r.data, d.fullId))
    ensures c.Some? && c.value.Shown? && c.value.note.Some? ==>
      Lookup(r.data, d.fullId) == Some(VStr(c.value.note.value)) && !Blank(c.value.note.value)
  {
    var v := Lookup(r.data, d.fullId);
    if v.None? || v.value.VNull? then Some(Dash)
    else
      var x := v.value;
      var note :=
        if !Truthy(x) then Some(None)
        else if x.VStr? then (if Trim(x.s) != "" then Some(Some(x.s)) else Some(None))
        else None;
      TrimEmptyIffBlank(if x.VStr? then x.s else "");
      if note.None? then None
      else Some(Shown(Taxonomy.FormatValue(v, d.kind), Taxonomy.GetStatusClass(v), note.value))
  }

  /** A string value shows its own text as its note exactly when it is not
      blank, and a falsy value never shows one. */
  lemma NoteIsTheValue(r: Record, d: Descriptor)
    requires Lookup(r.data, d.fullId).Some? && Lookup(r.data, d.fullId).value != VNull
    requires !TruthyOpt(Lookup(r.data, d.fullId)) || Lookup(r.data, d.fullId).value.VStr?
    ensures TableCell(r, d).Some? && TableCell(r, d).value.Shown?
    ensures TableCell(r, d).value.note.Some? <==>
      Lookup(r.data, d.fullId).value.VStr? && !Blank(Lookup(r.data, d.fullId).value.s)
  {
    var x := Lookup(r.data, d.fullId).value;
    if x.VStr? {
      TrimEmptyIffBlank(x.s);
      if !Blank(x.s) {
        assert |x.s| > 0;
      }
    }
  }

  datatype Row = Row(dateTime: int, cells: seq<Cell>)

  /** What the table shows: the empty message when there are no records,
      otherwise a header row and one row per record. */
  datatype Table = NoRecords | Grid(headers: seq<string>, rows: seq<Row>)

  function Cells(r: Record, cols: seq<Descriptor>): (cs: Option<seq<Cell>>)
    ensures cs.Some? <==> forall j :: 0 <= j < |cols| ==> TableCell(r, cols[j]).Some?
    ensures cs.Some? ==> |cs.value| == |cols| && forall j :: 0 <= j < |cols| ==> cs.value[j] == TableCell(r, cols[j]).value
    decreases |cols|
  {
    if |cols| == 0 then Some([])
    else
      match TableCell(r, cols[0])
      case None => None
      case Some(c) =>
        match Cells(r, cols[1..])
        case None =>
          assert exists j :: 1 <= j < |cols| && TableCell(r, cols[j]).None? by {
            var j :| 0 <= j < |cols[1..]| && TableCell(r, cols[1..][j]).None?;
            assert cols[1..][j] == cols[j + 1];
          }
          None
        case Some(rest) =>
          assert forall j :: 1 <= j < |cols| ==> cols[j] == cols[1..][j - 1];
          Some([c] + rest)
  }

  function Rows(display: seq<Record>, cols: seq<Descriptor>): (rs: Option<seq<Row>>)
    ensures rs.Some? <==> forall i :: 0 <= i < |display| ==> Cells(display[i], cols).Some?
    ensures rs.Some? ==> |rs.value| == |display| && forall i :: 0 <= i < |display| ==>
      rs.value[i] == Row(display[i].dateTime, Cells(display[i], cols).value)
    decreases |display|
  {
    if |display| == 0 then Some([])
    else
      match Cells(display[0], cols)
      case None => None
      case Some(cs) =>
        match Rows(display[1..], cols)
        case None =>
          assert exists i :: 1 <= i < |display| && Cells(display[i], cols).None? by {
            var i :| 0 <= i < |display[1..]| && Cells(display[1..][i], cols).None?;
            assert display[1..][i] == display[i + 1];
          }
          None
        case Some(rest) =>
          assert forall i :: 1 <= i < |display| ==> display[i] == display[1..][i - 1];
          Some([Row(display[0].dateTime, cs)] + rest)
  }

  function Titles(cols: seq<Descriptor>): (ts: seq<string>)
    ensures |ts| == |cols| && forall j :: 0 <= j < |cols| ==> ts[j] == Title(cols[j])
  {
    seq(|cols|, j requires 0 <= j < |cols| => Title(cols[j]))
  }

  /** `updateTableView`: `None` when rendering throws. */
  function TableView(display: seq<Record>, all: seq<Descriptor>, enabled: set<string>): (t: Option<Table>)
    ensures |display| == 0 ==> t == Some(NoRecords)
    ensures t.None? <==>
      exists i, j :: 0 <= i < |display| && 0 <= j < |SelectColumns(all, enabled)| && TableCell(display[i], SelectColumns(all, enabled)[j]).None?
  {
    if |display| == 0 then Some(NoRecords)
    else
      var cols := SelectColumns(all, enabled);
      match Rows(display, cols)
      case None => None
      case Some(rows) => Some(Grid(["Data/Hora"] + Titles(cols), rows))
  }

  /** Every rendered row has one cell per header after the date column, in
      the order of the records shown, and a cell is `-` exactly when the
      record has no value (or `null`) for that column. */
  lemma TableShape(display: seq<Record>, all: seq<Descriptor>, enabled: set<string>)
    requires |display| > 0
    ensures var o := TableView(display, all, enabled); var cols := SelectColumns(all, enabled);
      o.Some? ==> var t := o.value;
      && t.Grid? && |t.headers| == |cols| + 1 && |t.rows| == |display|
      && forall i, j :: 0 <= i < |display| && 0 <= j < |cols| ==>
        && t.rows[i].dateTime == display[i].dateTime
        && |t.rows[i].cells| == |t.headers| - 1
        && (t.rows[i].cells[j] == Dash <==>
              Lookup(display[i].data, cols[j].fullId).None? || Lookup(display[i].data, cols[j].fullId) == Some(VNull))
  {
  }
}

=== FILE: export.dfy ===
/** The CSV export (`performExport` and `exportAsCSV` in
    js/modules/report.js). `UIUtils.formatDate` and `formatTime` are not
    part of this model: they are the parameters `date` and `time`. */
module Export {
  import opened Values
  import opened Records
  import Text
  import Taxonomy
  import Columns
  import Storage

  type Descriptor = Taxonomy.Descriptor

  const NotesPrefix := "Observações: "

  /** The header cells contributed by one column. */
  function ColumnHeaders(d: Descriptor, includeNotes: bool): (h: seq<string>)
    ensures |h| == (if includeNotes then 2 else 1)
    ensures h[0] == Columns.Title(d)
    ensures includeNotes ==> h[1] == NotesPrefix + Columns.Title(d)
  {
    [Columns.Title(d)] + (if includeNotes then [NotesPrefix + Columns.Title(d)] else [])
  }

  function Width(includeNotes: bool): nat {
    if includeNotes then 2 else 1
  }

  /** `['Data', 'Hora']` and the cells of every column. */
  function Headers(cols: seq<Descriptor>, includeNotes: bool): (h: seq<string>)
    ensures |h| == 2 + |cols| * Width(includeNotes)
    ensures h[..2] == ["Data", "Hora"]
    ensures forall j :: 0 <= j < |cols| ==>
      h[2 + j * Width(includeNotes)..2 + (j + 1) * Width(includeNotes)] == ColumnHeaders(cols[j], includeNotes)
  {
    ["Data", "Hora"] + ColumnsHeaders(cols, includeNotes)
  }

  function ColumnsHeaders(cols: seq<Descriptor>, includeNotes: bool): (h: seq<string>)
    ensures |h| == |cols| * Width(includeNotes)
    ensures forall j :: 0 <= j < |cols| ==>
      h[j * Width(includeNotes)..(j + 1) * Width(includeNotes)] == ColumnHeaders(cols[j], includeNotes)
    decreases |cols|
  {
    if |cols| == 0 then []
    else
      var w := Width(includeNotes);
      var first := ColumnHeaders(cols[0], includeNotes);
      var rest := ColumnsHeaders(cols[1..], includeNotes);
      var h := first + rest;
      assert |h| == |cols| * w by {
        assert |cols| * w == w + (|cols| - 1) * w;
      }
      forall j | 0 <= j < |cols| ensures h[j * w..(j + 1) * w] == ColumnHeaders(cols[j], includeNotes) {
        if j > 0 {
          assert cols[j] == cols[1..][j - 1];
          assert j * w == w + (j - 1) * w && (j + 1) * w == w + j * w;
          assert h[j * w..(j + 1) * w] == rest[(j - 1) * w..j * w];
        }
      }
      h
  }

  /** The value cell: the formatted value when `formatValues` is checked,
      the raw value otherwise, as `join` renders it (`undefined` and
      `null` are empty). */
  function ValueField(r: Record, d: Descriptor, formatValues: bool): (f: string)
    ensures formatValues ==> f == ToText(Taxonomy.FormatValue(Lookup(r.data, d.fullId), d.kind))
    ensures !formatValues ==> f == FieldText(Lookup(r.data, d.fullId))
  {
    var v := Lookup(r.data, d.fullId);
    if formatValues then FieldText(Some(Taxonomy.FormatValue(v, d.kind))) else FieldText(v)
  }

  /** The notes cell, `record.data[fullId] || ''`: read under the value's
      own key. */
  function NotesField(r: Record, d: Descriptor): (f: string)
    ensures !TruthyOpt(Lookup(r.data, d.fullId)) ==> f == ""
    ensures TruthyOpt(Lookup(r.data, d.fullId)) ==> f == ToText(Lookup(r.data, d.fullId).value)
  {
    var v := Lookup(r.data, d.fullId);
    if TruthyOpt(v) then ToText(v.value) else ""
  }

  /** The cells one column contributes to a row: the value, then the
      notes when they are included. */
  function ColumnFields(r: Record, d: Descriptor, includeNotes: bool, formatValues: bool): (f: seq<string>)
    ensures |f| == Width(includeNotes)
    ensures f[0] == ValueField(r, d, formatValues)
    ensures includeNotes ==> f[1] == NotesField(r, d)
  {
    [ValueField(r, d, formatValues)] + (if includeNotes then [NotesField(r, d)] else [])
  }

  /** The cells of every column, column by column: without notes one value
      cell per column, with notes a value cell and a notes cell each. */
  function ColumnsFields(r: Record, cols: seq<Descriptor>, includeNotes: bool, formatValues: bool): (f: seq<string>)
    ensures |f| == if includeNotes then 2 * |cols| else |cols|
    ensures !includeNotes ==> forall j :: 0 <= j < |cols| ==> f[j] == ValueField(r, cols[j], formatValues)
    ensures includeNotes ==> forall j :: 0 <= j < |cols| ==>
      f[2 * j] == ValueField(r, cols[j], formatValues) && f[2 * j + 1] == NotesField(r, cols[j])
    decreases |cols|
  {
    if |cols| == 0 then []
    else
      var first := ColumnFields(r, cols[0], includeNotes, formatValues);
      var rest := ColumnsFields(r, cols[1..], includeNotes, formatValues);
      if includeNotes then
        PairsCons(r, cols, formatValues, first, rest);
        first + rest
      else
        SinglesCons(r, cols, formatValues, first, rest);
        first + rest
  }

  /** With notes, a column's two cells ahead of the later columns' cells
      keep every column at its pair of positions. */
  lemma PairsCons(r: Record, cols: seq<Descriptor>, formatValues: bool, first: seq<string>, rest: seq<string>)
    requires |cols| > 0 && |first| == 2
    requires first[0] == ValueField(r, cols[0], formatValues) && first[1] == NotesField(r, cols[0])
    requires |rest| == 2 * (|cols| - 1)
    requires forall j :: 0 <= j < |cols| - 1 ==>
      rest[2 * j] == ValueField(r, cols[1..][j], formatValues) && rest[2 * j + 1] == NotesField(r, cols[1..][j])
    ensures |first + rest| == 2 * |cols|
    ensures forall j :: 0 <= j < |cols| ==>
      (first + rest)[2 * j] == ValueField(r, cols[j], formatValues) && (first + rest)[2 * j + 1] == NotesField(r, cols[j])
  {
    forall j | 1 <= j < |cols|
      ensures (first + rest)[2 * j] == ValueField(r, cols[j], formatValues)
      ensures (first + rest)[2 * j + 1] == NotesField(r, cols[j])
    {
      var k := j - 1;
      assert cols[j] == cols[1..][k];
      assert (first + rest)[2 * j] == rest[2 * k];
      assert (first + rest)[2 * j + 1] == rest[2 * k + 1];
    }
  }

  /** Without notes, a column's value cell ahead of the later columns'
      cells keeps every column at its own position. */
  lemma SinglesCons(r: Record, cols: seq<Descriptor>, formatValues: bool, first: seq<string>, rest: seq<string>)
    requires |cols| > 0 && |first| == 1 && first[0] == ValueField(r, cols[0], formatValues)
    requires |rest| == |cols| - 1
    requires forall j :: 0 <= j < |cols| - 1 ==> rest[j] == ValueField(r, cols[1..][j], formatValues)
    ensures |first + rest| == |cols|
    ensures forall j :: 0 <= j < |cols| ==> (first + rest)[j] == ValueField(r, cols[j], formatValues)
  {
    forall j | 1 <= j < |cols| ensures (first + rest)[j] == ValueField(r, cols[j], formatValues) {
      assert cols[j] == cols[1..][j - 1];
    }
  }

  /** One record's row: its date and time, then for every column its value
      cell and, with notes, its notes cell. */
  function RowFields(r: Record, cols: seq<Descriptor>, includeNotes: bool, formatValues: bool,
                     date: int -> string, time: int -> string): (f: seq<string>)
    ensures |f| == 2 + |cols| * Width(includeNotes)
    ensures f[0] == date(r.dateTime) && f[1] == time(r.dateTime)
    ensures !includeNotes ==> forall j :: 0 <= j < |cols| ==> f[2 + j] == ValueField(r, cols[j], formatValues)
    ensures includeNotes ==> forall j :: 0 <= j < |cols| ==>
      f[2 + 2 * j] == ValueField(r, cols[j], formatValues) && f[3 + 2 * j] == NotesField(r, cols[j])
  {
    assert |cols| * Width(includeNotes) == if includeNotes then 2 * |cols| else |cols|;
    [date(r.dateTime), time(r.dateTime)] + ColumnsFields(r, cols, includeNotes, formatValues)
  }

  /** A value the record lacks, or holds as `null`, is an empty field when
      values are written raw and `-` when they are formatted. */
  lemma MissingValueField(r: Record, d: Descriptor, formatValues: bool)
    ensures Lookup(r.data, d.fullId).None? || Lookup(r.data, d.fullId) == Some(VNull) ==>
      ValueField(r, d, formatValues) == (if formatValues then "-" else "")
  {
  }

  /** The header followed by one row per record, as lists of fields. */
  function Grid(records: seq<Record>, cols: seq<Descriptor>, includeNotes: bool, formatValues: bool,
                date: int -> string, time: int -> string): (g: seq<seq<string>>)
    ensures |g| == |records| + 1
    ensures g[0] == Headers(cols, includeNotes)
    ensures forall i :: 0 <= i < |g| ==> |g[i]| == |g[0]|
    ensures forall i :: 0 <= i < |records| ==>
      g[i + 1] == RowFields(records[i], cols, includeNotes, formatValues, date, time)
  {
    var rows := seq(|records|, i requires 0 <= i < |records| => RowFields(records[i], cols, includeNotes, formatValues, date, time));
    var g := [Headers(cols, includeNotes)] + rows;
    assert forall i :: 0 <= i < |records| ==> g[i + 1] == rows[i];
    g
  }

  function Lines(g: seq<seq<string>>): (ls: seq<string>)
    ensures |ls| == |g| && forall i :: 0 <= i < |g| ==> ls[i] == Text.Join(g[i], ",")
  {
    seq(|g|, i requires 0 <= i < |g| => Text.Join(g[i], ","))
  }

  /** `[headers.join(','), ...rows.map(r => r.join(','))].join('\n')`:
      fields are written as they are, without quoting. */
  function Content(g: seq<seq<string>>): string {
    Text.Join(Lines(g), "\n")
  }

  /** Reads CSV text back: lines, then comma-separated fields. */
  function Decode(content: string): (g: seq<seq<string>>) {
    var ls := Text.Split(content, '\n');
    seq(|ls|, i requires 0 <= i < |ls| => Text.Split(ls[i], ','))
  }

  predicate PlainField(f: string) {
    Text.Free(f, ',') && Text.Free(f, '\n')
  }

  /** When no field holds a comma or a line break the file reads back as
      exactly the header and the rows. */
  lemma CsvRoundTrip(g: seq<seq<string>>)
    requires |g| >= 1 && forall i :: 0 <= i < |g| ==> |g[i]| >= 1
    requires forall i, j :: 0 <= i < |g| && 0 <= j < |g[i]| ==> PlainField(g[i][j])
    ensures Decode(Content(g)) == g
  {
    var ls := Lines(g);
    forall i | 0 <= i < |g| ensures Text.Free(ls[i], '\n') && Text.Split(ls[i], ',') == g[i] {
      assert Text.AllFree(g[i], '\n') && Text.AllFree(g[i], ',');
      Text.JoinFree(g[i], ",", '\n');
      Text.SplitJoin(g[i], ',');
    }
    Text.SplitJoin(ls, '\n');
  }

  /** `aqui-lidero-<cycle>[-<start>-a-<end>].csv`; the period is added only
      when both dates are non-empty. */
  function FileName(cycleId: string, start: Option<string>, end: Option<string>): (n: string)
    ensures Text.StartsWith(n, "aqui-lidero-" + cycleId) && Text.EndsWith(n, ".csv")
    ensures |n| > |"aqui-lidero-" + cycleId + ".csv"| <==>
      start.Some? && start.value != "" && end.Some? && end.value != ""
  {
    var base := "aqui-lidero-" + cycleId;
    var period := if start.Some? && start.value != "" && end.Some? && end.value != ""
                  then "-" + start.value + "-a-" + end.value else "";
    var n := base + period + ".csv";
    assert n[..|base|] == base;
    assert n[|n| - 4..] == ".csv";
    n
  }

  /** The export dialog's choices: the format radio, the two checkboxes,
      the checked subcategories, and whether "all records" is chosen
      instead of the filtered period. */
  datatype Choices = Choices(
    format: string,
    includeNotes: bool,
    formatValues: bool,
    selected: set<string>,
    allRecords: bool)

  datatype Csv = Csv(fileName: string, content: string)

  /** `NothingSelected`: the alert and early return; `Skipped`: a format
      none of the branches handles. */
  datatype Outcome = NothingSelected | Skipped | Exported(csv: Csv)

  /** Excel and PDF fall back to the same CSV. */
  predicate KnownFormat(format: string) {
    format == "csv" || format == "excel" || format == "pdf"
  }

  /** The records exported: a copy of the filtered records for the filtered
      period, or every record of the cycle, newest first either way. */
  function ExportRecords(s: Storage.Store, cycleId: string, filtered: seq<Record>, allRecords: bool): (r: seq<Record>)
    ensures NewestFirst(r)
    ensures !allRecords ==> multiset(r) == multiset(filtered)
    ensures allRecords ==> multiset(r) == multiset(Storage.GetRecords(s, Some(cycleId), None, None))
  {
    SortNewestFirst(if allRecords then Storage.GetRecords(s, Some(cycleId), None, None) else filtered)
  }

  /** `performExport`. `startInput` and `endInput` are the values of the
      period's date inputs. */
  function PerformExport(s: Storage.Store, cycleId: string, all: seq<Descriptor>, filtered: seq<Record>,
                         c: Choices, startInput: string, endInput: string,
                         date: int -> string, time: int -> string): (o: Outcome)
    ensures c.selected == {} <==> o == NothingSelected
    ensures c.selected != {} ==> (o.Exported? <==> KnownFormat(c.format))
    ensures o.Exported? ==>
      o.csv.fileName == FileName(cycleId, if c.allRecords then None else Some(startInput), if c.allRecords then None else Some(endInput))
  {
    if c.selected == {} then NothingSelected
    else
      var records := ExportRecords(s, cycleId, filtered, c.allRecords);
      var start := if c.allRecords then None else Some(startInput);
      var end := if c.allRecords then None else Some(endInput);
      var cols := Columns.SelectColumns(all, c.selected);
      var g := Grid(records, cols, c.includeNotes, c.formatValues, date, time);
      if KnownFormat(c.format) then Exported(Csv(FileName(cycleId, start, end), Content(g)))
      else Skipped
  }

  /** An export writes the header line and one line per exported record,
      each with as many fields as the header, in the table's column order
      and newest first, whenever no field holds a comma or line break. */
  lemma ExportedFile(s: Storage.Store, cycleId: string, all: seq<Descriptor>, filtered: seq<Record>,
                     c: Choices, startInput: string, endInput: string,
                     date: int -> string, time: int -> string)
    ensures var records := ExportRecords(s, cycleId, filtered, c.allRecords);
      var cols := Columns.SelectColumns(all, c.selected);
      var g := Grid(records, cols, c.includeNotes, c.formatValues, date, time);
      var o := PerformExport(s, cycleId, all, filtered, c, startInput, endInput, date, time);
      o.Exported? && (forall i, j :: 0 <= i < |g| && 0 <= j < |g[i]| ==> PlainField(g[i][j])) ==>
        var rows := Decode(o.csv.content);
        && |rows| == |records| + 1
        && rows[0] == Headers(cols, c.includeNotes)
        && forall i :: 0 <= i < |records| ==>
          && |rows[i + 1]| == |rows[0]|
          && rows[i + 1] == RowFields(records[i], cols, c.includeNotes, c.formatValues, date, time)
  {
    var records := ExportRecords(s, cycleId, filtered, c.allRecords);
    var cols := Columns.SelectColumns(all, c.selected);
    var g := Grid(records, cols, c.includeNotes, c.formatValues, date, time);
    var o := PerformExport(s, cycleId, all, filtered, c, startInput, endInput, date, time);
    if o.Exported? && forall i, j :: 0 <= i < |g| && 0 <= j < |g[i]| ==> PlainField(g[i][j]) {
      assert o.csv.content == Content(g);
      CsvRoundTrip(g);
      assert Decode(o.csv.content) == g;
    }
  }

  /** With "all records" chosen, the file holds exactly the records of the
      cycle of the signed-in user, each as often as it is stored, whatever
      the filtered list and the date inputs hold. */
  lemma AllRecordsIgnoresPeriod(s: Storage.Store, cycleId: string, filtered: seq<Record>)
    requires cycleId != ""
    ensures forall r ::
      multiset(ExportRecords(s, cycleId, filtered, true))[r] ==
        if r.cycleId == cycleId then multiset(Storage.StoredRecords(s))[r] else 0
  {
  }
}

=== FILE: grouping.dfy ===
/** `groupDataByCategory` and the history card built from it
    (js/modules/report.js). */
module Grouping {
  import opened Values
  import opened Records
  import Text
  import Sequences
  import Taxonomy

  /** How the loop over `data` reads a key: `key.split('-')` gives at
      least a category and a subcategory part, and the key is either a value
      or a note for that pair, or neither. */
  datatype KeyKind = ValueKey(cat: string, sub: string) | NotesKey(cat: string, sub: string) | Ignored

  const NotesSuffix := "-notes"

  function Classify(key: string): (k: KeyKind)
    ensures k.ValueKey? ==> !Text.EndsWith(key, NotesSuffix)
  {
    var parts := Text.Split(key, '-');
    if |parts| < 2 then Ignored
    else
      var c := parts[0];
      var s := parts[1];
      if Text.StartsWith(key, c + "-" + s) && !Text.EndsWith(key, NotesSuffix) then ValueKey(c, s)
      else if Text.StartsWith(key, c + "-" + s + NotesSuffix) || key == c + "-" + s then NotesKey(c, s)
      else Ignored
  }

  /** A key made of two dash-free ids ends in `-notes` only when the
      subcategory id is `notes`. */
  lemma NotesSuffixOfFullId(c: string, s: string)
    requires Text.Free(c, '-') && Text.Free(s, '-')
    requires Text.EndsWith(c + "-" + s, NotesSuffix)
    ensures s == "notes"
  {
    var key := c + "-" + s;
    var j := |key| - 6;
    assert forall k :: 0 <= k < |c| ==> key[k] == c[k] && key[k] != '-';
    assert forall k :: |c| < k < |key| ==> key[k] == s[k - |c| - 1] && key[k] != '-';
    assert key[j] == NotesSuffix[0] == '-';
    assert j == |c|;
    assert s == key[|c| + 1..];
    assert key[|c| + 1..] == NotesSuffix[1..];
  }

  /** The key the journal form stores a value under, `${catId}-${subId}`,
      reads as that subcategory's value. */
  lemma ClassifyFullId(c: string, s: string)
    requires Text.Free(c, '-') && Text.Free(s, '-') && s != "notes"
    ensures Classify(Taxonomy.FullId(c, s)) == ValueKey(c, s)
  {
    var key := c + "-" + s;
    assert key == c + ['-'] + s;
    Text.SplitAfterFree(c, '-', s);
    Text.SplitFree(s, '-');
    if Text.EndsWith(key, NotesSuffix) {
      NotesSuffixOfFullId(c, s);
    }
  }

  /** The key `${catId}-${subId}-notes` reads as that subcategory's note. */
  lemma ClassifyNotesKey(c: string, s: string)
    requires Text.Free(c, '-') && Text.Free(s, '-')
    ensures Classify(Taxonomy.FullId(c, s) + NotesSuffix) == NotesKey(c, s)
  {
    var key := c + "-" + s + NotesSuffix;
    assert Taxonomy.FullId(c, s) + NotesSuffix == key;
    SplitNotesKey(c, s);
    assert key[|key| - 6..] == NotesSuffix;
    assert Text.EndsWith(key, NotesSuffix);
    assert key[..|key|] == key;
    assert Text.StartsWith(key, c + "-" + s + NotesSuffix);
  }

  /** `${catId}-${subId}-notes` splits into the two ids and `notes`. */
  lemma SplitNotesKey(c: string, s: string)
    requires Text.Free(c, '-') && Text.Free(s, '-')
    ensures Text.Split(c + "-" + s + NotesSuffix, '-') == [c, s, "notes"]
  {
    var key := c + "-" + s + NotesSuffix;
    assert key == c + ['-'] + (s + ['-'] + "notes");
    Text.SplitAfterFree(c, '-', s + ['-'] + "notes");
    Text.SplitAfterFree(s, '-', "notes");
    Text.SplitFree("notes", '-');
  }

  /** `{name, type, value, notes}` of one subcategory; `value` and `notes`
      start out `null`. */
  datatype SubGroup = SubGroup(id: string, name: string, kind: string, value: Value, notes: Value)

  /** `{name, subcategories}` of one category. */
  datatype Group = Group(id: string, name: string, subs: seq<SubGroup>)

  /** The object `groupDataByCategory` returns, its keys in insertion
      order. */
  type Groups = seq<Group>

  /** The position of the category key `id`, if present. */
  function GroupIndex(gs: Groups, id: string): Option<nat> {
    var k := Sequences.FindIndex(gs, (g: Group) => g.id == id);
    if k < 0 then None else Some(k)
  }

  /** The position of the subcategory key `id`, if present. */
  function SubIndex(subs: seq<SubGroup>, id: string): Option<nat> {
    var k := Sequences.FindIndex(subs, (x: SubGroup) => x.id == id);
    if k < 0 then None else Some(k)
  }

  /** `result[catId].subcategories[subId]`, `None` when either is missing. */
  function Find(gs: Groups, c: string, s: string): Option<SubGroup> {
    match GroupIndex(gs, c)
    case None => None
    case Some(i) =>
      match SubIndex(gs[i].subs, s)
      case None => None
      case Some(k) => Some(gs[i].subs[k])
  }

  /** `subcategories[subId] = x`: replaces the entry in place or appends
      it. */
  function PutSub(subs: seq<SubGroup>, x: SubGroup): (r: seq<SubGroup>)
    ensures SubIndex(r, x.id).Some? && r[SubIndex(r, x.id).value] == x
    ensures forall j :: 0 <= j < |subs| ==> j < |r| && r[j].id == subs[j].id
    ensures forall id :: id != x.id ==> SubIndex(r, id) == SubIndex(subs, id)
    ensures forall id :: id != x.id && SubIndex(subs, id).Some? ==> r[SubIndex(r, id).value] == subs[SubIndex(subs, id).value]
  {
    match SubIndex(subs, x.id)
    case Some(k) =>
      var r := subs[k := x];
      SameIdsSameSubIndex(subs, r);
      r
    case None =>
      var r := subs + [x];
      assert forall id :: SubIndex(r, id) == (if SubIndex(subs, id).Some? then SubIndex(subs, id)
                                             else if x.id == id then Some(|subs|) else None) by {
        forall id ensures SubIndex(r, id) ==
          (if SubIndex(subs, id).Some? then SubIndex(subs, id) else if x.id == id then Some(|subs|) else None)
        {
          SubIndexAppend(subs, x, id);
        }
      }
      assert forall j :: 0 <= j < |subs| ==> r[j] == subs[j];
      r
  }

  /** Appending an entry leaves the positions of the earlier keys and
      puts a new key last. */
  lemma SubIndexAppend(subs: seq<SubGroup>, x: SubGroup, id: string)
    ensures SubIndex(subs + [x], id) ==
      (if SubIndex(subs, id).Some? then SubIndex(subs, id) else if x.id == id then Some(|subs|) else None)
  {
    var a := subs + [x];
    assert forall j :: 0 <= j < |subs| ==> a[j] == subs[j];
    assert a[|subs|] == x;
    match SubIndex(subs, id)
    case Some(k) =>
      assert a[k].id == id;
      assert forall j :: 0 <= j < k ==> a[j].id != id;
    case None =>
      assert forall j :: 0 <= j < |subs| ==> a[j].id != id;
  }

  lemma GroupIndexAppend(gs: Groups, g: Group, id: string)
    ensures GroupIndex(gs + [g], id) ==
      (if GroupIndex(gs, id).Some? then GroupIndex(gs, id) else if g.id == id then Some(|gs|) else None)
  {
    var a := gs + [g];
    assert forall j :: 0 <= j < |gs| ==> a[j] == gs[j];
    assert a[|gs|] == g;
    match GroupIndex(gs, id)
    case Some(k) =>
      assert a[k].id == id;
      assert forall j :: 0 <= j < k ==> a[j].id != id;
    case None =>
      assert forall j :: 0 <= j < |gs| ==> a[j].id != id;
  }

  /** The first position of an id depends only on the ids. */
  lemma SameIdsSameSubIndex(a: seq<SubGroup>, b: seq<SubGroup>)
    requires |a| == |b| && forall j :: 0 <= j < |a| ==> a[j].id == b[j].id
    ensures forall id :: SubIndex(a, id) == SubIndex(b, id)
  {
  }

  lemma SameIdsSameGroupIndex(a: Groups, b: Groups)
    requires |a| == |b| && forall j :: 0 <= j < |a| ==> a[j].id == b[j].id
    ensures forall id :: GroupIndex(a, id) == GroupIndex(b, id)
  {
  }

  /** One step of the first loop: create the category entry if it is
      missing, then (re)place the subcategory with `null` value and notes. */
  function AddDescriptor(gs: Groups, d: Taxonomy.Descriptor): Groups {
    var x := SubGroup(d.subcategoryId, d.subcategoryName, d.kind, VNull, VNull);
    match GroupIndex(gs, d.categoryId)
    case None => gs + [Group(d.categoryId, d.categoryName, [x])]
    case Some(i) => gs[i := gs[i].(subs := PutSub(gs[i].subs, x))]
  }

  /** The first loop, over `allCategories`. */
  function Skeleton(descs: seq<Taxonomy.Descriptor>): Groups
    decreases |descs|
  {
    if |descs| == 0 then [] else AddDescriptor(Skeleton(descs[..|descs| - 1]), descs[|descs| - 1])
  }

  predicate Describes(d: Taxonomy.Descriptor, c: string, s: string) {
    d.categoryId == c && d.subcategoryId == s
  }

  lemma AddDescriptorFind(gs: Groups, d: Taxonomy.Descriptor, c: string, s: string)
    ensures Describes(d, c, s) ==>
      Find(AddDescriptor(gs, d), c, s) == Some(SubGroup(s, d.subcategoryName, d.kind, VNull, VNull))
    ensures !Describes(d, c, s) ==> Find(AddDescriptor(gs, d), c, s) == Find(gs, c, s)
  {
    var r := AddDescriptor(gs, d);
    var x := SubGroup(d.subcategoryId, d.subcategoryName, d.kind, VNull, VNull);
    match GroupIndex(gs, d.categoryId)
    case None =>
      var g := Group(d.categoryId, d.categoryName, [x]);
      assert r == gs + [g];
      GroupIndexAppend(gs, g, c);
      assert forall j :: 0 <= j < |gs| ==> r[j] == gs[j];
      if c == d.categoryId {
        assert GroupIndex(r, c) == Some(|gs|) && r[|gs|] == g;
        assert SubIndex([x], s) == if x.id == s then Some(0) else None;
      }
    case Some(i) =>
      SameIdsSameGroupIndex(gs, r);
      assert r[i].subs == PutSub(gs[i].subs, x);
      if c == d.categoryId {
        assert GroupIndex(r, c) == Some(i);
      } else {
        assert GroupIndex(r, c) == GroupIndex(gs, c);
        if GroupIndex(gs, c).Some? {
          assert GroupIndex(gs, c).value != i;
        }
      }
  }

  /** After the first loop, exactly the descriptors' pairs are present, with
      `null` value and notes. */
  lemma {:induction false} SkeletonFind(descs: seq<Taxonomy.Descriptor>, c: string, s: string)
    ensures Find(Skeleton(descs), c, s).Some? <==> exists d :: d in descs && Describes(d, c, s)
    ensures Find(Skeleton(descs), c, s).Some? ==>
      Find(Skeleton(descs), c, s).value.value == VNull && Find(Skeleton(descs), c, s).value.notes == VNull
    decreases |descs|
  {
    if |descs| > 0 {
      var init := descs[..|descs| - 1];
      var d := descs[|descs| - 1];
      assert descs == init + [d];
      SkeletonFind(init, c, s);
      AddDescriptorFind(Skeleton(init), d, c, s);
      assert Skeleton(descs) == AddDescriptor(Skeleton(init), d);
      if Describes(d, c, s) {
        assert d in descs;
      } else {
        NamedBefore(init, d, c, s);
      }
    }
  }

  /** A pair named by `init + [d]` but not by `d` is named by `init`. */
  lemma NamedBefore(init: seq<Taxonomy.Descriptor>, d: Taxonomy.Descriptor, c: string, s: string)
    requires !Describes(d, c, s)
    ensures (exists e :: e in init + [d] && Describes(e, c, s)) <==> (exists e :: e in init && Describes(e, c, s))
  {
    if e :| e in init + [d] && Describes(e, c, s) {
      assert e in init;
    }
    if e :| e in init && Describes(e, c, s) {
      assert e in init + [d];
    }
  }

  /** `result[catId].subcategories[subId].value = v` (or `.notes`), when
      both entries exist. */
  function Modify(gs: Groups, c: string, s: string, isNotes: bool, v: Value): (r: Groups)
    ensures |r| == |gs| && forall j :: 0 <= j < |gs| ==> r[j].id == gs[j].id
  {
    match GroupIndex(gs, c)
    case None => gs
    case Some(i) =>
      match SubIndex(gs[i].subs, s)
      case None => gs
      case Some(k) =>
        var x := gs[i].subs[k];
        var y := if isNotes then x.(notes := v) else x.(value := v);
        gs[i := gs[i].(subs := gs[i].subs[k := y])]
  }

  lemma ModifyFind(gs: Groups, c: string, s: string, isNotes: bool, v: Value, c': string, s': string)
    ensures (c', s') == (c, s) ==>
      Find(Modify(gs, c, s, isNotes, v), c', s') ==
        (match Find(gs, c, s)
         case None => None
         case Some(x) => Some(if isNotes then x.(notes := v) else x.(value := v)))
    ensures (c', s') != (c, s) ==> Find(Modify(gs, c, s, isNotes, v), c', s') == Find(gs, c', s')
  {
    var r := Modify(gs, c, s, isNotes, v);
    SameIdsSameGroupIndex(gs, r);
    match GroupIndex(gs, c)
    case None =>
    case Some(i) =>
      match SubIndex(gs[i].subs, s)
      case None =>
      case Some(k) =>
        SameIdsSameSubIndex(gs[i].subs, r[i].subs);
  }

  /** One step of the second loop: a value key sets the value, a notes key
      sets the notes, of a subcategory that is present. */
  function Apply(gs: Groups, e: Entry): Groups {
    match Classify(e.key)
    case ValueKey(c, s) => Modify(gs, c, s, false, e.value)
    case NotesKey(c, s) => Modify(gs, c, s, true, e.value)
    case Ignored => gs
  }

  /** The second loop, `for (const key in data)`. */
  function Fill(gs: Groups, data: Data): Groups
    decreases |data|
  {
    if |data| == 0 then gs else Apply(Fill(gs, data[..|data| - 1]), data[|data| - 1])
  }

  /** `groupDataByCategory(data)` over the report's descriptors. */
  function GroupDataByCategory(descs: seq<Taxonomy.Descriptor>, data: Data): Groups {
    Fill(Skeleton(descs), data)
  }

  /** Reference definition: the value of the last key that reads as a
      value of `(c, s)`. */
  function LastValue(data: Data, c: string, s: string): Option<Value>
    decreases |data|
  {
    if |data| == 0 then None
    else if Classify(data[|data| - 1].key) == ValueKey(c, s) then Some(data[|data| - 1].value)
    else LastValue(data[..|data| - 1], c, s)
  }

  /** Reference definition: the value of the last key that reads as a
      note of `(c, s)`. */
  function LastNotes(data: Data, c: string, s: string): Option<Value>
    decreases |data|
  {
    if |data| == 0 then None
    else if Classify(data[|data| - 1].key) == NotesKey(c, s) then Some(data[|data| - 1].value)
    else LastNotes(data[..|data| - 1], c, s)
  }

  lemma {:induction false} FillFind(gs: Groups, data: Data, c: string, s: string)
    ensures Find(Fill(gs, data), c, s) ==
      (match Find(gs, c, s)
       case None => None
       case Some(x) => Some(x.(value := LastValue(data, c, s).GetOr(x.value),
                               notes := LastNotes(data, c, s).GetOr(x.notes))))
    decreases |data|
  {
    if |data| > 0 {
      var init := data[..|data| - 1];
      var e := data[|data| - 1];
      FillFind(gs, init, c, s);
      match Classify(e.key)
      case ValueKey(c1, s1) => ModifyFind(Fill(gs, init), c1, s1, false, e.value, c, s);
      case NotesKey(c1, s1) => ModifyFind(Fill(gs, init), c1, s1, true, e.value, c, s);
      case Ignored =>
    }
  }

  /** What a card reads for a subcategory: the pair is present exactly when
      some descriptor names it, and its value and notes are those of the
      last key of `data` that reads as its value and as its note, `null`
      when there is none. */
  lemma GroupedValues(descs: seq<Taxonomy.Descriptor>, data: Data, c: string, s: string)
    ensures Find(GroupDataByCategory(descs, data), c, s).Some? <==> exists d :: d in descs && Describes(d, c, s)
    ensures Find(GroupDataByCategory(descs, data), c, s).Some? ==>
      && Find(GroupDataByCategory(descs, data), c, s).value.value == LastValue(data, c, s).GetOr(VNull)
      && Find(GroupDataByCategory(descs, data), c, s).value.notes == LastNotes(data, c, s).GetOr(VNull)
  {
    SkeletonFind(descs, c, s);
    FillFind(Skeleton(descs), data, c, s);
  }

  // The history card of one record.

  /** One subcategory line: its name, `formatValue`, `getStatusClass`, and
      the note when it is truthy. */
  datatype Item = Item(name: string, text: Value, status: string, notes: Option<Value>)

  datatype Section = Section(categoryId: string, name: string, items: seq<Item>)

  function ItemOf(x: SubGroup): Item {
    Item(x.name, Taxonomy.FormatValue(Some(x.value), x.kind), Taxonomy.GetStatusClass(Some(x.value)),
         if Truthy(x.notes) then Some(x.notes) else None)
  }

  /** Whether the card shows subgroup `x` of category `catId`. */
  predicate Shown(catId: string, enabled: set<string>, x: SubGroup) {
    Taxonomy.FullId(catId, x.id) in enabled
  }

  /** The enabled subcategories of one category, in key order: the lines
      of exactly the enabled subgroups, in the order the subgroups come. */
  function Items(catId: string, subs: seq<SubGroup>, enabled: set<string>): (r: seq<Item>)
    ensures r == Sequences.Map(Sequences.Filter(subs, x => Shown(catId, enabled, x)), ItemOf)
    ensures |r| == 0 <==> forall k :: 0 <= k < |subs| ==> !Shown(catId, enabled, subs[k])
    decreases |subs|
  {
    if |subs| == 0 then []
    else
      var rest := Items(catId, subs[1..], enabled);
      assert forall k :: 1 <= k < |subs| ==> subs[k] == subs[1..][k - 1];
      Sequences.MapFilterCons(subs, x => Shown(catId, enabled, x), ItemOf);
      if Shown(catId, enabled, subs[0]) then [ItemOf(subs[0])] + rest else rest
  }

  /** Every enabled subgroup has its line on the card, and every line is
      that of an enabled subgroup. */
  lemma ItemsShowEnabled(catId: string, subs: seq<SubGroup>, enabled: set<string>)
    ensures forall k :: 0 <= k < |subs| && Shown(catId, enabled, subs[k]) ==>
      ItemOf(subs[k]) in Items(catId, subs, enabled)
    ensures forall it :: it in Items(catId, subs, enabled) ==>
      exists k :: 0 <= k < |subs| && Shown(catId, enabled, subs[k]) && it == ItemOf(subs[k])
  {
    var f := Sequences.Filter(subs, x => Shown(catId, enabled, x));
    var r := Items(catId, subs, enabled);
    forall k | 0 <= k < |subs| && Shown(catId, enabled, subs[k]) ensures ItemOf(subs[k]) in r {
      assert subs[k] in multiset(subs);
      assert subs[k] in multiset(f);
      var i :| 0 <= i < |f| && f[i] == subs[k];
      assert r[i] == ItemOf(subs[k]);
    }
    forall it | it in r
      ensures exists k :: 0 <= k < |subs| && Shown(catId, enabled, subs[k]) && it == ItemOf(subs[k])
    {
      var i :| 0 <= i < |r| && r[i] == it;
      assert f[i] in multiset(f);
      assert f[i] in multiset(subs);
      var k :| 0 <= k < |subs| && subs[k] == f[i];
    }
  }

  /** The section a category's group contributes when it shows anything. */
  function SectionOf(g: Group, enabled: set<string>): Section {
    Section(g.id, g.name, Items(g.id, g.subs, enabled))
  }

  predicate HasItems(enabled: set<string>, g: Group) {
    |Items(g.id, g.subs, enabled)| > 0
  }

  /** The card body: one section per category with an enabled
      subcategory, in key order; an empty body shows the "no data" text. */
  function Sections(gs: Groups, enabled: set<string>): (r: seq<Section>)
    ensures r == Sequences.Map(Sequences.Filter(gs, g => HasItems(enabled, g)), g => SectionOf(g, enabled))
    ensures forall i :: 0 <= i < |r| ==> |r[i].items| > 0
    decreases |gs|
  {
    if |gs| == 0 then []
    else
      var g := gs[0];
      var rest := Sections(gs[1..], enabled);
      assert forall j :: 1 <= j < |gs| ==> gs[j] == gs[1..][j - 1];
      Sequences.MapFilterCons(gs, g => HasItems(enabled, g), g => SectionOf(g, enabled));
      if HasItems(enabled, g) then [SectionOf(g, enabled)] + rest else rest
  }

  /** The card body is empty (and shows the "no data" text) exactly when
      no subgroup of any category is enabled. */
  lemma {:induction false} SectionsEmptyIff(gs: Groups, enabled: set<string>)
    ensures |Sections(gs, enabled)| == 0 <==> forall j, k :: 0 <= j < |gs| && 0 <= k < |gs[j].subs| ==>
      !Shown(gs[j].id, enabled, gs[j].subs[k])
    decreases |gs|
  {
    if |gs| > 0 {
      SectionsEmptyIff(gs[1..], enabled);
      assert forall j :: 1 <= j < |gs| ==> gs[j] == gs[1..][j - 1];
    }
  }

  /** Every category with an enabled subgroup gets its section. */
  lemma SectionsShowEnabled(gs: Groups, enabled: set<string>)
    ensures forall j :: 0 <= j < |gs| && HasItems(enabled, gs[j]) ==> SectionOf(gs[j], enabled) in Sections(gs, enabled)
  {
    var f := Sequences.Filter(gs, g => HasItems(enabled, g));
    var r := Sections(gs, enabled);
    forall j | 0 <= j < |gs| && HasItems(enabled, gs[j]) ensures SectionOf(gs[j], enabled) in r {
      assert gs[j] in multiset(gs);
      assert gs[j] in multiset(f);
      var i :| 0 <= i < |f| && f[i] == gs[j];
      assert r[i] == SectionOf(gs[j], enabled);
    }
  }

  /** Every section is that of a category with an enabled subgroup. */
  lemma SectionsOnlyEnabled(gs: Groups, enabled: set<string>)
    ensures forall sec :: sec in Sections(gs, enabled) ==>
      exists j :: 0 <= j < |gs| && HasItems(enabled, gs[j]) && sec == SectionOf(gs[j], enabled)
  {
    var f := Sequences.Filter(gs, g => HasItems(enabled, g));
    var r := Sections(gs, enabled);
    forall sec | sec in r
      ensures exists j :: 0 <= j < |gs| && HasItems(enabled, gs[j]) && sec == SectionOf(gs[j], enabled)
    {
      var i :| 0 <= i < |r| && r[i] == sec;
      assert f[i] in multiset(f);
      assert f[i] in multiset(gs);
      var j :| 0 <= j < |gs| && gs[j] == f[i];
    }
  }

  /** `createHistoryCard(record)` without the header: the sections of the
      card body. */
  function CardSections(record: Record, descs: seq<Taxonomy.Descriptor>, enabled: set<string>): seq<Section> {
    Sections(GroupDataByCategory(descs, record.data), enabled)
  }

  /** With nothing enabled every card body is empty. */
  lemma NothingEnabledEmptyCard(record: Record, descs: seq<Taxonomy.Descriptor>)
    ensures CardSections(record, descs, {}) == []
  {
  }
}

=== FILE: pagination.dfy ===
/** Page arithmetic of the history view (js/modules/report.js):
    `updatePagination`'s page count and slice, and the buttons
    `renderPaginationButtons` lays out. */
module Pagination {

  function Max(a: int, b: int): int {
    if a < b then b else a
  }

  function Min(a: int, b: int): int {
    if a < b then a else b
  }

  /** `Math.ceil(n / k) || 1`: the number of pages of `k` items that hold
      `n` items, and one page when there are none. */
  function PageCount(n: nat, k: nat): (t: nat)
    requires k > 0
    ensures t >= 1
    ensures n == 0 ==> t == 1
    ensures n > 0 ==> (t - 1) * k < n <= t * k
  {
    if n == 0 then 1
    else
      var t := (n + k - 1) / k;
      assert t * k <= n + k - 1 < t * k + k;
      t
  }

  /** A `slice` bound: negative counts from the end, and both ends clamp to
      the sequence. */
  function SliceBound(i: int, len: nat): (r: nat)
    ensures r <= len
    ensures 0 <= i <= len ==> r == i
    ensures i > len ==> r == len
  {
    if i < 0 then (if len + i < 0 then 0 else len + i)
    else if i > len then len
    else i
  }

  /** `s.slice(start, end)` */
  function Slice<T>(s: seq<T>, start: int, end: int): (r: seq<T>)
    ensures 0 <= start <= end <= |s| ==> r == s[start..end]
    ensures 0 <= start && |s| <= end ==> r == s[Min(start, |s|)..]
  {
    var a := SliceBound(start, |s|);
    var b := SliceBound(end, |s|);
    if a < b then s[a..b] else []
  }

  /** `filteredRecords.slice((p - 1) * k, (p - 1) * k + k)`: page `p` of
      `s`. */
  function PageSlice<T>(s: seq<T>, p: int, k: nat): (r: seq<T>)
    requires k > 0 && p >= 1
    ensures |r| <= k
    ensures forall i :: 0 <= i < |r| ==> (p - 1) * k + i < |s| && r[i] == s[(p - 1) * k + i]
    ensures |r| == k || (p - 1) * k + |r| >= |s|
  {
    MulMonotone(0, p - 1, k);
    var a: nat := (p - 1) * k;
    var r := Slice(s, a, a + k);
    SliceWindow(s, a, k);
    r
  }

  /** `a * k` grows with `a`. */
  lemma {:induction false} MulMonotone(a: int, b: int, k: nat)
    requires a <= b
    ensures a * k <= b * k
    decreases b - a
  {
    if a < b {
      MulMonotone(a, b - 1, k);
      assert b * k == (b - 1) * k + k;
    }
  }

  /** `s.slice(a, a + k)` for `a >= 0`: the `k` elements from `a` on, as
      many as there are. */
  lemma SliceWindow<T>(s: seq<T>, a: nat, k: nat)
    ensures var r := Slice(s, a, a + k);
      && |r| == Min(k, Max(0, |s| - a))
      && forall i :: 0 <= i < |r| ==> a + i < |s| && r[i] == s[a + i]
  {
  }

  /** Pages `1..p` one after the other. */
  function PagesUpTo<T>(s: seq<T>, k: nat, p: nat): seq<T>
    requires k > 0
    decreases p
  {
    if p == 0 then [] else PagesUpTo(s, k, p - 1) + PageSlice(s, p, k)
  }

  lemma {:induction false} PagesUpToPrefix<T>(s: seq<T>, k: nat, p: nat)
    requires k > 0
    ensures PagesUpTo(s, k, p) == s[..Min(p * k, |s|)]
    decreases p
  {
    if p > 0 {
      PagesUpToPrefix(s, k, p - 1);
      MulMonotone(0, p - 1, k);
      var start := (p - 1) * k;
      assert p * k == start + k;
      var a := Min(start, |s|);
      var b := Min(start + k, |s|);
      var page := PageSlice(s, p, k);
      assert |page| == b - a;
      assert page == s[a..b];
      assert s[..b] == s[..a] + s[a..b];
    }
  }

  /** The pages partition the records: read one after another, pages
      `1..totalPages` are exactly the filtered records, so every record is
      on exactly one page. */
  lemma PagesPartition<T>(s: seq<T>, k: nat)
    requires k > 0
    ensures PagesUpTo(s, k, PageCount(|s|, k)) == s
  {
    PagesUpToPrefix(s, k, PageCount(|s|, k));
  }

  /** Every page up to `totalPages` holds a record when there are any, and
      the pages before the last are full. */
  lemma PagesNonEmpty<T>(s: seq<T>, k: nat, p: int)
    requires k > 0 && 1 <= p <= PageCount(|s|, k)
    ensures |s| > 0 ==> |PageSlice(s, p, k)| > 0
    ensures p < PageCount(|s|, k) ==> |PageSlice(s, p, k)| == k
  {
    var t := PageCount(|s|, k);
    if |s| > 0 {
      MulMonotone(p - 1, t - 1, k);
    }
    if p < t {
      MulMonotone(p, t - 1, k);
      assert p * k == (p - 1) * k + k;
    }
  }

  /** The first and last page numbers `renderPaginationButtons` shows as
      plain buttons. */
  datatype Window = Window(start: int, end: int)

  function PageWindow(current: int, total: int): Window {
    var start := Max(1, current - 2);
    var end := Min(total, start + 4);
    if end - start < 4 then Window(Max(1, end - 4), end) else Window(start, end)
  }

  /** For a current page within range the window holds it, stays within
      the pages, spans five pages (fewer only when there are fewer), and
      keeps the current page in the middle when there is room. */
  lemma WindowBounds(current: int, total: int)
    requires 1 <= current <= total
    ensures var w := PageWindow(current, total);
      && 1 <= w.start <= current <= w.end <= total
      && w.end - w.start == Min(4, total - 1)
      && (3 <= current <= total - 2 ==> w.start == current - 2 && w.end == current + 2)
  {
  }

  /** One element of the page button row. The first and last shortcuts are
      never marked active. */
  datatype Button = Page(n: int, active: bool) | Ellipsis

  /** Buttons `lo..hi`, the one for `current` active. */
  function Range(lo: int, hi: int, current: int): (r: seq<Button>)
    ensures |r| == Max(0, hi - lo + 1)
    ensures forall i :: 0 <= i < |r| ==> r[i] == Page(lo + i, lo + i == current)
    decreases hi - lo
  {
    if lo > hi then [] else [Page(lo, lo == current)] + Range(lo + 1, hi, current)
  }

  /** `renderPaginationButtons`: the first-page shortcut and an ellipsis,
      the window, then an ellipsis and the last-page shortcut. */
  function Buttons(current: int, total: int): seq<Button> {
    var w := PageWindow(current, total);
    var head := if w.start > 1 then [Page(1, false)] + (if w.start > 2 then [Ellipsis] else []) else [];
    var tail := if w.end < total then (if w.end < total - 1 then [Ellipsis] else []) + [Page(total, false)] else [];
    head + Range(w.start, w.end, current) + tail
  }

  /** How many buttons precede the window: the first-page shortcut, then
      an ellipsis. */
  function HeadLength(w: Window): nat {
    if w.start > 2 then 2 else if w.start > 1 then 1 else 0
  }

  /** How many buttons follow the window: an ellipsis, then the last-page
      shortcut. */
  function TailLength(w: Window, total: int): nat {
    if w.end < total - 1 then 2 else if w.end < total then 1 else 0
  }

  /** The button at each position of the row. */
  lemma ButtonAt(current: int, total: int, i: int)
    requires 1 <= current <= total
    ensures var w := PageWindow(current, total); var b := Buttons(current, total);
      var h := HeadLength(w); var m := w.end - w.start + 1;
      && |b| == h + m + TailLength(w, total)
      && (0 <= i < h ==> b[i] == if i == 0 then Page(1, false) else Ellipsis)
      && (h <= i < h + m ==> b[i] == Page(w.start + i - h, w.start + i - h == current))
      && (h + m <= i < |b| ==> b[i] == if i == |b| - 1 then Page(total, false) else Ellipsis)
  {
    WindowBounds(current, total);
    var w := PageWindow(current, total);
    var head := if w.start > 1 then [Page(1, false)] + (if w.start > 2 then [Ellipsis] else []) else [];
    var tail := if w.end < total then (if w.end < total - 1 then [Ellipsis] else []) + [Page(total, false)] else [];
    var r := Range(w.start, w.end, current);
    var b := head + r + tail;
    assert b == Buttons(current, total);
    if 0 <= i < |head| {
      assert b[i] == head[i];
    } else if |head| <= i < |head| + |r| {
      assert b[i] == r[i - |head|];
    } else if |head| + |r| <= i < |b| {
      assert b[i] == tail[i - |head| - |r|];
    }
  }

  /** The shortcuts and ellipses appear exactly under the conditions
      `renderPaginationButtons` tests: the row opens with the window unless
      `startPage > 1`, has an ellipsis second exactly when `startPage > 2`,
      and symmetrically at the end. */
  lemma ButtonShortcuts(current: int, total: int)
    requires 1 <= current <= total
    ensures var w := PageWindow(current, total); var b := Buttons(current, total);
      && |b| >= 1
      && (b[0] == Page(w.start, w.start == current) <==> w.start == 1)
      && (b[|b| - 1] == Page(w.end, w.end == current) <==> w.end == total)
      && (|b| > 1 && b[1] == Ellipsis <==> w.start > 2)
      && (|b| > 1 && b[|b| - 2] == Ellipsis <==> w.end < total - 1)
  {
    WindowBounds(current, total);
    var b := Buttons(current, total);
    ButtonAt(current, total, 0);
    ButtonAt(current, total, 1);
    ButtonAt(current, total, |b| - 1);
    ButtonAt(current, total, |b| - 2);
  }

  /** Page numbers lie in `1..total` and the row runs from 1 to `total`. */
  lemma ButtonsRange(current: int, total: int)
    requires 1 <= current <= total
    ensures var b := Buttons(current, total);
      && |b| >= 1 && b[0].Page? && b[0].n == 1 && b[|b| - 1].Page? && b[|b| - 1].n == total
      && (forall i :: 0 <= i < |b| && b[i].Page? ==> 1 <= b[i].n <= total)
  {
    WindowBounds(current, total);
    var b := Buttons(current, total);
    ButtonAt(current, total, 0);
    ButtonAt(current, total, |b| - 1);
    forall i | 0 <= i < |b| && b[i].Page? ensures 1 <= b[i].n <= total {
      ButtonAt(current, total, i);
    }
  }

  /** Neighbouring page buttons show consecutive pages, and an ellipsis
      stands only between two page buttons whose pages are not adjacent. */
  lemma ButtonsGaps(current: int, total: int)
    requires 1 <= current <= total
    ensures var b := Buttons(current, total);
      && (forall i :: 0 <= i < |b| - 1 && b[i].Page? && b[i + 1].Page? ==> b[i + 1].n == b[i].n + 1)
      && (forall i :: 0 <= i < |b| && b[i] == Ellipsis ==>
            0 < i < |b| - 1 && b[i - 1].Page? && b[i + 1].Page? && b[i + 1].n > b[i - 1].n + 1)
  {
    WindowBounds(current, total);
    var b := Buttons(current, total);
    forall i | 0 <= i < |b| - 1 && b[i].Page? && b[i + 1].Page? ensures b[i + 1].n == b[i].n + 1 {
      ButtonAt(current, total, i);
      ButtonAt(current, total, i + 1);
    }
    forall i | 0 <= i < |b| && b[i] == Ellipsis
      ensures 0 < i < |b| - 1 && b[i - 1].Page? && b[i + 1].Page? && b[i + 1].n > b[i - 1].n + 1
    {
      ButtonAt(current, total, i - 1);
      ButtonAt(current, total, i);
      ButtonAt(current, total, i + 1);
    }
  }

  /** Exactly the current page is marked active. */
  lemma ButtonsActive(current: int, total: int)
    requires 1 <= current <= total
    ensures var b := Buttons(current, total);
      && (forall i :: 0 <= i < |b| && b[i].Page? && b[i].active ==> b[i].n == current)
      && (exists i :: 0 <= i < |b| && b[i] == Page(current, true))
  {
    WindowBounds(current, total);
    var b := Buttons(current, total);
    var w := PageWindow(current, total);
    forall i | 0 <= i < |b| && b[i].Page? && b[i].active ensures b[i].n == current {
      ButtonAt(current, total, i);
    }
    var k := HeadLength(w) + current - w.start;
    ButtonAt(current, total, k);
  }
}

=== FILE: ranking.dfy ===
/** `calculateAverageRating` and `sortRecords` of the report
    (js/modules/report.js). */
module Ranking {
  import opened Values
  import opened Records
  import Sequences

  /** The test `typeof value === 'number' || !isNaN(parseInt(value))`. */
  predicate Counts(v: Value) {
    v.VInt? || ParseInt(v).Some?
  }

  /** A value counts exactly when it parses; booleans and `null` never do. */
  lemma CountsIffParses(v: Value)
    ensures Counts(v) <==> ParseInt(v).Some?
    ensures v.VBool? || v.VNull? ==> !Counts(v)
  {
    if v.VInt? {
      ParseIntOfInt(v.n);
    }
    if v.VBool? {
      ParseIntOfNonNumbers(v.b);
    }
    if v.VNull? {
      ParseIntOfNonNumbers(false);
    }
  }

  /** `parseInt(value)` of every counted value, in `for...in` order. */
  function Ratings(d: Data): (xs: seq<int>)
    ensures |xs| <= |d|
    decreases |d|
  {
    if |d| == 0 then []
    else
      var v := d[0].value;
      CountsIffParses(v);
      if Counts(v) then [ParseInt(v).value] + Ratings(d[1..]) else Ratings(d[1..])
  }

  function Sum(xs: seq<int>): int
    decreases |xs|
  {
    if |xs| == 0 then 0 else xs[0] + Sum(xs[1..])
  }

  /** `count > 0 ? sum / count : 0` */
  function Mean(xs: seq<int>): real {
    if |xs| > 0 then (Sum(xs) as real) / (|xs| as real) else 0.0
  }

  function AverageRating(r: Record): real {
    Mean(Ratings(r.data))
  }

  lemma {:induction false} SumBounds(xs: seq<int>, lo: int, hi: int)
    requires forall i :: 0 <= i < |xs| ==> lo <= xs[i] <= hi
    ensures lo * |xs| <= Sum(xs) <= hi * |xs|
    decreases |xs|
  {
    if |xs| > 0 {
      SumBounds(xs[1..], lo, hi);
      assert lo * |xs| == lo + lo * (|xs| - 1);
      assert hi * |xs| == hi + hi * (|xs| - 1);
    }
  }

  /** The average lies between the least and greatest counted rating, so
      ratings on the 1..5 scale average within 1..5. */
  lemma AverageWithinBounds(r: Record, lo: int, hi: int)
    ensures var xs := Ratings(r.data);
      |xs| > 0 && (forall i :: 0 <= i < |xs| ==> lo <= xs[i] <= hi) ==>
        lo as real <= AverageRating(r) <= hi as real
  {
    var xs := Ratings(r.data);
    if |xs| > 0 && forall i :: 0 <= i < |xs| ==> lo <= xs[i] <= hi {
      MeanWithinBounds(xs, lo, hi);
    }
  }

  lemma MeanWithinBounds(xs: seq<int>, lo: int, hi: int)
    requires |xs| > 0
    requires forall i :: 0 <= i < |xs| ==> lo <= xs[i] <= hi
    ensures lo as real <= Mean(xs) <= hi as real
  {
    var n := |xs|;
    var sum := Sum(xs);
    SumBounds(xs, lo, hi);
    CastProduct(lo, n);
    CastProduct(hi, n);
    assert (lo as real) * (n as real) <= sum as real <= (hi as real) * (n as real);
    DivisionBounds(sum as real, n as real, lo as real, hi as real);
    assert Mean(xs) == (sum as real) / (n as real);
  }

  lemma CastProduct(a: int, b: int)
    ensures (a * b) as real == (a as real) * (b as real)
  {
  }

  lemma DivisionBounds(s: real, n: real, lo: real, hi: real)
    requires n > 0.0 && lo * n <= s <= hi * n
    ensures lo <= s / n <= hi
  {
    var q := s / n;
    assert q * n == s;
  }

  /** Booleans and `null` never count: a record whose values are all of
      those averages 0. */
  lemma {:induction false} NoNumbersNoRatings(d: Data)
    requires forall i :: 0 <= i < |d| ==> d[i].value.VBool? || d[i].value.VNull?
    ensures Ratings(d) == []
    decreases |d|
  {
    if |d| > 0 {
      CountsIffParses(d[0].value);
      NoNumbersNoRatings(d[1..]);
    }
  }

  lemma NoNumbersAverageZero(r: Record)
    requires forall i :: 0 <= i < |r.data| ==> r.data[i].value.VBool? || r.data[i].value.VNull?
    ensures AverageRating(r) == 0.0
  {
    NoNumbersNoRatings(r.data);
  }

  /** Comparator `(a, b) => avg(a) - avg(b)`. */
  predicate RatingAscLe(a: Record, b: Record) {
    AverageRating(a) <= AverageRating(b)
  }

  /** Comparator `(a, b) => avg(b) - avg(a)`. */
  predicate RatingDescLe(a: Record, b: Record) {
    AverageRating(b) <= AverageRating(a)
  }

  const DateDesc := "date-desc"
  const DateAsc := "date-asc"
  const RatingDesc := "rating-desc"
  const RatingAsc := "rating-asc"

  /** `sortRecords`: a copy of the filtered records in the order
      `currentSort` names; any other value leaves the order as it was. */
  function SortRecords(rs: seq<Record>, sort: string): (r: seq<Record>)
    ensures multiset(r) == multiset(rs) && |r| == |rs|
    ensures sort == DateDesc ==> NewestFirst(r)
    ensures sort == DateAsc ==> OldestFirst(r)
    ensures sort == RatingDesc ==>
      forall i, j :: 0 <= i < j < |r| ==> AverageRating(r[i]) >= AverageRating(r[j])
    ensures sort == RatingAsc ==>
      forall i, j :: 0 <= i < j < |r| ==> AverageRating(r[i]) <= AverageRating(r[j])
    ensures sort !in {DateDesc, DateAsc, RatingDesc, RatingAsc} ==> r == rs
  {
    if sort == DateDesc then SortNewestFirst(rs)
    else if sort == DateAsc then SortOldestFirst(rs)
    else if sort == RatingDesc then
      assert Sequences.TotalPreorder(RatingDescLe);
      var r := Sequences.SortBy(rs, RatingDescLe);
      assert forall i, j :: 0 <= i < j < |r| ==> RatingDescLe(r[i], r[j]);
      r
    else if sort == RatingAsc then
      assert Sequences.TotalPreorder(RatingAscLe);
      var r := Sequences.SortBy(rs, RatingAscLe);
      assert forall i, j :: 0 <= i < j < |r| ==> RatingAscLe(r[i], r[j]);
      r
    else rs
  }
}

=== FILE: records.dfy ===
/** A journal record and the date orderings the store and the report sort
    records by (js/data/storage.js, js/modules/report.js). */
module Records {
  import opened Values
  import Sequences

  /** One key of a record's `data` object with its value; `data` keeps its
      keys in insertion order, which is the order `for...in` visits them. */
  datatype Entry = Entry(key: string, value: Value)

  type Data = seq<Entry>

  /** `{id, cycleId, dateTime, data}`; `dateTime` is the timestamp that
      `new Date(record.dateTime)` denotes. */
  datatype Record = Record(id: string, cycleId: string, dateTime: int, data: Data)

  /** A JavaScript object has each key at most once. */
  predicate UniqueKeys(d: Data) {
    forall i, j :: 0 <= i < j < |d| ==> d[i].key != d[j].key
  }

  /** `data[key]`: `None` is `undefined`. */
  function Lookup(d: Data, key: string): (r: Option<Value>)
    ensures r.None? <==> forall i :: 0 <= i < |d| ==> d[i].key != key
    ensures r.Some? ==> exists i :: 0 <= i < |d| && d[i] == Entry(key, r.value)
    decreases |d|
  {
    if |d| == 0 then None
    else if d[0].key == key then Some(d[0].value)
    else
      var r := Lookup(d[1..], key);
      assert forall i :: 1 <= i < |d| ==> d[i] == d[1..][i - 1];
      r
  }

  /** With unique keys, the lookup finds the one entry with that key. */
  lemma LookupUnique(d: Data, i: nat)
    requires UniqueKeys(d) && i < |d|
    ensures Lookup(d, d[i].key) == Some(d[i].value)
  {
    var r := Lookup(d, d[i].key);
    var j :| 0 <= j < |d| && d[j] == Entry(d[i].key, r.value);
    assert i == j;
  }

  /** Comparator `(a, b) => new Date(a.dateTime) - new Date(b.dateTime)`. */
  predicate DateAscLe(a: Record, b: Record) {
    a.dateTime <= b.dateTime
  }

  /** Comparator `(a, b) => new Date(b.dateTime) - new Date(a.dateTime)`. */
  predicate DateDescLe(a: Record, b: Record) {
    b.dateTime <= a.dateTime
  }

  lemma DateOrdersArePreorders()
    ensures Sequences.TotalPreorder(DateAscLe)
    ensures Sequences.TotalPreorder(DateDescLe)
  {
  }

  predicate NewestFirst(s: seq<Record>) {
    forall i, j :: 0 <= i < j < |s| ==> s[i].dateTime >= s[j].dateTime
  }

  predicate OldestFirst(s: seq<Record>) {
    forall i, j :: 0 <= i < j < |s| ==> s[i].dateTime <= s[j].dateTime
  }

  /** `records.sort(dateDesc)`: the same records, newest first. */
  function SortNewestFirst(rs: seq<Record>): (r: seq<Record>)
    ensures multiset(r) == multiset(rs) && |r| == |rs|
    ensures NewestFirst(r)
  {
    DateOrdersArePreorders();
    var r := Sequences.SortBy(rs, DateDescLe);
    assert forall i, j :: 0 <= i < j < |r| ==> DateDescLe(r[i], r[j]);
    r
  }

  /** `records.sort(dateAsc)`: the same records, oldest first. */
  function SortOldestFirst(rs: seq<Record>): (r: seq<Record>)
    ensures multiset(r) == multiset(rs) && |r| == |rs|
    ensures OldestFirst(r)
  {
    DateOrdersArePreorders();
    var r := Sequences.SortBy(rs, DateAscLe);
    assert forall i, j :: 0 <= i < j < |r| ==> DateAscLe(r[i], r[j]);
    r
  }

  predicate DistinctTimes(s: seq<Record>) {
    forall i, j :: 0 <= i < j < |s| ==> s[i].dateTime != s[j].dateTime
  }

  /** The head of a newest-first sequence is a most recent record. */
  lemma NewestFirstHead(s: seq<Record>)
    requires |s| > 0 && NewestFirst(s)
    ensures forall x :: x in s ==> x.dateTime <= s[0].dateTime
  {
    forall x | x in s ensures x.dateTime <= s[0].dateTime {
      var i :| 0 <= i < |s| && s[i] == x;
      if i > 0 { assert s[0].dateTime >= s[i].dateTime; }
    }
  }

  lemma ReversedNewestIsOldest(desc: seq<Record>)
    requires NewestFirst(desc)
    ensures Sequences.SortedBy(Sequences.Reverse(desc), DateAscLe)
  {
    var rev := Sequences.Reverse(desc);
    forall i, j | 0 <= i < j < |rev| ensures DateAscLe(rev[i], rev[j]) {
      assert rev[i] == desc[|desc| - 1 - i] && rev[j] == desc[|desc| - 1 - j];
    }
  }

  lemma DistinctTimesNoTies(s: seq<Record>, rs: seq<Record>)
    requires multiset(s) == multiset(rs)
    requires DistinctTimes(rs)
    ensures Sequences.NoTies(s, DateAscLe)
  {
    forall x, y | x in s && y in s && DateAscLe(x, y) && DateAscLe(y, x) ensures x == y {
      assert x in multiset(rs) && y in multiset(rs);
      var i :| 0 <= i < |rs| && rs[i] == x;
      var j :| 0 <= j < |rs| && rs[j] == y;
      assert i == j;
    }
  }

  /** Without ties, sorting oldest-first gives exactly the reverse of
      sorting newest-first. */
  lemma AscendingIsReversedDescending(rs: seq<Record>)
    requires DistinctTimes(rs)
    ensures SortOldestFirst(rs) == Sequences.Reverse(SortNewestFirst(rs))
  {
    var asc := SortOldestFirst(rs);
    var desc := SortNewestFirst(rs);
    Sequences.ReverseMultiset(desc);
    ReversedNewestIsOldest(desc);
    assert Sequences.SortedBy(asc, DateAscLe);
    DistinctTimesNoTies(asc, rs);
    Sequences.SortedPermutationUnique(asc, Sequences.Reverse(desc), DateAscLe);
  }
  /** Without ties, the oldest-first order of some records is the only
      oldest-first arrangement of them. */
  lemma OldestFirstUnique(rs: seq<Record>, want: seq<Record>)
    requires multiset(rs) == multiset(want)
    requires OldestFirst(want) && DistinctTimes(want)
    ensures SortOldestFirst(rs) == want
  {
    var sorted := SortOldestFirst(rs);
    assert Sequences.SortedBy(sorted, DateAscLe) && Sequences.SortedBy(want, DateAscLe);
    DistinctTimesNoTies(want, want);
    Sequences.SortedPermutationUnique(want, sorted, DateAscLe);
  }
}

=== FILE: report.dfy ===
/** The view state of the history report and the handlers that change it
    (`loadCategories`, `switchCycle`, `updateReports`, `updatePagination`,
    `changePage`, the sort and page-size handlers, `setView`,
    `updateDisplay` and `applyCategories` in js/modules/report.js). The DOM
    writes are left out; what the screen shows is the function
    `Display`. */
module Report {
  import opened Values
  import opened Records
  import Sequences
  import Taxonomy
  import Storage
  import Ranking
  import Pagination
  import Charts
  import Columns
  import Grouping

  type Descriptor = Taxonomy.Descriptor

  /** The fields the constructor sets up, plus the two charts' data. */
  datatype State = State(
    cycleId: string,
    all: seq<Descriptor>,
    enabled: set<string>,
    filtered: seq<Record>,
    sort: string,
    page: int,
    perPage: int,
    totalPages: int,
    display: seq<Record>,
    view: string,
    plots: Charts.Plots)

  const DefaultCycle := "biologico"
  const CardsView := "cards"
  const DefaultPerPage := 10

  /** The pagination invariant: `totalPages` matches the filtered records,
      the current page is one of them, and the records shown are exactly
      that page. */
  predicate Valid(st: State) {
    && st.perPage > 0
    && st.totalPages == Pagination.PageCount(|st.filtered|, st.perPage)
    && 1 <= st.page <= st.totalPages
    && st.display == Pagination.PageSlice(st.filtered, st.page, st.perPage)
  }

  function FullIds(descs: seq<Descriptor>): (ids: set<string>)
    ensures forall id :: id in ids <==> exists i :: 0 <= i < |descs| && descs[i].fullId == id
  {
    set i | 0 <= i < |descs| :: descs[i].fullId
  }

  /** `loadCategories`: reads the cycle's descriptors and enables every one
      of them, keeping what was already enabled. */
  function LoadCategories(st: State): (r: State)
    ensures r.all == Taxonomy.GetAllSubcategories(st.cycleId)
    ensures forall id :: id in r.enabled <==>
      id in st.enabled || exists i :: 0 <= i < |r.all| && r.all[i].fullId == id
    ensures r == st.(all := r.all, enabled := r.enabled)
  {
    var all := Taxonomy.GetAllSubcategories(st.cycleId);
    st.(all := all, enabled := st.enabled + FullIds(all))
  }

  /** Loading twice is loading once. */
  lemma LoadCategoriesIdempotent(st: State)
    ensures LoadCategories(LoadCategories(st)) == LoadCategories(st)
  {
  }

  /** The constructor: cycle `biologico`, card view, newest first, page 1
      of 10, no records yet, every descriptor of the cycle enabled. */
  function Init(): (st: State)
    ensures Valid(st)
    ensures st.cycleId == DefaultCycle && st.sort == Ranking.DateDesc && st.view == CardsView
    ensures st.filtered == [] && st.display == [] && st.page == 1 && st.perPage == DefaultPerPage
    ensures st.enabled == FullIds(Taxonomy.GetAllSubcategories(DefaultCycle))
  {
    var empty := State(DefaultCycle, [], {}, [], Ranking.DateDesc, 1, DefaultPerPage, 1, [], CardsView, Charts.NoPlots);
    LoadCategories(empty)
  }

  /** `updatePagination`: recomputes the page count, moves the current page
      down to the last page when it lies beyond it (never up), and slices
      the page out of the filtered records. */
  function UpdatePagination(st: State): (r: State)
    requires st.perPage > 0
    ensures r.totalPages == Pagination.PageCount(|st.filtered|, st.perPage)
    ensures r.page == Pagination.Min(st.page, r.totalPages)
    ensures st.page >= 1 ==> Valid(r)
    ensures r == st.(totalPages := r.totalPages, page := r.page, display := r.display)
  {
    var total := Pagination.PageCount(|st.filtered|, st.perPage);
    var page := if st.page > total then total else st.page;
    var start := (page - 1) * st.perPage;
    st.(totalPages := total, page := page, display := Pagination.Slice(st.filtered, start, start + st.perPage))
  }

  /** The records `updateReports` fetches: the cycle's records of the
      signed-in user within the period, newest first. `startDay` and
      `endDay` are the days in the two date inputs (`None` when one is
      empty). Both inputs become `new Date` bounds at midnight UTC, so the
      period ends at the first instant of the end day. */
  function Fetch(st: State, store: Storage.Store, startDay: Option<int>, endDay: Option<int>): (r: seq<Record>)
    ensures NewestFirst(r)
    ensures st.cycleId != "" ==> forall i :: 0 <= i < |r| ==> r[i].cycleId == st.cycleId
    ensures startDay.Some? && endDay.Some? ==> forall i :: 0 <= i < |r| ==>
      && startDay.value <= Storage.DayOf(r[i].dateTime)
      && r[i].dateTime <= endDay.value * Storage.DayMs
    ensures forall x :: x in r ==> x in Storage.StoredRecords(store)
  {
    Storage.GetRecordsWithinDays(store, Some(st.cycleId), startDay, endDay);
    Storage.GetRecords(store, Some(st.cycleId), Storage.DateBound(startDay), Storage.DateBound(endDay))
  }

  /** Every stored record of the cycle within the as-written bounds is
      fetched, and nothing else is. */
  lemma FetchMembers(st: State, store: Storage.Store, startDay: Option<int>, endDay: Option<int>, x: Record)
    ensures x in Fetch(st, store, startDay, endDay) <==>
      && x in Storage.StoredRecords(store)
      && (st.cycleId != "" ==> x.cycleId == st.cycleId)
      && (startDay.Some? && endDay.Some? ==>
            startDay.value <= Storage.DayOf(x.dateTime) && x.dateTime <= endDay.value * Storage.DayMs)
  {
    var r := Fetch(st, store, startDay, endDay);
    var m := Storage.Matches(x, Some(st.cycleId), Storage.DateBound(startDay), Storage.DateBound(endDay));
    assert x in r <==> multiset(r)[x] > 0;
    assert multiset(r)[x] == if m then multiset(Storage.StoredRecords(store))[x] else 0;
    if startDay.Some? && endDay.Some? {
      Storage.DateBoundsIff(x, Some(st.cycleId), startDay.value, endDay.value);
    }
  }

  /** With the end date as the start date, the history leaves out a record
      made at noon of that day. */
  lemma FetchDropsRestOfEndDay(st: State)
    requires st.cycleId == DefaultCycle
    ensures Fetch(st, Storage.NoonStore, Some(2), Some(2)) == []
    ensures Storage.NoonRecord in Storage.StoredRecords(Storage.NoonStore) && Storage.DayOf(Storage.NoonRecord.dateTime) == 2
  {
    Storage.SameDayPeriodAsWritten();
    assert Storage.StoredRecords(Storage.NoonStore) == [Storage.NoonRecord];
  }

  /** `updateReports`: fetches the records, redraws the charts from them in
      the store's newest-first order, then sorts them by the current
      criterion and paginates. */
  function UpdateReports(st: State, store: Storage.Store, startDay: Option<int>, endDay: Option<int>): (r: State)
    requires st.perPage > 0
    ensures st.page >= 1 ==> Valid(r)
    ensures r.totalPages == Pagination.PageCount(|Fetch(st, store, startDay, endDay)|, st.perPage)
    ensures r.page == Pagination.Min(st.page, r.totalPages)
    ensures multiset(r.filtered) == multiset(Fetch(st, store, startDay, endDay))
    ensures r.filtered == Ranking.SortRecords(Fetch(st, store, startDay, endDay), st.sort)
    ensures r.plots == Charts.UpdateCharts(Fetch(st, store, startDay, endDay), st.all, st.enabled)
    ensures r.cycleId == st.cycleId && r.enabled == st.enabled && r.sort == st.sort && r.view == st.view
  {
    var fetched := Fetch(st, store, startDay, endDay);
    var charted := st.(filtered := fetched, plots := Charts.UpdateCharts(fetched, st.all, st.enabled));
    UpdatePagination(charted.(filtered := Ranking.SortRecords(fetched, st.sort)))
  }

  /** After a refresh the radar shows a most recent fetched record, whatever
      the sort criterion: the charts are drawn before the sort. */
  lemma UpdateReportsRadarNewest(st: State, store: Storage.Store, startDay: Option<int>, endDay: Option<int>)
    requires st.perPage > 0
    requires |Fetch(st, store, startDay, endDay)| > 0
    ensures exists latest ::
      && latest in Fetch(st, store, startDay, endDay)
      && (forall x :: x in UpdateReports(st, store, startDay, endDay).filtered ==> x.dateTime <= latest.dateTime)
      && UpdateReports(st, store, startDay, endDay).plots.radar == Charts.RadarChart(latest, st.all, st.enabled)
  {
    var fetched := Fetch(st, store, startDay, endDay);
    var r := UpdateReports(st, store, startDay, endDay);
    Charts.RadarShowsNewest(fetched, st.all, st.enabled);
    forall x | x in r.filtered ensures x in fetched {
      assert x in multiset(r.filtered);
    }
  }

  /** A page request: the "prev" and "next" buttons, or a page number. */
  datatype Target = Prev | Next | Goto(n: int)

  /** `changePage` */
  function ChangePage(st: State, t: Target): (r: State)
    requires st.perPage > 0
    ensures r.filtered == st.filtered && r.perPage == st.perPage
    ensures Valid(st) && t.Prev? ==> Valid(r) && r.page == Pagination.Max(1, st.page - 1)
    ensures Valid(st) && t.Next? ==> Valid(r) && r.page == Pagination.Min(st.totalPages, st.page + 1)
    ensures Valid(st) && t.Goto? && t.n >= 1 ==> Valid(r) && r.page == Pagination.Min(t.n, st.totalPages)
  {
    var page :=
      match t
      case Prev => if st.page > 1 then st.page - 1 else st.page
      case Next => if st.page < st.totalPages then st.page + 1 else st.page
      case Goto(n) => n;
    UpdatePagination(st.(page := page))
  }

  /** Every page button `renderPaginationButtons` draws leads to a valid
      state showing exactly that page. */
  lemma PageButtonsLeadToTheirPage(st: State)
    requires Valid(st)
    ensures var b := Pagination.Buttons(st.page, st.totalPages);
      forall i :: 0 <= i < |b| && b[i].Page? ==>
        Valid(ChangePage(st, Goto(b[i].n))) && ChangePage(st, Goto(b[i].n)).page == b[i].n
  {
    Pagination.ButtonsRange(st.page, st.totalPages);
  }

  /** The page-size handler: `k` records per page, back to page 1. */
  function SetPerPage(st: State, k: int): (r: State)
    requires k > 0
    ensures Valid(r) && r.page == 1 && r.perPage == k
    ensures r.filtered == st.filtered && r.sort == st.sort && r.enabled == st.enabled
  {
    UpdatePagination(st.(perPage := k, page := 1))
  }

  /** The sort handler as written: it re-sorts the filtered records but does
      not call `updatePagination`, so the records shown stay those of the
      old order. */
  function SetSortAsWritten(st: State, sort: string): (r: State)
    ensures r.sort == sort && r.filtered == Ranking.SortRecords(st.filtered, sort)
    ensures r.display == st.display && r.page == st.page && r.totalPages == st.totalPages
  {
    st.(sort := sort, filtered := Ranking.SortRecords(st.filtered, sort))
  }

  /** The sort handler as evidently intended: re-sort, then re-slice the
      current page from the new order. */
  function SetSort(st: State, sort: string): (r: State)
    requires st.perPage > 0
    ensures r.sort == sort && r.filtered == Ranking.SortRecords(st.filtered, sort)
    ensures Valid(st) ==> Valid(r) && r.page == st.page
  {
    UpdatePagination(st.(sort := sort, filtered := Ranking.SortRecords(st.filtered, sort)))
  }

  const Older := Record("a", DefaultCycle, 1, [])
  const Newer := Record("b", DefaultCycle, 2, [])

  /** Two records newest first, one per page, page 1 showing the newer. */
  const TwoPages := State(DefaultCycle, [], {}, [Newer, Older], Ranking.DateDesc, 1, 1, 2, [Newer], CardsView, Charts.NoPlots)

  lemma OldestFirstOfTwo()
    ensures Ranking.SortRecords([Newer, Older], Ranking.DateAsc) == [Older, Newer]
  {
    OldestFirstUnique([Newer, Older], [Older, Newer]);
  }

  /** Switching "newest first" to "oldest first" on page 1 of two: as
      written the page still shows the newer record although page 1 of the
      new order holds the older one, so the pagination invariant breaks;
      the corrected handler shows the older one. */
  lemma SortChangeLeavesStalePage()
    ensures Valid(TwoPages)
    ensures !Valid(SetSortAsWritten(TwoPages, Ranking.DateAsc))
    ensures SetSortAsWritten(TwoPages, Ranking.DateAsc).display == [Newer]
    ensures Valid(SetSort(TwoPages, Ranking.DateAsc)) && SetSort(TwoPages, Ranking.DateAsc).display == [Older]
  {
    OldestFirstOfTwo();
    assert Pagination.PageSlice([Older, Newer], 1, 1) == [Older];
    assert Pagination.PageSlice([Newer, Older], 1, 1) == [Newer];
  }

  /** `setView` */
  function SetView(st: State, view: string): (r: State)
    ensures r.view == view && r == st.(view := view)
  {
    st.(view := view)
  }

  /** What `updateDisplay` draws: one card body per record shown, or the
      table (`None` when building it throws). */
  datatype Screen = Cards(cards: seq<seq<Grouping.Section>>) | Table(table: Option<Columns.Table>)

  /** `updateDisplay`: cards for the view `cards`, the table for any other
      view, always over the records of the current page only. */
  function Display(st: State): (s: Screen)
    ensures st.view == CardsView <==> s.Cards?
    ensures s.Cards? ==> |s.cards| == |st.display| && forall i :: 0 <= i < |st.display| ==>
      s.cards[i] == Grouping.CardSections(st.display[i], st.all, st.enabled)
    ensures s.Table? ==> s.table == Columns.TableView(st.display, st.all, st.enabled)
  {
    if st.view == CardsView then
      Cards(seq(|st.display|, i requires 0 <= i < |st.display| => Grouping.CardSections(st.display[i], st.all, st.enabled)))
    else Table(Columns.TableView(st.display, st.all, st.enabled))
  }

  /** A valid state never shows more records than a page holds, and shows
      some whenever there are any. */
  lemma DisplayIsOnePage(st: State)
    requires Valid(st)
    ensures |st.display| <= st.perPage
    ensures |st.filtered| > 0 ==> |st.display| > 0
    ensures forall i :: 0 <= i < |st.display| ==> st.display[i] in st.filtered
  {
    Pagination.PagesNonEmpty(st.filtered, st.perPage, st.page);
  }

  /** `updateDisplay` throws: the table view, and building the table
      fails at a cell. */
  predicate DisplayThrows(st: State) {
    Display(st).Table? && Display(st).table.None?
  }

  /** `applyCategories`: the enabled set becomes exactly the checked ids,
      the display is redrawn with them, and then the charts are redrawn
      from the filtered records in their current (sorted) order. When the
      display throws, the handler stops before the charts, which keep what
      they showed. */
  function ApplyCategories(st: State, checked: set<string>): (r: State)
    ensures r.enabled == checked
    ensures !DisplayThrows(st.(enabled := checked)) ==> r.plots == Charts.UpdateCharts(st.filtered, st.all, checked)
    ensures DisplayThrows(st.(enabled := checked)) ==> r.plots == st.plots
    ensures r == st.(enabled := checked, plots := r.plots)
  {
    var shown := st.(enabled := checked);
    if DisplayThrows(shown) then shown
    else shown.(plots := Charts.UpdateCharts(st.filtered, st.all, checked))
  }

  /** The display never throws in the cards view; in the table view it
      throws exactly when some shown record holds a truthy non-string value
      in an enabled column. */
  lemma DisplayThrowsIff(st: State)
    ensures var cols := Columns.SelectColumns(st.all, st.enabled);
      DisplayThrows(st) <==>
        && st.view != CardsView
        && exists i, j :: 0 <= i < |st.display| && 0 <= j < |cols|
             && TruthyOpt(Lookup(st.display[i].data, cols[j].fullId))
             && !Lookup(st.display[i].data, cols[j].fullId).value.VStr?
  {
  }

  /** In the table view with day 1's sleep rating shown and sleep quality
      checked, the `5` stored as a number throws at the note, so applying
      the categories leaves the charts as they were. */
  lemma TableThrowKeepsCharts(st: State)
    requires st.view != CardsView && st.display == [Day1] && st.all == [SleepQuality]
    ensures DisplayThrows(st.(enabled := {SleepQuality.fullId}))
    ensures ApplyCategories(st, {SleepQuality.fullId}).plots == st.plots
  {
    SleepQualityShape();
    var cols := Columns.SelectColumns([SleepQuality], {SleepQuality.fullId});
    assert SleepQuality in cols;
    assert cols == [SleepQuality];
    assert Columns.TableCell(Day1, SleepQuality).None?;
  }

  /** Applying the category filter after an oldest-first refresh draws the
      radar from an oldest record, not the newest: the charts read
      `filteredRecords[0]` in whatever order the list is in. */
  lemma ApplyAfterAscendingSortShowsOldest(st: State, store: Storage.Store, startDay: Option<int>, endDay: Option<int>,
                                           checked: set<string>)
    requires st.perPage > 0 && st.sort == Ranking.DateAsc
    requires |Fetch(st, store, startDay, endDay)| > 0
    ensures var r := UpdateReports(st, store, startDay, endDay);
      !DisplayThrows(r.(enabled := checked)) ==> exists first ::
        && first in r.filtered
        && (forall x :: x in r.filtered ==> first.dateTime <= x.dateTime)
        && ApplyCategories(r, checked).plots.radar == Charts.RadarChart(first, r.all, checked)
  {
    var r := UpdateReports(st, store, startDay, endDay);
    assert |r.filtered| > 0;
    HeadIsOldest(r.filtered);
    var a := ApplyCategories(r, checked);
    if !DisplayThrows(r.(enabled := checked)) {
      assert a.plots == Charts.UpdateCharts(r.filtered, r.all, checked);
      assert a.plots.radar == Charts.RadarChart(r.filtered[0], r.all, checked);
    }
  }

  /** The head of an oldest-first list is no newer than any record in it. */
  lemma HeadIsOldest(s: seq<Record>)
    requires |s| > 0 && OldestFirst(s)
    ensures s[0] in s && forall x :: x in s ==> s[0].dateTime <= x.dateTime
  {
    forall x | x in s ensures s[0].dateTime <= x.dateTime {
      var i :| 0 <= i < |s| && s[i] == x;
      if i > 0 {
        assert OldestFirst(s);
      }
    }
  }

  /** `switchCycle`: the same cycle changes nothing; another cycle enables
      exactly its descriptors and refreshes the report. */
  function SwitchCycle(st: State, cycleId: string, store: Storage.Store, startDay: Option<int>, endDay: Option<int>): (r: State)
    requires st.perPage > 0
    ensures cycleId == st.cycleId ==> r == st
    ensures cycleId != st.cycleId ==>
      && r.cycleId == cycleId
      && r.all == Taxonomy.GetAllSubcategories(cycleId)
      && r.enabled == FullIds(Taxonomy.GetAllSubcategories(cycleId))
      && multiset(r.filtered) == multiset(Storage.GetRecords(store, Some(cycleId), Storage.DateBound(startDay), Storage.DateBound(endDay)))
      && r.page == Pagination.Min(st.page, r.totalPages)
    ensures Valid(st) ==> Valid(r)
  {
    if st.cycleId == cycleId then st
    else UpdateReports(LoadCategories(st.(cycleId := cycleId, enabled := {})), store, startDay, endDay)
  }

  // Worked scenarios: three days of sleep-quality ratings 5, 3 and 1.

  const SleepQuality := Taxonomy.Describe(Taxonomy.Sono, Taxonomy.Sono.subcategories[0])
  const Day1 := Record("1", DefaultCycle, 1, [Entry("sono-qualidade", VInt(5))])
  const Day2 := Record("2", DefaultCycle, 2, [Entry("sono-qualidade", VInt(3))])
  const Day3 := Record("3", DefaultCycle, 3, [Entry("sono-qualidade", VInt(1))])
  const Journal := Storage.Store(map["senha" := Storage.User("Ana", Some([Day1, Day2, Day3]), None)], Some("senha"))

  lemma SleepQualityShape()
    ensures SleepQuality.fullId == "sono-qualidade" && SleepQuality.kind == Taxonomy.SelectKind
  {
  }

  lemma ThreeDaysOldestFirst()
    ensures SortOldestFirst([Day3, Day2, Day1]) == [Day1, Day2, Day3]
  {
    var want := [Day1, Day2, Day3];
    assert multiset([Day3, Day2, Day1]) == multiset(want);
    OldestFirstUnique([Day3, Day2, Day1], want);
  }

  lemma OnlySleepQualityPlotted()
    ensures Charts.Candidates([SleepQuality], {SleepQuality.fullId}) == [SleepQuality]
  {
    SleepQualityShape();
    var cands := Charts.Candidates([SleepQuality], {SleepQuality.fullId});
    assert SleepQuality in cands;
  }

  /** The trend over the three days, whatever order they arrive in: the
      days in date order, one sleep-quality line reading 5, 3, 1. */
  lemma ThreeDaysTrend()
    ensures var t := Charts.TrendChart([Day3, Day2, Day1], [SleepQuality], {SleepQuality.fullId});
      && t.times == [1, 2, 3]
      && |t.series| == 1
      && t.series[0].points == [Some(VInt(5)), Some(VInt(3)), Some(VInt(1))]
  {
    ThreeDaysOldestFirst();
    OnlySleepQualityPlotted();
    DayPoints();
    var t := Charts.TrendChart([Day3, Day2, Day1], [SleepQuality], {SleepQuality.fullId});
    assert |t.times| == 3 && t.times[0] == 1 && t.times[1] == 2 && t.times[2] == 3;
    var pts := t.series[0].points;
    assert |pts| == 3;
    assert pts[0] == Charts.TrendPoint(Day1, SleepQuality);
    assert pts[1] == Charts.TrendPoint(Day2, SleepQuality);
    assert pts[2] == Charts.TrendPoint(Day3, SleepQuality);
  }

  /** Each day's sleep-quality point is its rating. */
  lemma DayPoints()
    ensures Charts.TrendPoint(Day1, SleepQuality) == Some(VInt(5))
    ensures Charts.TrendPoint(Day2, SleepQuality) == Some(VInt(3))
    ensures Charts.TrendPoint(Day3, SleepQuality) == Some(VInt(1))
  {
    SleepQualityShape();
  }

  /** The radar of the newest day shows its sleep quality, 1. */
  lemma NewestDayRadar()
    ensures Charts.RadarChart(Day3, [SleepQuality], {SleepQuality.fullId}).data == [VInt(1)]
  {
    SleepQualityShape();
    OnlySleepQualityPlotted();
    var r := Charts.RadarChart(Day3, [SleepQuality], {SleepQuality.fullId});
    assert r.data[0] == Charts.RadarValue(Day3, SleepQuality);
  }

  /** With only sleep quality enabled, the charts over the three days (in
      the store's newest-first order) plot 5, 3, 1 in date order, and the
      radar shows the newest day's 1. */
  lemma ThreeDaysCharts()
    ensures var p := Charts.UpdateCharts([Day3, Day2, Day1], [SleepQuality], {SleepQuality.fullId});
      && p.trend.times == [1, 2, 3]
      && |p.trend.series| == 1
      && p.trend.series[0].points == [Some(VInt(5)), Some(VInt(3)), Some(VInt(1))]
      && p.radar.data == [VInt(1)]
  {
    ThreeDaysTrend();
    NewestDayRadar();
  }

  // The descriptors of the biological cycle, in taxonomy order.
  const SleepBed := Taxonomy.Describe(Taxonomy.Sono, Taxonomy.Sono.subcategories[1])
  const SleepMind := Taxonomy.Describe(Taxonomy.Sono, Taxonomy.Sono.subcategories[2])
  const Dreams := Taxonomy.Describe(Taxonomy.Sonhos, Taxonomy.Sonhos.subcategories[0])
  const Food := Taxonomy.Describe(Taxonomy.Alimentacao, Taxonomy.Alimentacao.subcategories[0])
  const Cannabis := Taxonomy.Describe(Taxonomy.Maconha, Taxonomy.Maconha.subcategories[0])
  const Exercise := Taxonomy.Describe(Taxonomy.Atividade, Taxonomy.Atividade.subcategories[0])
  const Hydration := Taxonomy.Describe(Taxonomy.Hidratacao, Taxonomy.Hidratacao.subcategories[0])

  /** The biological cycle flattens category by category, subcategory by
      subcategory: sleep (quality, bed, mind), dreams, food, cannabis,
      exercise, hydration. */
  lemma BiologicoFlattened()
    ensures Taxonomy.GetAllSubcategories(DefaultCycle) ==
      [SleepQuality, SleepBed, SleepMind, Dreams, Food, Cannabis, Exercise, Hydration]
  {
    var cats := Taxonomy.Biologico.categories;
    assert cats[5..][1..] == [];
    assert Taxonomy.Flatten(cats[5..]) == [Hydration];
    assert cats[4..][1..] == cats[5..];
    assert Taxonomy.Flatten(cats[4..]) == [Exercise, Hydration];
    assert cats[3..][1..] == cats[4..];
    assert Taxonomy.Flatten(cats[3..]) == [Cannabis, Exercise, Hydration];
    assert cats[2..][1..] == cats[3..];
    assert Taxonomy.Flatten(cats[2..]) == [Food, Cannabis, Exercise, Hydration];
    assert cats[1..][1..] == cats[2..];
    assert Taxonomy.Flatten(cats[1..]) == [Dreams, Food, Cannabis, Exercise, Hydration];
    assert Taxonomy.DescribeAll(Taxonomy.Sono, Taxonomy.Sono.subcategories) == [SleepQuality, SleepBed, SleepMind];
  }

  /** The period from day 2 to day 2 keeps exactly day 2. */
  lemma OneDayPeriod()
    ensures Storage.GetRecords(Journal, Some(DefaultCycle), Some(2), Some(2)) == [Day2]
  {
    var r := Storage.GetRecords(Journal, Some(DefaultCycle), Some(2), Some(2));
    assert Storage.StoredRecords(Journal) == [Day1, Day2, Day3];
    assert multiset(r) == multiset([Day2]) by {
      forall x ensures multiset(r)[x] == multiset([Day2])[x] {
        if Storage.Matches(x, Some(DefaultCycle), Some(2), Some(2)) && x != Day2 {
          assert x != Day1 && x != Day3;
        }
      }
    }
    assert |r| == 1;
    assert r[0] in multiset(r);
  }

  /** Two per page over five records: three pages, the last holding one
      record. */
  lemma FiveRecordsTwoPerPage(s: seq<Record>)
    requires |s| == 5
    ensures Pagination.PageCount(|s|, 2) == 3
    ensures Pagination.PageSlice(s, 3, 2) == [s[4]]
  {
  }
}

=== FILE: sequences.dfy ===
/** Order-preserving filtering and the stable sort behind every
    `Array.prototype.sort` call of the journal. A comparator `cmp` is
    modelled by the relation `le(a, b)` that holds when `cmp(a, b) <= 0`. */
module Sequences {

  ghost predicate TotalPreorder<T(!new)>(le: (T, T) -> bool) {
    && (forall a, b :: le(a, b) || le(b, a))
    && (forall a, b, c :: le(a, b) && le(b, c) ==> le(a, c))
  }

  ghost predicate SortedBy<T>(s: seq<T>, le: (T, T) -> bool) {
    forall i, j :: 0 <= i < j < |s| ==> le(s[i], s[j])
  }

  /** `s.filter(p)`: keeps exactly the elements satisfying `p`, each as
      often as it occurs, in their original order. */
  function Filter<T(!new)>(s: seq<T>, p: T -> bool): (r: seq<T>)
    ensures |r| <= |s|
    ensures forall i :: 0 <= i < |r| ==> p(r[i])
    ensures forall x :: multiset(r)[x] == if p(x) then multiset(s)[x] else 0
    decreases |s|
  {
    if |s| == 0 then []
    else
      var rest := Filter(s[1..], p);
      assert s == [s[0]] + s[1..];
      if p(s[0]) then [s[0]] + rest else rest
  }

  /** Filtering distributes over concatenation, so the filter keeps the
      original relative order. */
  lemma {:induction false} FilterAppend<T(!new)>(a: seq<T>, b: seq<T>, p: T -> bool)
    ensures Filter(a + b, p) == Filter(a, p) + Filter(b, p)
    decreases |a|
  {
    if |a| > 0 {
      assert (a + b)[1..] == a[1..] + b;
      FilterAppend(a[1..], b, p);
    } else {
      assert a + b == b;
    }
  }

  /** `s.findIndex(p)`: the first position whose element satisfies `p`,
      `-1` when there is none. */
  function FindIndex<T>(s: seq<T>, p: T -> bool): (r: int)
    ensures -1 <= r < |s|
    ensures r == -1 <==> forall j :: 0 <= j < |s| ==> !p(s[j])
    ensures r >= 0 ==> p(s[r]) && forall j :: 0 <= j < r ==> !p(s[j])
    decreases |s|
  {
    if |s| == 0 then -1
    else if p(s[0]) then 0
    else
      var r := FindIndex(s[1..], p);
      assert forall j :: 1 <= j < |s| ==> s[j] == s[1..][j - 1];
      if r == -1 then -1 else r + 1
  }

  /** `s.map(f)` */
  function Map<T, U>(s: seq<T>, f: T -> U): (r: seq<U>)
    ensures |r| == |s| && forall i :: 0 <= i < |s| ==> r[i] == f(s[i])
  {
    seq(|s|, i requires 0 <= i < |s| => f(s[i]))
  }

  lemma MapCons<T, U>(x: T, s: seq<T>, f: T -> U)
    ensures Map([x] + s, f) == [f(x)] + Map(s, f)
  {
    var l := Map([x] + s, f);
    var r := [f(x)] + Map(s, f);
    assert forall i :: 1 <= i < |l| ==> l[i] == f(s[i - 1]) == r[i];
  }

  /** Mapping the filtered elements, one element at a time. */
  lemma MapFilterCons<T(!new), U>(s: seq<T>, p: T -> bool, f: T -> U)
    requires |s| > 0
    ensures Map(Filter(s, p), f) == (if p(s[0]) then [f(s[0])] else []) + Map(Filter(s[1..], p), f)
  {
    var rest := Filter(s[1..], p);
    assert Filter(s, p) == if p(s[0]) then [s[0]] + rest else rest;
    if p(s[0]) {
      MapCons(s[0], rest, f);
    }
  }

  /** `s.slice(0, n)` */
  function Take<T>(s: seq<T>, n: nat): (r: seq<T>)
    ensures |r| == if n < |s| then n else |s|
    ensures forall i :: 0 <= i < |r| ==> r[i] == s[i]
  {
    if n < |s| then s[..n] else s
  }

  /** Puts `x` in front of the first element it may precede; on a sorted
      sequence the result is sorted and `x` stays before its equals that
      come later. */
  function Insert<T(!new)>(x: T, s: seq<T>, le: (T, T) -> bool): (r: seq<T>)
    requires TotalPreorder(le)
    ensures |r| == |s| + 1
    ensures multiset(r) == multiset(s) + multiset{x}
    ensures forall i :: 0 <= i < |r| ==> r[i] == x || r[i] in s
    ensures SortedBy(s, le) ==> SortedBy(r, le)
    decreases |s|
  {
    if |s| == 0 || le(x, s[0]) then
      var r := [x] + s;
      assert SortedBy(s, le) ==> SortedBy(r, le) by {
        if SortedBy(s, le) {
          forall j | 0 <= j < |s| ensures le(x, s[j]) {
            if j > 0 {
              assert le(s[0], s[j]);
            }
          }
          ConsSorted(x, s, le);
        }
      }
      r
    else
      var rest := Insert(x, s[1..], le);
      var r := [s[0]] + rest;
      assert s == [s[0]] + s[1..];
      assert SortedBy(s, le) ==> SortedBy(r, le) by {
        if SortedBy(s, le) {
          assert SortedBy(s[1..], le);
          forall j | 0 <= j < |rest| ensures le(s[0], rest[j]) {
            if rest[j] != x {
              var k :| 0 <= k < |s[1..]| && s[1..][k] == rest[j];
              assert s[1..][k] == s[k + 1];
            }
          }
          ConsSorted(s[0], rest, le);
        }
      }
      r
  }

  /** A head that may precede every element of a sorted tail keeps the
      sequence sorted. */
  lemma ConsSorted<T>(h: T, rest: seq<T>, le: (T, T) -> bool)
    requires SortedBy(rest, le)
    requires forall j :: 0 <= j < |rest| ==> le(h, rest[j])
    ensures SortedBy([h] + rest, le)
  {
    var r := [h] + rest;
    forall i, j | 0 <= i < j < |r| ensures le(r[i], r[j]) {
      assert r[j] == rest[j - 1];
      if i > 0 {
        assert r[i] == rest[i - 1];
      }
    }
  }

  /** Stable insertion sort: a sorted permutation of `s`. */
  function SortBy<T(!new)>(s: seq<T>, le: (T, T) -> bool): (r: seq<T>)
    requires TotalPreorder(le)
    ensures |r| == |s|
    ensures multiset(r) == multiset(s)
    ensures SortedBy(r, le)
    decreases |s|
  {
    if |s| == 0 then []
    else
      assert s == [s[0]] + s[1..];
      Insert(s[0], SortBy(s[1..], le), le)
  }

  function Reverse<T>(s: seq<T>): (r: seq<T>)
    ensures |r| == |s|
    ensures forall i :: 0 <= i < |s| ==> r[i] == s[|s| - 1 - i]
    decreases |s|
  {
    if |s| == 0 then [] else Reverse(s[1..]) + [s[0]]
  }

  lemma {:induction false} ReverseMultiset<T>(s: seq<T>)
    ensures multiset(Reverse(s)) == multiset(s)
    decreases |s|
  {
    if |s| > 0 {
      ReverseMultiset(s[1..]);
      assert s == [s[0]] + s[1..];
    }
  }

  /** No two distinct elements of `s` are equivalent under `le`. */
  ghost predicate NoTies<T>(s: seq<T>, le: (T, T) -> bool) {
    forall x, y :: x in s && y in s && le(x, y) && le(y, x) ==> x == y
  }

  lemma MultisetTail<T>(a: seq<T>, b: seq<T>)
    requires |a| > 0 && |b| > 0 && a[0] == b[0]
    requires multiset(a) == multiset(b)
    ensures multiset(a[1..]) == multiset(b[1..])
  {
    assert a == [a[0]] + a[1..] && b == [b[0]] + b[1..];
    assert multiset(a) == multiset{a[0]} + multiset(a[1..]);
    assert multiset(b) == multiset{a[0]} + multiset(b[1..]);
    forall z ensures multiset(a[1..])[z] == multiset(b[1..])[z] {
      assert multiset(a)[z] == multiset{a[0]}[z] + multiset(a[1..])[z];
      assert multiset(b)[z] == multiset{a[0]}[z] + multiset(b[1..])[z];
    }
  }

  /** The heads of two sorted permutations without ties coincide: both are
      the least element. */
  lemma SortedHeads<T(!new)>(a: seq<T>, b: seq<T>, le: (T, T) -> bool)
    requires |a| > 0
    requires multiset(a) == multiset(b)
    requires SortedBy(a, le) && SortedBy(b, le)
    requires NoTies(a, le)
    ensures a[0] == b[0]
  {
    assert a[0] in multiset(b);
    assert |b| > 0;
    assert b[0] in multiset(a);
    var i :| 0 <= i < |b| && b[i] == a[0];
    var j :| 0 <= j < |a| && a[j] == b[0];
    if i > 0 && j > 0 {
      assert le(b[0], b[i]);
      assert le(a[0], a[j]);
      assert b[0] in a;
    }
  }

  /** Two sorted permutations of the same elements coincide when no two
      elements tie: the sort result is determined by the elements alone. */
  lemma {:induction false} SortedPermutationUnique<T(!new)>(a: seq<T>, b: seq<T>, le: (T, T) -> bool)
    requires multiset(a) == multiset(b)
    requires SortedBy(a, le) && SortedBy(b, le)
    requires NoTies(a, le)
    ensures a == b
    decreases |a|
  {
    assert |a| == |multiset(a)| == |b|;
    if |a| > 0 {
      SortedHeads(a, b, le);
      MultisetTail(a, b);
      assert SortedBy(a[1..], le) && SortedBy(b[1..], le);
      assert NoTies(a[1..], le) by {
        forall x, y | x in a[1..] && y in a[1..] && le(x, y) && le(y, x) ensures x == y {
          assert x in a && y in a;
        }
      }
      SortedPermutationUnique(a[1..], b[1..], le);
      assert a == [a[0]] + a[1..] && b == [b[0]] + b[1..];
    }
  }
}

=== FILE: storage.dfy ===
/** The record store of js/data/storage.js: a map from password to user and
    the password of the signed-in user. The persisted JSON document is the
    map itself; whether writing it succeeds is a parameter (`writeOk`), and a
    failed write leaves the stored map as it was. */
module Storage {
  import opened Values
  import opened Records
  import Sequences

  /** `lastRecord`: a copy of the fields of the last record added. */
  datatype Snapshot = Snapshot(cycleId: string, dateTime: int, data: Data)

  /** `{name, records, lastRecord}`; `records` is `None` when the array is
      missing and `lastRecord` is `None` when it is `null`. */
  datatype User = User(name: string, records: Option<seq<Record>>, lastRecord: Option<Snapshot>)

  /** `currentUser` is `None` when it is `null`. */
  datatype Store = Store(users: map<string, User>, currentUser: Option<string>)

  /** The store after an operation and the boolean the operation returns. */
  datatype Outcome = Outcome(store: Store, ok: bool)

  /** `Storage.init()` over an empty document: no users, nobody signed in. */
  const Empty := Store(map[], None)

  /** `if (!this.currentUser)`: `null` and the empty string are falsy. */
  predicate SignedIn(s: Store) {
    s.currentUser.Some? && s.currentUser.value != ""
  }

  /** `getUser(password)`: every stored user is an object and so truthy. */
  function GetUser(s: Store, password: string): (r: Option<User>)
    ensures r.Some? <==> password in s.users
    ensures r.Some? ==> r.value == s.users[password]
  {
    if password in s.users then Some(s.users[password]) else None
  }

  /** `saveUser(password, userData)`: replaces the entry at that key and
      nothing else; returns whether the write succeeded. */
  function SaveUser(s: Store, password: string, user: User, writeOk: bool): (r: Outcome)
    ensures r.ok == writeOk
    ensures r.store.currentUser == s.currentUser
    ensures writeOk ==> GetUser(r.store, password) == Some(user)
    ensures writeOk ==> r.store.users.Keys == s.users.Keys + {password}
    ensures writeOk ==> forall p :: p in s.users && p != password ==> r.store.users[p] == s.users[p]
    ensures !writeOk ==> r.store == s
  {
    if writeOk then Outcome(s.(users := s.users[password := user]), true) else Outcome(s, false)
  }

  /** The user `createUser` stores. */
  function NewUser(name: string): User {
    User(name, Some([]), None)
  }

  /** `createUser(password, name)`: stores a user with that name, no records
      and no last record, over any user that had the same password. */
  function CreateUser(s: Store, password: string, name: string, writeOk: bool): (r: Outcome)
    ensures r.ok == writeOk
    ensures writeOk ==> GetUser(r.store, password) == Some(User(name, Some([]), None))
    ensures writeOk ==> forall p :: p in s.users && p != password ==> GetUser(r.store, p) == GetUser(s, p)
    ensures !writeOk ==> r.store == s
  {
    SaveUser(s, password, NewUser(name), writeOk)
  }

  /** `updateUserName(password, name)`: fails for an unknown password;
      otherwise only the name of that user changes. */
  function UpdateUserName(s: Store, password: string, name: string, writeOk: bool): (r: Outcome)
    ensures password !in s.users ==> r == Outcome(s, false)
    ensures password in s.users ==> r.ok == writeOk
    ensures password in s.users && writeOk ==>
      r.store.users == s.users[password := s.users[password].(name := name)]
    ensures !r.ok ==> r.store == s
  {
    match GetUser(s, password)
    case None => Outcome(s, false)
    case Some(user) => SaveUser(s, password, user.(name := name), writeOk)
  }

  /** `updateUserPassword(oldPassword, newPassword)`: fails for an unknown
      old password; otherwise the user moves from the old key to the new one
      and every other entry stays. `currentUser` is not touched. */
  function UpdateUserPassword(s: Store, oldPassword: string, newPassword: string, writeOk: bool): (r: Outcome)
    ensures oldPassword !in s.users ==> r == Outcome(s, false)
    ensures oldPassword in s.users ==> r.ok == writeOk
    ensures r.store.currentUser == s.currentUser
    ensures r.ok ==> GetUser(r.store, newPassword) == GetUser(s, oldPassword)
    ensures r.ok && oldPassword != newPassword ==> GetUser(r.store, oldPassword).None?
    ensures r.ok ==> forall p :: p != oldPassword && p != newPassword ==> GetUser(r.store, p) == GetUser(s, p)
    ensures !r.ok ==> r.store == s
  {
    match GetUser(s, oldPassword)
    case None => Outcome(s, false)
    case Some(user) =>
      if writeOk then
        Outcome(s.(users := (s.users - {oldPassword})[newPassword := user]), true)
      else Outcome(s, false)
  }

  /** `login(password)` with the key test on the map's own entries: it
      succeeds exactly for a stored password and then signs that password
      in. */
  function Login(s: Store, password: string): (r: Outcome)
    ensures r.ok <==> password in s.users
    ensures r.ok ==> r.store == s.(currentUser := Some(password))
    ensures !r.ok ==> r.store == s
  {
    if password in s.users then Outcome(s.(currentUser := Some(password)), true)
    else Outcome(s, false)
  }

  /** `logout()` */
  function Logout(s: Store): (r: Store)
    ensures !SignedIn(r) && r.users == s.users
  {
    s.(currentUser := None)
  }

  /** `getCurrentUser()` */
  function GetCurrentUser(s: Store): (r: Option<User>)
    ensures !SignedIn(s) ==> r.None?
    ensures SignedIn(s) ==> r == GetUser(s, s.currentUser.value)
  {
    if !SignedIn(s) then None else GetUser(s, s.currentUser.value)
  }

  /** The records of the signed-in user, `[]` when there are none. */
  function StoredRecords(s: Store): seq<Record> {
    match GetCurrentUser(s)
    case None => []
    case Some(u) => u.records.GetOr([])
  }

  /** `addRecord(cycleId, dateTime, data)`. The record id comes from the
      clock and is a parameter. Fails when nobody is signed in or the
      signed-in password has no user; otherwise appends the record, sets
      `lastRecord` to a copy of its fields and saves the user. */
  function AddRecord(s: Store, cycleId: string, dateTime: int, data: Data, id: string, writeOk: bool): (r: Outcome)
    ensures GetCurrentUser(s).None? ==> r == Outcome(s, false)
    ensures GetCurrentUser(s).Some? ==> r.ok == writeOk
    ensures r.ok ==> StoredRecords(r.store) == StoredRecords(s) + [Record(id, cycleId, dateTime, data)]
    ensures r.ok ==> GetCurrentUser(r.store).value.lastRecord == Some(Snapshot(cycleId, dateTime, data))
    ensures r.ok ==> GetCurrentUser(r.store).value.name == GetCurrentUser(s).value.name
    ensures r.ok ==> forall p :: p != s.currentUser.value ==> GetUser(r.store, p) == GetUser(s, p)
    ensures !r.ok ==> r.store == s
  {
    match GetCurrentUser(s)
    case None => Outcome(s, false)
    case Some(user) =>
      var record := Record(id, cycleId, dateTime, data);
      var updated := user.(lastRecord := Some(Snapshot(cycleId, dateTime, data)),
                           records := Some(user.records.GetOr([]) + [record]));
      SaveUser(s, s.currentUser.value, updated, writeOk)
  }

  /** The test `getRecords` filters with: the cycle when one is given (a
      falsy `cycleId` matches every record), and the inclusive range only
      when both bounds are given. A bound is the instant its date string
      denotes; `None` stands for a falsy (empty or absent) string. */
  predicate Matches(r: Record, cycleId: Option<string>, start: Option<int>, end: Option<int>) {
    && (cycleId.Some? && cycleId.value != "" ==> r.cycleId == cycleId.value)
    && (start.Some? && end.Some? ==> start.value <= r.dateTime <= end.value)
  }

  /** `getRecords(cycleId, startDate, endDate)`: the signed-in user's
      matching records, newest first. */
  function GetRecords(s: Store, cycleId: Option<string>, start: Option<int>, end: Option<int>): (r: seq<Record>)
    ensures GetCurrentUser(s).None? || GetCurrentUser(s).value.records.None? ==> r == []
    ensures forall i :: 0 <= i < |r| ==> Matches(r[i], cycleId, start, end)
    ensures forall x :: multiset(r)[x] == if Matches(x, cycleId, start, end) then multiset(StoredRecords(s))[x] else 0
    ensures NewestFirst(r)
  {
    var kept := Sequences.Filter(StoredRecords(s), x => Matches(x, cycleId, start, end));
    var r := SortNewestFirst(kept);
    assert forall i :: 0 <= i < |r| ==> multiset(kept)[r[i]] > 0 by {
      forall i | 0 <= i < |r| ensures multiset(kept)[r[i]] > 0 {
        assert r[i] in multiset(r);
      }
    }
    r
  }

  // The bounds the history's date inputs give. A date input holds a day
  // as `YYYY-MM-DD`; days are numbered from 1970-01-01, and `None` is an
  // empty input.

  /** Milliseconds in a day. */
  const DayMs := 86400000

  /** The UTC day an instant falls on. */
  function DayOf(t: int): int {
    t / DayMs
  }

  /** `new Date(date)` for a date-only string: midnight UTC at the start of
      the day. `getRecords` turns both inputs into bounds this way. */
  function DateBound(day: Option<int>): (b: Option<int>)
    ensures b.Some? <==> day.Some?
    ensures b.Some? ==> DayOf(b.value) == day.value && b.value % DayMs == 0
  {
    match day
    case None => None
    case Some(d) => Some(d * DayMs)
  }

  /** The end bound as evidently intended: the last instant of the end
      day. */
  function EndOfDay(day: Option<int>): (b: Option<int>)
    ensures b.Some? <==> day.Some?
    ensures b.Some? ==> DayOf(b.value) == day.value && DayOf(b.value + 1) == day.value + 1
  {
    match day
    case None => None
    case Some(d) => Some((d + 1) * DayMs - 1)
  }

  /** As written, the end date bounds the period at the midnight that
      starts it: any record made later on the end day is left out, though
      it falls on a day of the period. */
  lemma EndDayDroppedAsWritten(x: Record, cycleId: Option<string>, startDay: int, endDay: int)
    requires DayOf(x.dateTime) == endDay && x.dateTime % DayMs != 0
    ensures !Matches(x, cycleId, DateBound(Some(startDay)), DateBound(Some(endDay)))
  {
    assert x.dateTime == DayMs * DayOf(x.dateTime) + x.dateTime % DayMs;
  }

  /** As written, a period keeps records from the first instant of the
      start day up to the midnight that starts the end day. */
  lemma DateBoundsKeep(x: Record, cycleId: Option<string>, startDay: int, endDay: int)
    requires Matches(x, cycleId, DateBound(Some(startDay)), DateBound(Some(endDay)))
    ensures startDay <= DayOf(x.dateTime) && x.dateTime <= endDay * DayMs
  {
    var t := x.dateTime;
    var d := DayOf(t);
    assert t == DayMs * d + t % DayMs && t % DayMs < DayMs;
  }

  /** As written, a record lies in the period exactly when its cycle
      matches and it falls between the first instant of the start day and
      the midnight that starts the end day. */
  lemma DateBoundsIff(x: Record, cycleId: Option<string>, startDay: int, endDay: int)
    ensures Matches(x, cycleId, DateBound(Some(startDay)), DateBound(Some(endDay))) <==>
      && (cycleId.Some? && cycleId.value != "" ==> x.cycleId == cycleId.value)
      && startDay <= DayOf(x.dateTime) && x.dateTime <= endDay * DayMs
  {
    var t := x.dateTime;
    assert t == DayMs * DayOf(t) + t % DayMs && t % DayMs < DayMs;
  }

  /** A query with the two date inputs as written returns stored records
      lying between the first instant of the start day and the midnight
      that starts the end day. */
  lemma GetRecordsWithinDays(s: Store, cycleId: Option<string>, startDay: Option<int>, endDay: Option<int>)
    ensures var r := GetRecords(s, cycleId, DateBound(startDay), DateBound(endDay));
      && (forall x :: x in r ==> x in StoredRecords(s))
      && (startDay.Some? && endDay.Some? ==> forall i :: 0 <= i < |r| ==>
            startDay.value <= DayOf(r[i].dateTime) && r[i].dateTime <= endDay.value * DayMs)
  {
    var r := GetRecords(s, cycleId, DateBound(startDay), DateBound(endDay));
    forall x | x in r ensures x in StoredRecords(s) {
      assert multiset(r)[x] > 0;
    }
    if startDay.Some? && endDay.Some? {
      forall i | 0 <= i < |r|
        ensures startDay.value <= DayOf(r[i].dateTime) && r[i].dateTime <= endDay.value * DayMs
      {
        DateBoundsKeep(r[i], cycleId, startDay.value, endDay.value);
      }
    }
  }

  /** A record made at noon of day 2, queried for the period from day 2 to
      day 2: as written nothing is returned; with the corrected end bound
      the record is. */
  const NoonRecord := Record("noon", "biologico", 2 * DayMs + DayMs / 2, [])
  const NoonStore := Store(map["senha" := User("Ana", Some([NoonRecord]), None)], Some("senha"))

  lemma SameDayPeriodAsWritten()
    ensures GetRecords(NoonStore, Some("biologico"), DateBound(Some(2)), DateBound(Some(2))) == []
    ensures GetRecords(NoonStore, Some("biologico"), DateBound(Some(2)), EndOfDay(Some(2))) == [NoonRecord]
  {
    assert StoredRecords(NoonStore) == [NoonRecord];
    var a := GetRecords(NoonStore, Some("biologico"), DateBound(Some(2)), DateBound(Some(2)));
    assert multiset(a) == multiset{} by {
      forall y ensures multiset(a)[y] == 0 {
      }
    }
    assert |a| == |multiset(a)| == 0;
    var b := GetRecords(NoonStore, Some("biologico"), DateBound(Some(2)), EndOfDay(Some(2)));
    assert multiset(b) == multiset([NoonRecord]) by {
      forall y ensures multiset(b)[y] == multiset([NoonRecord])[y] {
      }
    }
    assert |b| == 1;
    assert b[0] in multiset(b);
  }

  /** With the corrected end bound a period keeps exactly the records made
      on one of its days, from the first instant of the start day to the
      last of the end day. */
  lemma DayPeriodKeepsWholeDays(x: Record, cycleId: Option<string>, startDay: int, endDay: int)
    ensures Matches(x, cycleId, DateBound(Some(startDay)), EndOfDay(Some(endDay))) <==>
      && (cycleId.Some? && cycleId.value != "" ==> x.cycleId == cycleId.value)
      && startDay <= DayOf(x.dateTime) <= endDay
  {
    var t := x.dateTime;
    var d := DayOf(t);
    assert t == DayMs * d + t % DayMs && 0 <= t % DayMs < DayMs;
    if startDay <= d {
      assert startDay * DayMs <= d * DayMs;
    } else {
      assert (startDay - 1) * DayMs >= d * DayMs;
    }
    if d <= endDay {
      assert d * DayMs <= endDay * DayMs;
    } else {
      assert d * DayMs >= (endDay + 1) * DayMs;
    }
  }

  /** `getLastRecord()` */
  function GetLastRecord(s: Store): (r: Option<Snapshot>)
    ensures GetCurrentUser(s).None? ==> r.None?
    ensures GetCurrentUser(s).Some? ==> r == GetCurrentUser(s).value.lastRecord
  {
    match GetCurrentUser(s)
    case None => None
    case Some(user) => user.lastRecord
  }

  /** `clearCurrentUserData()`: empties the records and the last record of
      the signed-in user and keeps the name. */
  function ClearCurrentUserData(s: Store, writeOk: bool): (r: Outcome)
    ensures GetCurrentUser(s).None? ==> r == Outcome(s, false)
    ensures GetCurrentUser(s).Some? ==> r.ok == writeOk
    ensures r.ok ==> GetCurrentUser(r.store) == Some(User(GetCurrentUser(s).value.name, Some([]), None))
    ensures r.ok ==> forall p :: p != s.currentUser.value ==> GetUser(r.store, p) == GetUser(s, p)
    ensures !r.ok ==> r.store == s
  {
    match GetCurrentUser(s)
    case None => Outcome(s, false)
    case Some(user) => SaveUser(s, s.currentUser.value, user.(records := Some([]), lastRecord := None), writeOk)
  }

  // Properties relating several operations.

  /** Every record `getRecords` returns is one of the user's records. */
  lemma GetRecordsSubset(s: Store, cycleId: Option<string>, start: Option<int>, end: Option<int>)
    ensures multiset(GetRecords(s, cycleId, start, end)) <= multiset(StoredRecords(s))
  {
    var r := GetRecords(s, cycleId, start, end);
    forall x ensures multiset(r)[x] <= multiset(StoredRecords(s))[x] {
    }
  }

  /** Without a cycle and without both bounds `getRecords` returns every
      record of the user, newest first. */
  lemma GetRecordsUnfiltered(s: Store, start: Option<int>, end: Option<int>)
    requires start.None? || end.None?
    ensures multiset(GetRecords(s, None, start, end)) == multiset(StoredRecords(s))
    ensures NewestFirst(GetRecords(s, None, start, end))
  {
    var r := GetRecords(s, None, start, end);
    forall x ensures multiset(r)[x] == multiset(StoredRecords(s))[x] {
      assert Matches(x, None, start, end);
    }
  }

  /** A freshly created user can sign in and has nothing recorded. */
  lemma CreateThenLogin(s: Store, password: string, name: string)
    requires password != ""
    ensures var c := CreateUser(s, password, name, true);
      var l := Login(c.store, password);
      l.ok && GetCurrentUser(l.store) == Some(NewUser(name))
      && GetRecords(l.store, None, None, None) == [] && GetLastRecord(l.store).None?
  {
    var l := Login(CreateUser(s, password, name, true).store, password);
    assert StoredRecords(l.store) == [];
  }

  /** A record added by the signed-in user is the last record and is found
      by `getRecords` for its cycle, with or without dates. */
  lemma AddThenQuery(s: Store, cycleId: string, dateTime: int, data: Data, id: string)
    requires GetCurrentUser(s).Some?
    ensures var a := AddRecord(s, cycleId, dateTime, data, id, true);
      && GetLastRecord(a.store) == Some(Snapshot(cycleId, dateTime, data))
      && Record(id, cycleId, dateTime, data) in GetRecords(a.store, Some(cycleId), None, None)
      && |GetRecords(a.store, None, None, None)| == |StoredRecords(s)| + 1
  {
    var a := AddRecord(s, cycleId, dateTime, data, id, true);
    var rec := Record(id, cycleId, dateTime, data);
    var q := GetRecords(a.store, Some(cycleId), None, None);
    assert StoredRecords(a.store)[|StoredRecords(s)|] == rec;
    assert multiset(StoredRecords(a.store))[rec] > 0;
    assert Matches(rec, Some(cycleId), None, None);
    assert multiset(q)[rec] > 0;
    GetRecordsUnfiltered(a.store, None, None);
    var all := GetRecords(a.store, None, None, None);
    assert |all| == |multiset(all)| == |multiset(StoredRecords(a.store))|;
  }

  /** After `clearCurrentUserData` the user has no records and no last
      record. */
  lemma ClearThenQuery(s: Store, cycleId: Option<string>, start: Option<int>, end: Option<int>)
    requires GetCurrentUser(s).Some?
    ensures var c := ClearCurrentUserData(s, true);
      c.ok && GetRecords(c.store, cycleId, start, end) == [] && GetLastRecord(c.store).None?
  {
    var c := ClearCurrentUserData(s, true);
    var r := GetRecords(c.store, cycleId, start, end);
    assert StoredRecords(c.store) == [];
  }

  /** `logout` undoes `login`: the users are untouched and nobody is signed
      in. */
  lemma LoginThenLogout(s: Store, password: string)
    ensures Logout(Login(s, password).store) == Logout(s)
  {
  }

  /** The empty string is falsy: a user stored under the empty password can
      log in, yet is not signed in afterwards, and nothing can be recorded
      for it. */
  lemma EmptyPasswordIsSignedOut(s: Store, cycleId: string, dateTime: int, data: Data, id: string)
    requires "" in s.users
    ensures Login(s, "").ok && !SignedIn(Login(s, "").store)
    ensures !AddRecord(Login(s, "").store, cycleId, dateTime, data, id, true).ok
  {
  }

  /** Changing the password of the signed-in user leaves `currentUser` on
      the old key: the user is no longer reachable until the next login. */
  lemma PasswordChangeOrphansSession(s: Store, newPassword: string, cycleId: string, dateTime: int, data: Data, id: string)
    requires SignedIn(s) && s.currentUser.value in s.users
    requires newPassword != "" && newPassword != s.currentUser.value
    ensures var u := UpdateUserPassword(s, s.currentUser.value, newPassword, true);
      u.ok && GetCurrentUser(u.store).None?
      && !AddRecord(u.store, cycleId, dateTime, data, id, true).ok
      && Login(u.store, newPassword).ok
      && GetCurrentUser(Login(u.store, newPassword).store) == GetCurrentUser(s)
  {
  }

  // `login` as written: `userExists` tests `!!users[password]`, and the
  // users document is a plain object, so a property inherited from
  // `Object.prototype` also reads as a truthy value.

  /** Property names every plain object inherits with a truthy value. */
  const ObjectPrototypeKeys: set<string> := {
    "constructor", "hasOwnProperty", "isPrototypeOf", "propertyIsEnumerable",
    "toLocaleString", "toString", "valueOf", "__proto__",
    "__defineGetter__", "__defineSetter__", "__lookupGetter__", "__lookupSetter__"
  }

  /** `userExists(password)` as written. */
  predicate UserExistsAsWritten(s: Store, password: string) {
    password in s.users || password in ObjectPrototypeKeys
  }

  /** `login(password)` as written. */
  function LoginAsWritten(s: Store, password: string): (r: Outcome)
    ensures r.ok <==> UserExistsAsWritten(s, password)
    ensures r.ok ==> r.store.currentUser == Some(password)
  {
    if UserExistsAsWritten(s, password) then Outcome(s.(currentUser := Some(password)), true)
    else Outcome(s, false)
  }

  /** On a store with no users at all, the password `"toString"` signs in
      as written; the own-key test refuses it. */
  lemma LoginAsWrittenAcceptsInheritedKey()
    ensures LoginAsWritten(Empty, "toString").ok
    ensures SignedIn(LoginAsWritten(Empty, "toString").store)
    ensures !Login(Empty, "toString").ok
  {
  }

  /** The two agree on every password that is not an inherited property
      name. */
  lemma LoginAgreesOffPrototype(s: Store, password: string)
    requires password !in ObjectPrototypeKeys
    ensures LoginAsWritten(s, password) == Login(s, password)
  {
  }
}

=== FILE: taxonomy.dfy ===
/** The static cycle -> category -> subcategory table and the value
    formatting of js/data/data.js. */
module Taxonomy {
  import opened Values
  import Text
  import Sequences

  /** `type` is absent on scale subcategories and `'boolean'` on yes/no ones. */
  datatype Subcategory = Subcategory(id: string, name: string, kind: Option<string>)

  datatype Category = Category(id: string, name: string, subcategories: seq<Subcategory>)

  datatype Cycle = Cycle(name: string, categories: seq<Category>)

  /** One element of `getAllSubcategories`. */
  datatype Descriptor = Descriptor(
    categoryId: string,
    categoryName: string,
    subcategoryId: string,
    subcategoryName: string,
    kind: string,
    fullId: string)

  const BooleanKind := "boolean"
  const SelectKind := "select"

  const Sono := Category("sono", "Sono e Descanso", [
    Subcategory("qualidade", "Qualidade do Sono", None),
    Subcategory("cama", "Qualidade da Cama", None),
    Subcategory("mente", "Qualidade da Mente", None)])
  const Sonhos := Category("sonhos", "Sonhos", [
    Subcategory("teve", "Teve Sonhos", Some(BooleanKind))])
  const Alimentacao := Category("alimentacao", "Alimentação", [
    Subcategory("qualidade", "Qualidade", None)])
  const Maconha := Category("maconha", "Uso de Maconha", [
    Subcategory("usou", "Fez Uso", Some(BooleanKind))])
  const Atividade := Category("atividade", "Atividade Física", [
    Subcategory("nivel", "Nível", None)])
  const Hidratacao := Category("hidratacao", "Hidratação", [
    Subcategory("nivel", "Nível", None)])

  const Biologico := Cycle("Ciclo Biológico", [Sono, Sonhos, Alimentacao, Maconha, Atividade, Hidratacao])

  /** `Data.cycles`: only the biological cycle exists. */
  const Cycles: map<string, Cycle> := map["biologico" := Biologico]

  /** `Data.valueMap`: the label of a rating on the 1..5 scale. */
  function ValueLabel(n: int): (r: Option<string>)
    ensures r.Some? <==> 1 <= n <= 5
  {
    if n == 5 then Some("Excelente")
    else if n == 4 then Some("Bom")
    else if n == 3 then Some("Regular")
    else if n == 2 then Some("Ruim")
    else if n == 1 then Some("Péssimo")
    else None
  }

  /** Different ratings carry different labels. */
  lemma ValueLabelInjective(m: int, n: int)
    requires ValueLabel(m).Some? && ValueLabel(m) == ValueLabel(n)
    ensures m == n
  {
  }

  /** `findCategory`: `None` when the cycle or the category is unknown. */
  function FindCategory(cycleId: string, categoryId: string): (r: Option<Category>)
    ensures cycleId !in Cycles ==> r.None?
    ensures r.Some? ==> r.value in Cycles[cycleId].categories && r.value.id == categoryId
    ensures cycleId in Cycles && r.None? ==>
      forall c :: c in Cycles[cycleId].categories ==> c.id != categoryId
  {
    if cycleId !in Cycles then None
    else
      var cats := Cycles[cycleId].categories;
      var k := Sequences.FindIndex(cats, (c: Category) => c.id == categoryId);
      if k < 0 then None else Some(cats[k])
  }

  /** `findSubcategory`: `None` when the cycle, the category or the
      subcategory is unknown. */
  function FindSubcategory(cycleId: string, categoryId: string, subcategoryId: string): (r: Option<Subcategory>)
    ensures FindCategory(cycleId, categoryId).None? ==> r.None?
    ensures r.Some? ==>
      r.value.id == subcategoryId && r.value in FindCategory(cycleId, categoryId).value.subcategories
    ensures FindCategory(cycleId, categoryId).Some? && r.None? ==>
      forall s :: s in FindCategory(cycleId, categoryId).value.subcategories ==> s.id != subcategoryId
  {
    match FindCategory(cycleId, categoryId)
    case None => None
    case Some(c) =>
      var k := Sequences.FindIndex(c.subcategories, (s: Subcategory) => s.id == subcategoryId);
      if k < 0 then None else Some(c.subcategories[k])
  }

  /** `` `${categoryId}-${subcategoryId}` `` */
  function FullId(categoryId: string, subcategoryId: string): string {
    categoryId + "-" + subcategoryId
  }

  /** `subcategory.type || 'select'` */
  function KindOf(s: Subcategory): string {
    if s.kind.Some? && s.kind.value != "" then s.kind.value else SelectKind
  }

  function Describe(c: Category, s: Subcategory): (d: Descriptor)
    ensures d.fullId == FullId(d.categoryId, d.subcategoryId)
  {
    Descriptor(c.id, c.name, s.id, s.name, KindOf(s), FullId(c.id, s.id))
  }

  function DescribeAll(c: Category, subs: seq<Subcategory>): (r: seq<Descriptor>)
    ensures |r| == |subs|
    ensures forall i :: 0 <= i < |subs| ==> r[i] == Describe(c, subs[i])
    decreases |subs|
  {
    if |subs| == 0 then [] else [Describe(c, subs[0])] + DescribeAll(c, subs[1..])
  }

  /** The number of subcategories of a list of categories. */
  function SubCount(cats: seq<Category>): nat
    decreases |cats|
  {
    if |cats| == 0 then 0 else |cats[0].subcategories| + SubCount(cats[1..])
  }

  /** Category by category, subcategory by subcategory. */
  function Flatten(cats: seq<Category>): (r: seq<Descriptor>)
    ensures |r| == SubCount(cats)
    decreases |cats|
  {
    if |cats| == 0 then []
    else DescribeAll(cats[0], cats[0].subcategories) + Flatten(cats[1..])
  }

  /** The descriptors of a table are exactly the descriptions of its
      subcategories. */
  lemma {:induction false} FlattenMembers(cats: seq<Category>, d: Descriptor)
    ensures d in Flatten(cats) <==>
      exists i, k :: 0 <= i < |cats| && 0 <= k < |cats[i].subcategories|
        && d == Describe(cats[i], cats[i].subcategories[k])
    decreases |cats|
  {
    if |cats| > 0 {
      var c := cats[0];
      var head := DescribeAll(c, c.subcategories);
      FlattenMembers(cats[1..], d);
      assert Flatten(cats) == head + Flatten(cats[1..]);
      if d in head {
        var k :| 0 <= k < |head| && head[k] == d;
        assert d == Describe(cats[0], cats[0].subcategories[k]);
      } else if d in Flatten(cats[1..]) {
        var i, k :| 0 <= i < |cats[1..]| && 0 <= k < |cats[1..][i].subcategories|
          && d == Describe(cats[1..][i], cats[1..][i].subcategories[k]);
        assert cats[1..][i] == cats[i + 1];
      } else {
        forall i, k | 0 <= i < |cats| && 0 <= k < |cats[i].subcategories|
          ensures d != Describe(cats[i], cats[i].subcategories[k])
        {
          if i == 0 {
            assert head[k] == Describe(cats[0], cats[0].subcategories[k]);
          } else {
            assert cats[i] == cats[1..][i - 1];
          }
        }
      }
    }
  }

  /** Flattening runs category by category: the descriptors of a
      concatenation are those of the first part followed by those of the
      second. */
  lemma {:induction false} FlattenAppend(a: seq<Category>, b: seq<Category>)
    ensures Flatten(a + b) == Flatten(a) + Flatten(b)
    decreases |a|
  {
    if |a| > 0 {
      assert (a + b)[1..] == a[1..] + b;
      FlattenAppend(a[1..], b);
    } else {
      assert a + b == b;
    }
  }

  /** Subcategory `k` of category `i` comes right after every subcategory
      of the categories before `i`, and after the first `k` of its own. */
  lemma FlattenAt(cats: seq<Category>, i: int, k: int)
    requires 0 <= i < |cats| && 0 <= k < |cats[i].subcategories|
    ensures SubCount(cats[..i]) + k < |Flatten(cats)|
    ensures Flatten(cats)[SubCount(cats[..i]) + k] == Describe(cats[i], cats[i].subcategories[k])
  {
    assert cats == cats[..i] + [cats[i]] + cats[i + 1..];
    FlattenAppend(cats[..i] + [cats[i]], cats[i + 1..]);
    FlattenAppend(cats[..i], [cats[i]]);
    assert [cats[i]][1..] == [];
    assert Flatten([cats[i]]) == DescribeAll(cats[i], cats[i].subcategories);
  }

  /** `getAllSubcategories(cycleId)`: one descriptor per subcategory of the
      cycle, category by category; empty for an unknown cycle. */
  function GetAllSubcategories(cycleId: string): (r: seq<Descriptor>)
    ensures cycleId !in Cycles ==> r == []
    ensures cycleId in Cycles ==> |r| == SubCount(Cycles[cycleId].categories)
  {
    if cycleId !in Cycles then [] else Flatten(Cycles[cycleId].categories)
  }

  /** Ids contain no dash and sibling subcategories have distinct ids. */
  predicate CategoryWellFormed(c: Category) {
    && Text.Free(c.id, '-')
    && (forall k :: 0 <= k < |c.subcategories| ==> Text.Free(c.subcategories[k].id, '-'))
    && (forall k, l :: 0 <= k < l < |c.subcategories| ==> c.subcategories[k].id != c.subcategories[l].id)
  }

  /** The properties of the table that `fullId` uniqueness rests on. */
  predicate WellFormed(cats: seq<Category>) {
    && (forall i :: 0 <= i < |cats| ==> CategoryWellFormed(cats[i]))
    && (forall i, j :: 0 <= i < j < |cats| ==> cats[i].id != cats[j].id)
  }

  predicate UniqueFullIds(r: seq<Descriptor>) {
    forall i, j :: 0 <= i < j < |r| ==> r[i].fullId != r[j].fullId
  }

  lemma DescribeAllUnique(c: Category)
    requires CategoryWellFormed(c)
    ensures UniqueFullIds(DescribeAll(c, c.subcategories))
  {
    var r := DescribeAll(c, c.subcategories);
    forall i, j | 0 <= i < j < |r| ensures r[i].fullId != r[j].fullId {
      if r[i].fullId == r[j].fullId {
        Text.DashedPairInjective(c.id, c.subcategories[i].id, c.id, c.subcategories[j].id);
        assert false;
      }
    }
  }

  /** In a well-formed table no two descriptors share a `fullId`, so the
      report may key its columns, cells and form fields by `fullId`. */
  lemma {:induction false} FullIdsUnique(cats: seq<Category>)
    requires WellFormed(cats)
    ensures UniqueFullIds(Flatten(cats))
    decreases |cats|
  {
    if |cats| > 0 {
      var c := cats[0];
      var head := DescribeAll(c, c.subcategories);
      var tail := Flatten(cats[1..]);
      assert WellFormed(cats[1..]) by {
        forall i, j | 0 <= i < j < |cats[1..]| ensures cats[1..][i].id != cats[1..][j].id {
          assert cats[1..][i] == cats[i + 1] && cats[1..][j] == cats[j + 1];
        }
      }
      FullIdsUnique(cats[1..]);
      DescribeAllUnique(c);
      assert CategoryWellFormed(c);
      var r := head + tail;
      forall i, j | 0 <= i < |head| <= j < |r| ensures r[i].fullId != r[j].fullId {
        var d := tail[j - |head|];
        FlattenMembers(cats[1..], d);
        var a, k :| 0 <= a < |cats[1..]| && 0 <= k < |cats[1..][a].subcategories|
          && d == Describe(cats[1..][a], cats[1..][a].subcategories[k]);
        var e := cats[a + 1];
        assert cats[1..][a] == e && CategoryWellFormed(e);
        if r[i].fullId == r[j].fullId {
          Text.DashedPairInjective(c.id, c.subcategories[i].id, e.id, e.subcategories[k].id);
          assert false;
        }
      }
    }
  }

  lemma BiologicoWellFormed()
    ensures WellFormed(Biologico.categories)
  {
    var cats := Biologico.categories;
    forall i | 0 <= i < |cats| ensures CategoryWellFormed(cats[i]) {
      BiologicoCategoryWellFormed(i);
    }
    var ids := ["sono", "sonhos", "alimentacao", "maconha", "atividade", "hidratacao"];
    assert forall i :: 0 <= i < |cats| ==> cats[i].id == ids[i];
    assert forall i, j :: 0 <= i < j < |ids| ==> ids[i] != ids[j] by {
      forall i, j | 0 <= i < j < |ids| ensures ids[i] != ids[j] {
        assert ids[i][..2] != ids[j][..2] || |ids[i]| != |ids[j]|;
      }
    }
  }

  lemma BiologicoCategoryWellFormed(i: nat)
    requires i < |Biologico.categories|
    ensures CategoryWellFormed(Biologico.categories[i])
  {
    var c := Biologico.categories[i];
    if i == 0 {
      SonoWellFormed();
    } else {
      SingleSubcategoryWellFormed(c);
    }
  }

  lemma SonoWellFormed()
    ensures CategoryWellFormed(Sono)
  {
    var subs := Sono.subcategories;
    assert forall k :: 0 <= k < |subs| ==> Text.Free(subs[k].id, '-');
    assert forall k, l :: 0 <= k < l < |subs| ==> subs[k].id != subs[l].id;
  }

  lemma SingleSubcategoryWellFormed(c: Category)
    requires |c.subcategories| == 1
    requires Text.Free(c.id, '-') && Text.Free(c.subcategories[0].id, '-')
    ensures CategoryWellFormed(c)
  {
  }

  /** The biological cycle yields eight descriptors with distinct
      `fullId`s. */
  lemma BiologicoDescriptors()
    ensures |GetAllSubcategories("biologico")| == 8
    ensures UniqueFullIds(GetAllSubcategories("biologico"))
  {
    BiologicoWellFormed();
    FullIdsUnique(Biologico.categories);
    var cats := Biologico.categories;
    assert SubCount(cats[5..]) == 1;
    assert SubCount(cats[4..]) == 2;
    assert SubCount(cats[3..]) == 3;
    assert SubCount(cats[2..]) == 4;
    assert SubCount(cats[1..]) == 5;
  }

  /** `formatValue(value, type)` as a JavaScript value: `'-'` for
      `undefined`/`null`, `'Sim'`/`'Não'` by truthiness for booleans, the
      label of a parsed rating on the 1..5 scale, else the value itself. */
  function FormatValue(v: Option<Value>, kind: string): (r: Value)
    ensures v.None? || v.value.VNull? ==> r == VStr("-")
    ensures v.Some? && !v.value.VNull? && kind == BooleanKind ==>
      r == VStr(if Truthy(v.value) then "Sim" else "Não")
    ensures v.Some? && !v.value.VNull? && kind != BooleanKind ==>
      if ParseInt(v.value).Some? && ValueLabel(ParseInt(v.value).value).Some?
      then r == VStr(ValueLabel(ParseInt(v.value).value).value)
      else r == v.value
  {
    if v.None? || v.value.VNull? then VStr("-")
    else if kind == BooleanKind then VStr(if Truthy(v.value) then "Sim" else "Não")
    else
      match ParseInt(v.value)
      case Some(n) =>
        (match ValueLabel(n)
         case Some(text) => VStr(text)
         case None => v.value)
      case None => v.value
  }

  /** `getStatusClass(value)` */
  function GetStatusClass(v: Option<Value>): (r: string)
    ensures !TruthyOpt(v) ==> r == ""
    ensures v == Some(VBool(true)) ==> r == "status-excellent"
  {
    if !TruthyOpt(v) then ""
    else if v.value == VBool(true) then "status-excellent"
    else if v.value == VBool(false) then ""
    else
      match ParseInt(v.value)
      case None => ""
      case Some(n) =>
        if n == 5 then "status-excellent"
        else if n == 4 then "status-good"
        else if n == 3 then "status-regular"
        else if n == 2 then "status-bad"
        else if n == 1 then "status-terrible"
        else ""
  }

  /** The rating on the 1..5 scale that `parseInt` reads from a value. */
  function ScaleRating(v: Option<Value>): (r: Option<int>)
    ensures r.Some? <==> v.Some? && ParseInt(v.value).Some? && 1 <= ParseInt(v.value).value <= 5
  {
    if v.None? then None
    else
      match ParseInt(v.value)
      case Some(n) => if 1 <= n <= 5 then Some(n) else None
      case None => None
  }

  /** The labels do not parse as numbers, so formatting a formatted value
      changes nothing more for scale subcategories. */
  lemma LabelsDoNotParse(n: int)
    requires ValueLabel(n).Some?
    ensures ParseInt(VStr(ValueLabel(n).value)).None?
  {
    var s := ValueLabel(n).value;
    assert |s| > 0 && 'A' <= s[0] <= 'Z';
    CapitalDoesNotParse(s);
  }

  /** `parseInt('-')` is `NaN`: a sign without digits. */
  lemma DashDoesNotParse()
    ensures ParseInt(VStr("-")).None?
  {
    var t := "-";
    TrimStartNoLeadingSpace(t);
    assert ParseUnsigned(t[1..]).None?;
  }

  /** For scale subcategories `formatValue` is idempotent. (For booleans it
      is not: `'Não'` is a non-empty string and so formats as `'Sim'`.) */
  lemma FormatValueIdempotent(v: Option<Value>, kind: string)
    requires kind != BooleanKind
    ensures FormatValue(Some(FormatValue(v, kind)), kind) == FormatValue(v, kind)
  {
    if v.None? || v.value.VNull? {
      DashDoesNotParse();
    } else {
      var p := ParseInt(v.value);
      if p.Some? && ValueLabel(p.value).Some? {
        LabelsDoNotParse(p.value);
      }
    }
  }

  /** A truthy value that is not a boolean is coloured by its parsed
      rating alone. */
  lemma StatusOfParsed(v: Value)
    requires Truthy(v) && !v.VBool?
    ensures GetStatusClass(Some(v)) != "" <==> ScaleRating(Some(v)).Some?
  {
    var p := ParseInt(v);
    if p.Some? {
      var n := p.value;
      assert GetStatusClass(Some(v)) == (
        if n == 5 then "status-excellent"
        else if n == 4 then "status-good"
        else if n == 3 then "status-regular"
        else if n == 2 then "status-bad"
        else if n == 1 then "status-terrible"
        else "");
    }
  }

  /** A non-boolean value gets a status colour exactly when it carries a
      rating on the 1..5 scale, and then `formatValue` shows that rating's
      label: the colour and the text of a card item agree. */
  lemma StatusClassMatchesLabel(v: Option<Value>)
    requires v.None? || !v.value.VBool?
    ensures GetStatusClass(v) != "" <==> ScaleRating(v).Some?
    ensures ScaleRating(v).Some? ==>
      FormatValue(v, SelectKind) == VStr(ValueLabel(ScaleRating(v).value).value)
  {
    if v.Some? {
      var x := v.value;
      if x.VNull? {
        ParseIntOfNonNumbers(false);
      } else if x.VInt? && x.n == 0 {
        ParseIntOfInt(0);
      } else if x.VStr? && x.s == "" {
        EmptyDoesNotParse();
      } else {
        StatusOfParsed(x);
      }
    }
  }

  /** The status class of a non-boolean value names its rating on the
      1..5 scale: excellent, good, regular, bad, terrible from 5 down to 1,
      and no class without a rating. */
  lemma StatusClassOfRating(v: Option<Value>)
    requires v.None? || !v.value.VBool?
    ensures ScaleRating(v) == Some(5) ==> GetStatusClass(v) == "status-excellent"
    ensures ScaleRating(v) == Some(4) ==> GetStatusClass(v) == "status-good"
    ensures ScaleRating(v) == Some(3) ==> GetStatusClass(v) == "status-regular"
    ensures ScaleRating(v) == Some(2) ==> GetStatusClass(v) == "status-bad"
    ensures ScaleRating(v) == Some(1) ==> GetStatusClass(v) == "status-terrible"
    ensures ScaleRating(v).None? ==> GetStatusClass(v) == ""
  {
    StatusClassMatchesLabel(v);
    if ScaleRating(v).Some? {
      assert TruthyOpt(v) && ParseInt(v.value) == ScaleRating(v);
    }
  }

  /** `parseInt('')` is `NaN`. */
  lemma EmptyDoesNotParse()
    ensures ParseInt(VStr("")).None?
  {
  }
}

=== FILE: text.dfy ===
/** String helpers the journal relies on: `split`/`join` on a separator,
    prefix and suffix tests, and the fixed total order that stands in for
    `localeCompare`. */
module Text {

  /** `s.split(sep)`: the pieces between separators, at least one. */
  function Split(s: string, sep: char): (parts: seq<string>)
    ensures |parts| >= 1
    decreases |s|
  {
    if |s| == 0 then [""]
    else if s[0] == sep then [""] + Split(s[1..], sep)
    else
      var rest := Split(s[1..], sep);
      [[s[0]] + rest[0]] + rest[1..]
  }

  /** `parts.join(sep)`; the empty array joins to the empty string. */
  function Join(parts: seq<string>, sep: string): string
    decreases |parts|
  {
    if |parts| == 0 then ""
    else if |parts| == 1 then parts[0]
    else parts[0] + sep + Join(parts[1..], sep)
  }

  predicate Free(s: string, sep: char) {
    sep !in s
  }

  predicate AllFree(parts: seq<string>, sep: char) {
    forall i :: 0 <= i < |parts| ==> Free(parts[i], sep)
  }

  predicate StartsWith(s: string, prefix: string) {
    |prefix| <= |s| && s[..|prefix|] == prefix
  }

  predicate EndsWith(s: string, suffix: string) {
    |suffix| <= |s| && s[|s| - |suffix|..] == suffix
  }

  /** A piece free of the separator splits to itself. */
  lemma {:induction false} SplitFree(a: string, sep: char)
    requires Free(a, sep)
    ensures Split(a, sep) == [a]
    decreases |a|
  {
    if |a| > 0 {
      SplitFree(a[1..], sep);
      assert [a[0]] + a[1..] == a;
    }
  }

  /** Splitting `a + sep + b` cuts at the separator right after `a`. */
  lemma {:induction false} SplitAfterFree(a: string, sep: char, b: string)
    requires Free(a, sep)
    ensures Split(a + [sep] + b, sep) == [a] + Split(b, sep)
    decreases |a|
  {
    var s := a + [sep] + b;
    if |a| == 0 {
      assert s[1..] == b;
    } else {
      assert s[0] == a[0];
      assert s[1..] == a[1..] + [sep] + b;
      SplitAfterFree(a[1..], sep, b);
      assert [a[0]] + a[1..] == a;
    }
  }

  /** Joining pieces that do not contain the separator and splitting again
      gives the pieces back. */
  lemma {:induction false} SplitJoin(parts: seq<string>, sep: char)
    requires |parts| >= 1
    requires AllFree(parts, sep)
    ensures Split(Join(parts, [sep]), sep) == parts
    decreases |parts|
  {
    if |parts| == 1 {
      SplitFree(parts[0], sep);
    } else {
      assert AllFree(parts[1..], sep) by {
        forall i | 0 <= i < |parts[1..]| ensures Free(parts[1..][i], sep) {
          assert parts[1..][i] == parts[i + 1];
        }
      }
      SplitJoin(parts[1..], sep);
      SplitAfterFree(parts[0], sep, Join(parts[1..], [sep]));
      assert [parts[0]] + parts[1..] == parts;
    }
  }

  /** Joining pieces free of `c` with a separator other than `c` gives a
      string free of `c`. */
  lemma {:induction false} JoinFree(parts: seq<string>, sep: string, c: char)
    requires AllFree(parts, c) && Free(sep, c)
    ensures Free(Join(parts, sep), c)
    decreases |parts|
  {
    if |parts| > 1 {
      assert AllFree(parts[1..], c) by {
        forall i | 0 <= i < |parts[1..]| ensures Free(parts[1..][i], c) {
          assert parts[1..][i] == parts[i + 1];
        }
      }
      JoinFree(parts[1..], sep, c);
      assert Free(parts[0], c);
      var j := Join(parts, sep);
      assert j == parts[0] + sep + Join(parts[1..], sep);
      assert forall k :: 0 <= k < |j| ==> j[k] != c by {
        forall k | 0 <= k < |j| ensures j[k] != c {
          if k < |parts[0]| {
            assert j[k] == parts[0][k];
          } else if k < |parts[0]| + |sep| {
            assert j[k] == sep[k - |parts[0]|];
          } else {
            assert j[k] == Join(parts[1..], sep)[k - |parts[0]| - |sep|];
          }
        }
      }
    } else if |parts| == 1 {
      assert Free(parts[0], c);
    }
  }

  /** Splitting and joining again gives the string back. */
  lemma {:induction false} JoinSplit(s: string, sep: char)
    ensures Join(Split(s, sep), [sep]) == s
    decreases |s|
  {
    if |s| > 0 {
      JoinSplit(s[1..], sep);
      var rest := Split(s[1..], sep);
      if s[0] != sep {
        var parts := Split(s, sep);
        assert parts[1..] == rest[1..];
        if |rest| == 1 {
          assert parts == [[s[0]] + rest[0]];
        } else {
          assert Join(rest, [sep]) == rest[0] + [sep] + Join(rest[1..], [sep]);
        }
      }
    }
  }

  /** `a + "-" + b` determines `a` and `b` when `a` and `c` have no dash. */
  lemma DashedPairInjective(a: string, b: string, c: string, d: string)
    requires Free(a, '-') && Free(c, '-')
    requires a + "-" + b == c + "-" + d
    ensures a == c && b == d
  {
    SplitAfterFree(a, '-', b);
    SplitAfterFree(c, '-', d);
    assert a + "-" + b == a + ['-'] + b;
    assert c + "-" + d == c + ['-'] + d;
    var x := Split(a + ['-'] + b, '-');
    assert x[0] == a && x[0] == c;
    assert b == (a + "-" + b)[|a| + 1..];
    assert d == (c + "-" + d)[|c| + 1..];
  }

  /** Code-unit lexicographic order, the fixed total order that models
      `localeCompare`. */
  predicate LessEq(a: string, b: string)
    decreases |a|
  {
    if |a| == 0 then true
    else if |b| == 0 then false
    else if a[0] != b[0] then a[0] < b[0]
    else LessEq(a[1..], b[1..])
  }

  lemma {:induction false} LessEqTotal(a: string, b: string)
    ensures LessEq(a, b) || LessEq(b, a)
    decreases |a|
  {
    if |a| > 0 && |b| > 0 && a[0] == b[0] {
      LessEqTotal(a[1..], b[1..]);
    }
  }

  lemma {:induction false} LessEqTransitive(a: string, b: string, c: string)
    requires LessEq(a, b) && LessEq(b, c)
    ensures LessEq(a, c)
    decreases |a|
  {
    if |a| > 0 && |b| > 0 && |c| > 0 && a[0] == b[0] && b[0] == c[0] {
      LessEqTransitive(a[1..], b[1..], c[1..]);
    }
  }

  lemma {:induction false} LessEqAntisymmetric(a: string, b: string)
    requires LessEq(a, b) && LessEq(b, a)
    ensures a == b
    decreases |a|
  {
    if |a| > 0 && |b| > 0 {
      LessEqAntisymmetric(a[1..], b[1..]);
      assert a == [a[0]] + a[1..] && b == [b[0]] + b[1..];
    }
  }
}

=== FILE: values.dfy ===
/** The JavaScript values found in a record's `data` object and the
    coercions the journal applies to them: truthiness, `String(v)`,
    `Array.prototype.join`'s rendering of a field, `trim` and `parseInt`. */
module Values {

  datatype Option<+T> = None | Some(value: T) {
    function GetOr(default: T): T {
      match this
      case Some(v) => v
      case None => default
    }
  }

  /** A value stored under a key of `data`. Numbers are integral (the form
      stores ratings); a key that is absent (`undefined`) is `None` at the
      lookup rather than a value. */
  datatype Value = VInt(n: int) | VStr(s: string) | VBool(b: bool) | VNull

  predicate Truthy(v: Value) {
    match v
    case VInt(n) => n != 0
    case VStr(s) => s != ""
    case VBool(b) => b
    case VNull => false
  }

  /** Truthiness of a lookup result: `undefined` is falsy. */
  predicate TruthyOpt(v: Option<Value>) {
    v.Some? && Truthy(v.value)
  }

  /** ECMAScript white space and line terminators, the characters that
      `trim` and `parseInt` skip. */
  predicate IsWhiteSpace(c: char) {
    c == '\t' || c == '\n' || c == '\U{B}' || c == '\U{C}' || c == '\r' || c == ' '
    || c == '\U{A0}' || c == '\U{1680}' || ('\U{2000}' <= c <= '\U{200A}')
    || c == '\U{2028}' || c == '\U{2029}' || c == '\U{202F}' || c == '\U{205F}'
    || c == '\U{3000}' || c == '\U{FEFF}'
  }

  function TrimStart(s: string): (t: string)
    ensures |t| <= |s| && t == s[|s| - |t|..]
    ensures |t| > 0 ==> !IsWhiteSpace(t[0])
    ensures forall i :: 0 <= i < |s| - |t| ==> IsWhiteSpace(s[i])
    decreases |s|
  {
    if |s| > 0 && IsWhiteSpace(s[0]) then TrimStart(s[1..]) else s
  }

  function TrimEnd(s: string): (t: string)
    ensures |t| <= |s| && t == s[..|t|]
    ensures |t| > 0 ==> !IsWhiteSpace(t[|t| - 1])
    ensures forall i :: |t| <= i < |s| ==> IsWhiteSpace(s[i])
    decreases |s|
  {
    if |s| > 0 && IsWhiteSpace(s[|s| - 1]) then TrimEnd(s[..|s| - 1]) else s
  }

  /** `s.trim()` */
  function Trim(s: string): string {
    TrimEnd(TrimStart(s))
  }

  predicate Blank(s: string) {
    forall i :: 0 <= i < |s| ==> IsWhiteSpace(s[i])
  }

  /** `s.trim() !== ''` exactly when `s` has a character that is not white space. */
  lemma TrimEmptyIffBlank(s: string)
    ensures Trim(s) == "" <==> Blank(s)
  {
    var t := TrimStart(s);
    if Trim(s) == "" {
      assert Blank(t);
      assert |t| == 0;
    } else {
      var u := Trim(s);
      assert !IsWhiteSpace(u[0]);
      assert u[0] == t[0] == s[|s| - |t|];
    }
  }

  function DigitChar(d: nat): char
    requires d < 10
  {
    ('0' as int + d) as char
  }

  /** The decimal digits of a natural number, without leading zeros. */
  function NatToString(n: nat): (s: string)
    ensures |s| >= 1
    decreases n
  {
    if n < 10 then [DigitChar(n)] else NatToString(n / 10) + [DigitChar(n % 10)]
  }

  /** `String(n)` for an integral number (below 10^21 in magnitude). */
  function IntToString(n: int): string {
    if n < 0 then "-" + NatToString(-n) else NatToString(n)
  }

  /** `String(v)` */
  function ToText(v: Value): string {
    match v
    case VInt(n) => IntToString(n)
    case VStr(s) => s
    case VBool(b) => if b then "true" else "false"
    case VNull => "null"
  }

  /** How `Array.prototype.join` renders one element: `null` and
      `undefined` become the empty string. */
  function FieldText(v: Option<Value>): (t: string)
    ensures v.None? || v.value.VNull? ==> t == ""
    ensures v.Some? && !v.value.VNull? ==> t == ToText(v.value)
  {
    match v
    case None => ""
    case Some(VNull) => ""
    case Some(x) => ToText(x)
  }

  /** The value of an ASCII digit or letter (`'a'`/`'A'` is 10), or 36
      for any other character. */
  function DigitValue(c: char): (d: nat)
    ensures d <= 36
  {
    if '0' <= c <= '9' then c as int - '0' as int
    else if 'a' <= c <= 'z' then c as int - 'a' as int + 10
    else if 'A' <= c <= 'Z' then c as int - 'A' as int + 10
    else 36
  }

  /** The longest prefix of `s` made of digits in the given radix. */
  function DigitPrefix(s: string, radix: nat): (z: string)
    ensures |z| <= |s| && z == s[..|z|]
    ensures forall i :: 0 <= i < |z| ==> DigitValue(z[i]) < radix
    ensures |z| < |s| ==> DigitValue(s[|z|]) >= radix
    decreases |s|
  {
    if |s| > 0 && DigitValue(s[0]) < radix then [s[0]] + DigitPrefix(s[1..], radix) else ""
  }

  /** The number a digit string denotes in the given radix. */
  function DigitsValue(z: string, radix: nat): nat
    decreases |z|
  {
    if |z| == 0 then 0
    else DigitsValue(z[..|z| - 1], radix) * radix + DigitValue(z[|z| - 1])
  }

  /** The unsigned part of `parseInt`: a `0x`/`0X` hexadecimal or else a
      decimal digit prefix; `None` when there is no digit. */
  function ParseUnsigned(u: string): (r: Option<nat>)
    ensures r.None? <==> (if |u| >= 2 && u[0] == '0' && (u[1] == 'x' || u[1] == 'X')
                          then |u| == 2 || DigitValue(u[2]) >= 16
                          else |u| == 0 || DigitValue(u[0]) >= 10)
  {
    var hex := |u| >= 2 && u[0] == '0' && (u[1] == 'x' || u[1] == 'X');
    var radix := if hex then 16 else 10;
    var z := DigitPrefix(if hex then u[2..] else u, radix);
    if |z| == 0 then None else Some(DigitsValue(z, radix))
  }

  /** `parseInt(s)` with no radix: skip leading white space, take an
      optional sign, then the unsigned part; `None` is `NaN`. */
  function ParseIntText(s: string): Option<int> {
    var t := TrimStart(s);
    if |t| > 0 && t[0] == '-' then
      match ParseUnsigned(t[1..])
      case None => None
      case Some(m) => Some(-(m as int))
    else if |t| > 0 && t[0] == '+' then
      match ParseUnsigned(t[1..])
      case None => None
      case Some(m) => Some(m)
    else
      match ParseUnsigned(t)
      case None => None
      case Some(m) => Some(m)
  }

  /** `parseInt(v)`: the value is first converted with `String(v)`. */
  function ParseInt(v: Value): Option<int> {
    ParseIntText(ToText(v))
  }

  lemma {:induction false} NatToStringDigits(n: nat)
    ensures forall i :: 0 <= i < |NatToString(n)| ==> '0' <= NatToString(n)[i] <= '9'
    ensures DigitPrefix(NatToString(n), 10) == NatToString(n)
    ensures DigitsValue(NatToString(n), 10) == n
    decreases n
  {
    var s := NatToString(n);
    if n >= 10 {
      NatToStringDigits(n / 10);
      assert s[..|s| - 1] == NatToString(n / 10);
    }
    DigitPrefixOfDigits(s);
  }

  lemma {:induction false} DigitPrefixOfDigits(s: string)
    requires forall i :: 0 <= i < |s| ==> '0' <= s[i] <= '9'
    ensures DigitPrefix(s, 10) == s
    decreases |s|
  {
    if |s| > 0 {
      DigitPrefixOfDigits(s[1..]);
      assert [s[0]] + s[1..] == s;
    }
  }

  /** A leading zero is the whole decimal string, so `String(n)` never
      looks like a `0x` prefix. */
  lemma NatToStringNoHexPrefix(n: nat)
    ensures NatToString(n)[0] == '0' ==> n == 0
  {
    if n >= 10 {
      NatToStringLeading(n);
    }
  }

  lemma {:induction false} NatToStringLeading(n: nat)
    requires n >= 1
    ensures NatToString(n)[0] != '0'
    decreases n
  {
    if n >= 10 {
      NatToStringLeading(n / 10);
    }
  }

  lemma ParseUnsignedOfNat(m: nat)
    ensures ParseUnsigned(NatToString(m)) == Some(m)
  {
    NatToStringDigits(m);
    NatToStringNoHexPrefix(m);
  }

  /** Text that starts with a capital letter is `NaN` to `parseInt`. */
  lemma CapitalDoesNotParse(s: string)
    requires |s| > 0 && 'A' <= s[0] <= 'Z'
    ensures ParseIntText(s).None?
  {
    TrimStartNoLeadingSpace(s);
    assert DigitValue(s[0]) >= 10;
  }

  lemma TrimStartNoLeadingSpace(s: string)
    requires |s| > 0 && !IsWhiteSpace(s[0])
    ensures TrimStart(s) == s
  {
  }

  lemma ParseIntTextOfNat(m: nat)
    ensures ParseIntText(NatToString(m)) == Some(m)
  {
    var s := NatToString(m);
    ParseUnsignedOfNat(m);
    NatToStringFirst(m);
    TrimStartNoLeadingSpace(s);
  }

  lemma NatToStringFirst(m: nat)
    ensures !IsWhiteSpace(NatToString(m)[0])
    ensures NatToString(m)[0] != '-' && NatToString(m)[0] != '+'
  {
    NatToStringDigits(m);
    var s := NatToString(m);
    assert '0' <= s[0] <= '9';
  }

  lemma ParseIntTextOfNegative(m: nat)
    ensures ParseIntText("-" + NatToString(m)) == Some(-(m as int))
  {
    var s := "-" + NatToString(m);
    ParseUnsignedOfNat(m);
    assert s[0] == '-';
    TrimStartNoLeadingSpace(s);
    assert s[1..] == NatToString(m);
  }

  /** `parseInt(String(n)) === n`: parsing undoes the number-to-string
      conversion, so a numeric entry counts with its own value. */
  lemma ParseIntOfInt(n: int)
    ensures ParseInt(VInt(n)) == Some(n)
  {
    if n < 0 {
      ParseIntTextOfNegative(-n);
    } else {
      ParseIntTextOfNat(n);
    }
  }

  /** Booleans and `null` never parse: `"true"`, `"false"` and `"null"`
      start with a letter beyond the decimal digits. */
  lemma ParseIntOfNonNumbers(b: bool)
    ensures ParseInt(VBool(b)) == None
    ensures ParseInt(VNull) == None
  {
    var s := ToText(VBool(b));
    assert !IsWhiteSpace(s[0]) && TrimStart(s) == s;
    assert DigitValue(s[0]) >= 10;
    assert !IsWhiteSpace("null"[0]) && TrimStart("null") == "null";
    assert DigitValue("null"[0]) >= 10;
  }
}
